=== FILE: README.md ===
# pyfracman core in Dafny

This project models two parts of pyfracman, the Python toolkit around the
FracMan discrete-fracture-network simulator:

- **The `.fab` reader** (`pyfracman/fab.py`). A `.fab` file is text made of
  `BEGIN <NAME>` … `END <NAME>` sections. `parse_fab_file` makes one pass
  over its lines:
  - FORMAT, PROPERTIES and SETS sections are `key = value` dictionaries;
  - a FRACTURE section lists planar fractures: a header line, the vertex
    lines, then the normal line;
  - a TESSFRACTURE section lists tessellated fractures: a header line, the
    node lines, then the face lines;
  - a ROCKBLOCK section and any other `BEGIN` line stop the parse;
  - every other line is skipped.

  At the end the reader builds the property table from the fracture ids,
  the property display names and the property rows.
- **The PEST control-file generator** (`pyfracman/pest.py`).
  - `PestGenerator` checks the configuration path.
  - `parse_config` checks the JSON configuration's six mandatory sections.
  - `check_control_data` validates the control data and records the fields
    of the first control-data line, one at a time. The generator follows
    the code as written, whose last assertion re-tests the number of
    observations (see Findings); `Pest.ReadControl` is the check with that
    assertion on the number of parameter groups.
  - `check_pest_viability` warns when there are more parameters than
    observations.
  - `write_pst_file` writes the header of the `.pst` file.

How the model is built:

- **File as a cursor.** The file is a sequence of lines read through a
  cursor, the class `FabCursor.LineFile`. `Next` is one step of
  `for line in f`. `ReadLine` is `f.readline()`, which returns `""` at the
  end of the file.
- **Readers.** Each section reader is a method with a loop, proved equal to
  a recursive specification function over the lines. The properties are
  proved as lemmas about those functions.
- **Dictionaries.** A Python dict is an ordered sequence of entries,
  because its insertion order becomes the column order of the property
  table.
- **Numbers.** Numeric tokens are kept as text. `int()` is modelled exactly
  on ASCII digits. `float()` is modelled as a check of which tokens it
  accepts and of which of them round to infinity: a decimal overflows
  exactly when its value is at least 2^1024 - 2^970, halfway between the
  largest double and 2^1024.
- **numpy row assignment.** A row can take exactly its width of values, or
  one value broadcast to the whole row. numpy converts only the values it
  stores, so a value broadcast into a row of width zero is never converted.
- **pandas DataFrame.** A frame is stored column by column.
- **Errors.** Every exception the Python code raises becomes an `Err` value
  that names the failing statement.

Modules:

| module | file | contents |
|---|---|---|
| `Wrappers` | `wrappers.dfy` | `Option`, `Result` |
| `Text` | `text.dfy` | `strip`, `split`, `split(c)`, `replace`, `upper`, `lower` |
| `Numerals` | `numerals.dfy` | `int()`; the tokens `float()` accepts |
| `Dicts` | `dicts.dfy` | insertion-ordered dictionaries |
| `FabModel` | `fab_model.dfy` | output values and errors of the reader |
| `FabCursor` | `fab_cursor.dfy` | the file cursor |
| `FabKeywords` | `fab_keywords.dfy` | `read_keyword`, `make_properties_dict`, `clean_dict_values` |
| `FabSection` | `fab_section.dfy` | `read_section` |
| `FabRecords` | `fab_records.dfy` | the record loop shared by both fracture readers |
| `FabRows` | `fab_rows.dfy` | numpy rows of vertices and nodes |
| `FabPlanar` | `fab_planar.dfy` | `read_fractures` |
| `FabTess` | `fab_tess.dfy` | `read_tesselated_fractures` |
| `FabTable` | `fab_table.dfy` | `make_properties_df` |
| `FabParse` | `fab_parse.dfy` | `parse_fab_file` |
| `Pest` | `pest.dfy` | `PestGenerator` |

## Model

| member | source | states |
|---|---|---|
| FabCursor.LineFile.Next | pyfracman/fab.py:15 | one step of `for line in f`: the next line and the cursor moved past it, or None at the end of the file with the cursor unmoved |
| FabCursor.LineFile.ReadLine | pyfracman/fab.py:35 | `f.readline()`: the line at the cursor and the cursor moved past it, or `""` at the end of the file |
| FabKeywords.ReadKeyword | pyfracman/fab.py:97-102 | fails exactly when the line has no `=`; the key is the stripped text before the first `=` |
| FabKeywords.ReadKeywordValue | pyfracman/fab.py:99-101 | the value is the stripped text between the first and the second `=` |
| FabKeywords.ReadKeywordRoundTrip | pyfracman/fab.py:97-102 | a line written as `key = value` (stripped, `=`-free key and value) reads back as that pair |
| FabKeywords.MakePropertiesDict | pyfracman/fab.py:115-117 | succeeds exactly when every value holds a `"`; keeps the keys in order; each value becomes the text between its first two quotes |
| FabKeywords.CleanDictValues | pyfracman/fab.py:120-121 | keeps the keys in order; every value loses all its `"` and nothing else, the other characters in their order (`Text.Remove`) |
| Text.RemoveAppend | pyfracman/fab.py:121 | removing a character from two texts put together removes it from each, in order |
| Text.RemoveSplitOn | pyfracman/fab.py:121 | `s.replace(c, "")` is the pieces of `s.split(c)` put back together: every other character stays, in its order |
| FabKeywords.CleanDictValuesIdempotent | pyfracman/fab.py:120-121 | cleaning twice is cleaning once |
| FabSection.ReadSection | pyfracman/fab.py:105-112 | the loop returns the dictionary and stops where `Section` does, or fails as it does |
| FabSection.SectionLines | pyfracman/fab.py:108-112 | a section that is read ends on a line that strips to its END marker, and every line before it holds a `=` |
| FabSection.SectionCompletes | pyfracman/fab.py:105-112 | keyword lines followed by the END line always make a section that stops right after that line |
| FabSection.SectionRejectsLine | pyfracman/fab.py:99-101 | the first line before the END line without a `=` makes the section fail, naming that line |
| FabSection.SectionMissingEnd | pyfracman/fab.py:107-112 | keyword lines up to the end of the file, with no END line, fail |
| FabSection.SectionAssignments | pyfracman/fab.py:106-112 | the dictionary is built from the keyword lines in order |
| FabSection.SectionLastWins | pyfracman/fab.py:112 | a repeated key keeps the value of its last line |
| FabSection.SectionKeys | pyfracman/fab.py:106-112 | a key is in the dictionary exactly when some line of the section assigns it |
| Dicts.PutSpec | pyfracman/fab.py:112 | `d[k] = v`: a new key is appended; an existing key keeps its place; only `k` changes |
| Dicts.BuildFind | pyfracman/fab.py:106-112 | the dictionary built from a sequence of assignments maps each key to its last value |
| Numerals.ParseInt | pyfracman/fab.py:79 | `int(token)` succeeds exactly on an optional sign and ASCII digits; the sign gives the sign |
| Numerals.ParseIntToken | pyfracman/fab.py:79 | every integer written in decimal reads back as itself |
| Numerals.OverflowExample | pyfracman/fab.py:127-132 | `"1e400"` is a float token, but `float` rounds it to infinity, so it is not finite and `astype(int)` rejects it |
| Numerals.ShortIntIsFinite | pyfracman/fab.py:127-132 | an integer token of at most 291 digits is a finite float token, so `astype(int)` accepts it |
| FabRows.FitRowSpec | pyfracman/fab.py:87 | a numpy row of width `w` takes `w` floats, or one float broadcast; a single value broadcast into a row of width zero is not converted; any other count is a shape error |
| FabRows.PointsExactly | pyfracman/fab.py:85-87 | `n` point rows are read exactly when the next `n` lines exist and each gives three coordinates after its first field |
| FabRows.ReadPoints | pyfracman/fab.py:84-87 | the loop over `range(num_vert)` fills the array with the rows `Points` reads |
| FabPlanar.PlanarHeaderSpec | pyfracman/fab.py:77-84 | a header line is accepted exactly when it has at least three fields, the set is a float and the id and a non-negative count are integers; the extra fields are the properties |
| FabPlanar.ReadPlanarRecord | pyfracman/fab.py:77-94 | reads one fracture as `PlanarRecordAt` does |
| FabPlanar.PlanarRecordHeader | pyfracman/fab.py:77-84 | a record's id, set, properties and vertex count are those of its header line |
| FabPlanar.PlanarRecordVertices | pyfracman/fab.py:85-87 | vertex `i` is the point row of the `i`-th line after the header |
| FabPlanar.PlanarRecordNormal | pyfracman/fab.py:93-94 | the normal is the split of the line after the vertices, or empty at the end of the file |
| FabPlanar.ReadFractures | pyfracman/fab.py:58-94 | the loop returns what `FractureSection` returns, and leaves the cursor where it stops |
| FabPlanar.ColumnsAligned | pyfracman/fab.py:69-80 | the five returned lists have one entry per fracture, in file order |
| FabPlanar.RectangularSpec | pyfracman/fab.py:71 | the normals can be stacked into one array exactly when any two of them have the same length |
| FabPlanar.PlanarAligned | pyfracman/fab.py:65-94 | after a section is read, the five lists have equal length and all normals the same length |
| FabRecords.RecordsMissingEnd | pyfracman/fab.py:15-17 | records up to the end of the file with no END line fail |
| FabRecords.RecordsAcc | pyfracman/fab.py:60-64 | the lists collected so far are a prefix of the result |
| FabRecords.RecordsAll | pyfracman/fab.py:15-55 | a property every record has holds for every record of the section |
| FabTess.TessHeaderSpec | pyfracman/fab.py:27-33 | a header line is accepted exactly when it has four fields, an integer id, a float set and a non-negative integer node count |
| FabTess.FaceFieldsSpec | pyfracman/fab.py:47-52 | a face line with `5 + w` float fields splits into five geometry fields and `w` properties; fewer than five fields (except one) is a shape error |
| FabTess.FaceWidthZero | pyfracman/fab.py:46-52 | after a first face line of exactly five fields, a six-field face line is stored exactly when its five geometry fields are floats, whatever its sixth field |
| FabTess.FaceWidthMismatch | pyfracman/fab.py:46-52 | a face line with a property count other than the first face's (or one) fails |
| FabTess.ReadTessRecord | pyfracman/fab.py:27-55 | reads one fracture as `TessRecordAt` does |
| FabTess.TessRecordCounts | pyfracman/fab.py:27-49 | a record's id, set, node count and face count are those of its header; it has at least one face; it ends after its last face line |
| FabTess.TessRecordLines | pyfracman/fab.py:34-52 | node `i` is the point row of the `i`-th line after the header; face `i` is the face line `i` after the nodes, read with the first face's property count |
| FabTess.TessRecordZeroFaces | pyfracman/fab.py:44-48 | a header declaring zero faces fails |
| FabTess.TessRecordUniform | pyfracman/fab.py:45-52 | every face of a record has five geometry fields and as many properties as the first face |
| FabTess.ReadTessFractures | pyfracman/fab.py:8-55 | the loop returns what `TessSection` returns, and leaves the cursor where it stops |
| FabTess.TessColumnsAligned | pyfracman/fab.py:18-29 | the five returned lists have one entry per fracture, in file order |
| FabTess.TessAligned | pyfracman/fab.py:15-55 | after a section is read, the lists have equal length and each fracture's faces are uniform |
| FabTable.MaxWidthAttained | pyfracman/fab.py:126 | the width pandas pads to is that of some row |
| FabTable.MakePropertiesDf | pyfracman/fab.py:124-134 | the loop over the integer columns computes `PropertiesTable` |
| FabTable.CoerceAllCells | pyfracman/fab.py:129-132 | converting the named columns turns exactly their numbers into integers, and succeeds exactly when all of those are finite: not `inf` or `nan`, and not large enough to round to infinity |
| FabTable.PropertiesTableSpec | pyfracman/fab.py:124-134 | the table has the ids as index and the display names as columns; integer columns hold `astype(int)` of present, finite values (the integer part, for values within the platform integer range); the others hold each float token or a missing value |
| FabTable.RowWiderThanSchema | pyfracman/fab.py:126 | a row wider than the schema makes the table fail |
| FabTable.RowsNarrowerThanSchema | pyfracman/fab.py:126 | rows all narrower than the schema make the table fail |
| FabTable.PropertiesTableBuilt | pyfracman/fab.py:124-134 | one complete row of float tokens per id, finite in the integer columns, always gives a table |
| FabParse.Dispatch | pyfracman/fab.py:141-174 | one turn of the loop moves strictly forward through the file |
| FabParse.ReadAfter | pyfracman/fab.py:141-174 | the body of the loop does what `Dispatch` says for the line just read |
| FabParse.ParseFabFile | pyfracman/fab.py:137-179 | the whole function computes `ParseFab` |
| FabParse.SkippedNotKnown | pyfracman/fab.py:141-172 | a line the loop skips opens none of the known sections |
| FabParse.ParseSkips | pyfracman/fab.py:140-174 | lines that do not begin with `BEGIN` are skipped without changing the output |
| FabParse.NoSections | pyfracman/fab.py:176-177 | a file with no `BEGIN` line fails on `output["fid"]` |
| FabParse.RockBlockFails | pyfracman/fab.py:170-171 | a ROCKBLOCK section after skipped lines stops the parse |
| FabParse.UnknownSectionFails | pyfracman/fab.py:172-174 | any other `BEGIN` line after skipped lines stops the parse, naming the line |
| FabParse.FractureReplacesSets | pyfracman/fab.py:149-160 | a FRACTURE section after a SETS section replaces the set names with the fracture set numbers |
| FabParse.ParseFromSections | pyfracman/fab.py:144-160 | the ids, property rows and display names in the output each come from a section of their kind in the file |
| FabParse.ParseFabTable | pyfracman/fab.py:176-179 | a successful parse read a FRACTURE and a PROPERTIES section, and its table is built from them |
| FabParse.ParseFabNeedsSections | pyfracman/fab.py:176-178 | a file without a FRACTURE section, or without a PROPERTIES section, fails |
| Pest.JsonSuffix | pyfracman/pest.py:18 | a name passes the suffix check exactly when it has more than five characters and ends with `.json` in any letter case |
| Pest.AdmissionSpec | pyfracman/pest.py:15-18 | the path is accepted exactly when it exists, is a file and its name ends with `.json` in any case |
| Pest.NameTrailingSlash | pyfracman/pest.py:15 | a trailing `/` does not change the file name the suffix comes from |
| Pest.PestGenerator.Create | pyfracman/pest.py:14-18 | the generator is created exactly when the checks pass, with no field set yet |
| Pest.ParseConfigSpec | pyfracman/pest.py:20-34 | a configuration passes exactly when it is an object with the six sections and its control data passes the checks as written (`ValidControlAsWritten`) |
| Pest.MissingSectionFirst | pyfracman/pest.py:26-31 | the first missing section, in the order of the checks, is reported |
| Pest.PestGenerator.ParseConfig | pyfracman/pest.py:20-34 | stores the configuration, then checks the sections and the control data as `ParseChecked` does |
| Pest.ReadControlAsWrittenSpec | pyfracman/pest.py:36-72 | as written, the control data passes exactly when `restart` is a boolean, `mode` one of the four modes, the parameter and observation counts integers above zero and the number of parameter groups an integer; then RSTFLE is `restart`/`norestart` and the other fields hold the given values |
| Pest.ReadControlPartial | pyfracman/pest.py:36-72 | for each key that fails, as written: the fields assigned before it keep their values, the failing field holds the offending value, the later fields are untouched, and the error names that key and what is wrong |
| Pest.PestGenerator.CheckControlData | pyfracman/pest.py:36-72 | assigns the five fields step by step, as written, exactly as `ControlCheck` says |
| Pest.ReadControlSpec | pyfracman/pest.py:36-72 | the corrected check passes exactly when `restart` is a boolean, `mode` one of the four modes, and the three counts integers above zero; then RSTFLE is `restart`/`norestart` and the other fields hold the given values |
| Pest.ValidControlCorrected | pyfracman/pest.py:69-72 | the corrected check passes exactly when the check as written passes and there is at least one parameter group |
| Pest.AsWrittenSkipsGroups | pyfracman/pest.py:69-72 | as written, the last assertion never fails |
| Pest.AsWrittenAcceptsNegativeGroups | pyfracman/pest.py:72 | as written, `"parameter groups": -1` passes; the corrected check rejects it |
| Pest.PestGenerator.CheckPestViability | pyfracman/pest.py:74-77 | whether it warns, with no field changed |
| Pest.ViabilityAfterCheck | pyfracman/pest.py:76-77 | after a successful check as written, it warns exactly when `parameters > observations` |
| Pest.PestGenerator.WritePstFile | pyfracman/pest.py:79-84 | the text written, from the recorded fields |
| Pest.PstTextLines | pyfracman/pest.py:82-84 | the text is three lines: `pcf `, `* control data `, then RSTFLE and the mode two spaces apart, with no final newline |
| Pest.PstAfterCheck | pyfracman/pest.py:42-84 | after a successful check as written, the third line splits into `restart`/`norestart`, as configured, and the mode |

## Left out

- File I/O is not modelled:
  - opening and iterating over the `.fab` file (its lines are a parameter);
  - `json.load` (the decoded document is a parameter);
  - `Path.exists` and `Path.is_file` (booleans given as parameters);
  - the file `write_pst_file` opens and writes (the model returns its text and not the path it would write to).
- `warnings.warn`: `CheckPestViability` returns whether it would warn.
- Floating point: coordinates, set numbers, properties and normals stay as the tokens `float()` would convert. The model does not compute their values, the float arrays numpy would hold, or `np.asarray` of the id and set lists.
- `Numerals.IsFloat` accepts decimal and exponent forms and `inf`/`infinity`/`nan` with a sign. It does not accept underscores between digits or non-ASCII digits.
- `Numerals.ParseInt` does not accept underscores, surrounding whitespace or non-ASCII digits; tokens come from `split()`, so they never carry whitespace.
- `Text.Upper` and `Text.Lower` change ASCII letters only, not the rest of Unicode.
- The transposes (`vert.T`, `nodes.T`, `face_info.T`, `properties.T`) are not modelled. Points and faces are kept row by row, as read.
- A planar record's normal is not checked against the other normals one by one. A section whose normals differ in length fails as a whole, as `np.asarray` of ragged rows does.
- FabTable.RowWiderThanSchema: pandas only fails when the widest row's width differs from the number of columns. A row shorter than the widest is padded with missing values, so a single short row does not fail the table. The model follows pandas.
- FabParse.RockBlockFails: a ROCKBLOCK section raises `NotImplementedError`, as the code does; it is not skipped.
- FabTable.PropertiesTableSpec: `astype(int)` truncates a float toward zero, and casts a finite value outside the platform integer range (int64, or 32 bits on some platforms) silently to a wrong value without an error. The model records `Integer(token)` and computes neither the truncated nor the wrapped value.
- Pest.PestGenerator.CheckPestViability: compares only integer and boolean fields. A float field (one left behind by a failed check) is reported as `NotComparable`, although Python would compare it.
- Pest.NameTrailingSlash: paths follow POSIX rules only (`/` separators; empty and `.` components dropped). Windows drive letters and `\` are not modelled.
- The rest of pyfracman is not part of this model: running FracMan, the geometry, plotting and data modules, and the examples.

## Findings

| source | as written | input that shows it | evidently intended | confidence | as-written member | corrected member |
|---|---|---|---|---|---|---|
| pyfracman/pest.py:72 | `assert self.nobs > 0` tests the observation count a second time, so the sign of `parameter groups` is never checked | control data `{"restart": false, "mode": "estimation", "parameters": 2, "observations": 5, "parameter groups": -1}` passes | `assert self.npargp > 0` | high; not executed | Pest.AsWrittenAcceptsNegativeGroups | Pest.ReadControlSpec |

=== FILE: dicts.dfy ===
/**
 * A Python `dict` from strings to strings.  Python dictionaries remember the
 * order in which keys were first inserted, and that order later becomes the
 * column order of the property table, so a dictionary is a sequence of
 * entries with distinct keys rather than a Dafny `map`.
 */
module Dicts {
  import opened Wrappers

  datatype Entry = Entry(key: string, value: string)

  type Dict = seq<Entry>

  /** `list(d.keys())` */
  function Keys(d: Dict): (ks: seq<string>)
    ensures |ks| == |d|
  {
    if d == [] then [] else [d[0].key] + Keys(d[1..])
  }

  /** `list(d.values())` */
  function Values(d: Dict): (vs: seq<string>)
    ensures |vs| == |d|
  {
    if d == [] then [] else [d[0].value] + Values(d[1..])
  }

  predicate DistinctKeys(d: Dict) {
    forall i, j :: 0 <= i < j < |d| ==> d[i].key != d[j].key
  }

  /** `d.get(k)` */
  function Find(d: Dict, k: string): (r: Option<string>)
    ensures r.Some? <==> k in Keys(d)
  {
    if d == [] then None else if d[0].key == k then Some(d[0].value) else Find(d[1..], k)
  }

  lemma {:induction false} KeysAt(d: Dict, i: nat)
    requires i < |d|
    ensures Keys(d)[i] == d[i].key && Values(d)[i] == d[i].value
  {
    if i > 0 {
      KeysAt(d[1..], i - 1);
    }
  }

  /** `d[k] = v` */
  function Put(d: Dict, k: string, v: string): Dict {
    if d == [] then [Entry(k, v)]
    else if d[0].key == k then [Entry(k, v)] + d[1..]
    else [d[0]] + Put(d[1..], k, v)
  }

  /**
   * After `d[k] = v` a new key comes last, an existing key keeps its place,
   * `k` maps to `v` and every other key keeps its value.
   */
  lemma {:induction false} PutSpec(d: Dict, k: string, v: string)
    ensures Keys(Put(d, k, v)) == if k in Keys(d) then Keys(d) else Keys(d) + [k]
    ensures Find(Put(d, k, v), k) == Some(v)
    ensures forall k' :: k' != k ==> Find(Put(d, k, v), k') == Find(d, k')
  {
    if d != [] && d[0].key != k {
      PutSpec(d[1..], k, v);
      assert Put(d, k, v)[1..] == Put(d[1..], k, v);
    }
  }

  /** Assigning a key keeps the keys of a dictionary distinct. */
  lemma {:induction false} PutDistinct(d: Dict, k: string, v: string)
    requires DistinctKeys(d)
    ensures DistinctKeys(Put(d, k, v))
  {
    var r := Put(d, k, v);
    PutSpec(d, k, v);
    forall i, j | 0 <= i < j < |r|
      ensures r[i].key != r[j].key
    {
      KeysAt(r, i);
      KeysAt(r, j);
      if j < |d| {
        KeysAt(d, i);
        KeysAt(d, j);
        assert Keys(r)[i] == Keys(d)[i] && Keys(r)[j] == Keys(d)[j];
      } else {
        assert k !in Keys(d) && Keys(r)[j] == k;
        assert Keys(r)[i] == Keys(d)[i];
      }
    }
  }

  /** The dictionary left by assigning `d[k] = v` for every entry in turn, starting from `{}`. */
  function Build(es: seq<Entry>): (d: Dict)
    ensures DistinctKeys(d)
  {
    if es == [] then []
    else
      var d := Build(es[..|es| - 1]);
      PutDistinct(d, es[|es| - 1].key, es[|es| - 1].value);
      Put(d, es[|es| - 1].key, es[|es| - 1].value)
  }

  /** The value of the last entry with key `k`, if any. */
  function LastValue(es: seq<Entry>, k: string): Option<string> {
    if es == [] then None
    else if es[|es| - 1].key == k then Some(es[|es| - 1].value)
    else LastValue(es[..|es| - 1], k)
  }

  /** Building a dictionary from assignments keeps, for every key, the last value assigned to it. */
  lemma {:induction false} BuildFind(es: seq<Entry>, k: string)
    ensures Find(Build(es), k) == LastValue(es, k)
  {
    if es != [] {
      BuildFind(es[..|es| - 1], k);
      PutSpec(Build(es[..|es| - 1]), es[|es| - 1].key, es[|es| - 1].value);
    }
  }

  /** The keys after one more assignment: the earlier keys and the assigned one. */
  lemma BuildKeysStep(es: seq<Entry>, k: string)
    requires es != []
    ensures k in Keys(Build(es)) <==> k in Keys(Build(es[..|es| - 1])) || k == es[|es| - 1].key
  {
    var last := es[|es| - 1];
    assert Build(es) == Put(Build(es[..|es| - 1]), last.key, last.value);
    PutSpec(Build(es[..|es| - 1]), last.key, last.value);
  }

  /** A key is in the built dictionary exactly when some assignment used it. */
  lemma {:induction false} BuildKeys(es: seq<Entry>, k: string)
    ensures k in Keys(Build(es)) <==> exists i :: 0 <= i < |es| && es[i].key == k
  {
    if es != [] {
      var init := es[..|es| - 1];
      BuildKeys(init, k);
      BuildKeysStep(es, k);
      assert forall i :: 0 <= i < |init| ==> init[i] == es[i];
      if exists i :: 0 <= i < |es| && es[i].key == k {
        var i :| 0 <= i < |es| && es[i].key == k;
        if i < |init| {
          assert init[i].key == k;
        }
      }
    }
  }

  /** The last entry for a key is the one whose key no later entry repeats. */
  lemma {:induction false} LastValueAt(es: seq<Entry>, j: nat)
    requires j < |es|
    requires forall i :: j < i < |es| ==> es[i].key != es[j].key
    ensures LastValue(es, es[j].key) == Some(es[j].value)
  {
    if j < |es| - 1 {
      var init := es[..|es| - 1];
      assert init[j] == es[j];
      LastValueAt(init, j);
    }
  }
}

=== FILE: fab_cursor.dfy ===
/**
 * The open `.fab` file.  Every reader of `fab.py` pulls lines from the same
 * file object, either by iterating over it (`for line in f`) or by calling
 * `f.readline()`, so all of them advance one shared position.
 */
module FabCursor {
  import opened Wrappers

  /** What `f.readline()` returns at position `pos`: the line there, or `""` at the end of the file. */
  function LineAt(lines: seq<string>, pos: nat): string {
    if pos < |lines| then lines[pos] else ""
  }

  /** The position after `f.readline()`: one line further, but never past the end. */
  function NextPos(lines: seq<string>, pos: nat): (p: nat)
    ensures p <= |lines| || p == pos
    ensures pos <= p <= pos + 1
  {
    if pos < |lines| then pos + 1 else pos
  }

  /** `[g(i), g(i + 1), ..., g(n - 1)]`: what every position of the file from `i` on means. */
  function Tabulate<T>(n: nat, g: nat -> T, i: nat): (s: seq<T>)
    requires i <= n
    ensures |s| == n - i
    decreases n - i
  {
    if i == n then [] else [g(i)] + Tabulate(n, g, i + 1)
  }

  lemma {:induction false} TabulateAt<T>(n: nat, g: nat -> T, i: nat, j: nat)
    requires i <= j < n
    ensures Tabulate(n, g, i)[j - i] == g(j)
    decreases j - i
  {
    if i < j {
      TabulateAt(n, g, i + 1, j);
    }
  }

  class LineFile {
    /** The lines of the file, each as `readline` returns it. */
    const lines: seq<string>
    /** How many lines have been read. */
    var pos: nat

    predicate Valid()
      reads this
    {
      pos <= |lines|
    }

    /** `open(f_name, "r")` */
    constructor (lines: seq<string>)
      ensures Valid() && this.lines == lines && pos == 0
    {
      this.lines := lines;
      pos := 0;
    }

    /** One step of `for line in f`: the next line, or None when the file is exhausted. */
    method Next() returns (line: Option<string>)
      requires Valid()
      modifies this
      ensures Valid()
      ensures old(pos) < |lines| ==> line == Some(lines[old(pos)]) && pos == old(pos) + 1
      ensures old(pos) == |lines| ==> line == None && pos == old(pos)
    {
      if pos < |lines| {
        line := Some(lines[pos]);
        pos := pos + 1;
      } else {
        line := None;
      }
    }

    /** `f.readline()`: the next line, or `""` at the end of the file. */
    method ReadLine() returns (line: string)
      requires Valid()
      modifies this
      ensures Valid()
      ensures line == LineAt(lines, old(pos)) && pos == NextPos(lines, old(pos))
    {
      if pos < |lines| {
        line := lines[pos];
        pos := pos + 1;
      } else {
        line := "";
      }
    }
  }
}

=== FILE: fab_keywords.dfy ===
/**
 * The line-level helpers of `fab.py`: `read_keyword`, `make_properties_dict`
 * and `clean_dict_values`.
 */
module FabKeywords {
  import opened Wrappers
  import opened Text
  import opened Dicts
  import opened FabModel

  /**
   * `read_keyword(line)`: a `key = value` line.  The key is the text before the
   * first `=`, the value the text between the first and the second `=`, both
   * stripped; a line without `=` has no `words[1]`.
   */
  function ReadKeyword(line: string): (r: FabResult<(string, string)>)
    ensures r.Err? <==> '=' !in line
    ensures r.Err? ==> r.error == MissingEquals(line)
    ensures r.Ok? ==> r.value.0 == Strip(UpToFirst(line, '='))
  {
    var words := SplitOn(line, '=');
    if |words| < 2 then Err(MissingEquals(line)) else Ok((Strip(words[0]), Strip(words[1])))
  }

  /** The value of a keyword line is the stripped text between its first and its second `=`. */
  lemma ReadKeywordValue(line: string)
    requires '=' in line
    ensures ReadKeyword(line).value.1 == Strip(UpToFirst(AfterFirst(line, '='), '='))
  {
    assert SplitOn(line, '=')[1] == UpToFirst(AfterFirst(line, '='), '=');
  }

  /** `(key + " = " + value).split("=")` gives the two sides of the `=` when neither holds one. */
  lemma KeyValueWords(key: string, value: string)
    requires '=' !in key && '=' !in value
    ensures SplitOn(key + " = " + value, '=') == [key + " ", " " + value]
  {
    var parts := [key + " ", " " + value];
    assert JoinOn(parts[1..], '=') == " " + value;
    assert JoinOn(parts, '=') == (key + " ") + ['='] + (" " + value);
    assert (key + " ") + ['='] + (" " + value) == key + " = " + value;
    SplitOnJoin(parts, '=');
  }

  /** A line written as `key = value` reads back as that key and value when neither holds `=` or surrounding whitespace. */
  lemma ReadKeywordRoundTrip(key: string, value: string)
    requires '=' !in key && '=' !in value
    requires key == [] || (!IsSpace(key[0]) && !IsSpace(key[|key| - 1]))
    requires value == [] || (!IsSpace(value[0]) && !IsSpace(value[|value| - 1]))
    ensures ReadKeyword(key + " = " + value) == Ok((key, value))
  {
    KeyValueWords(key, value);
    assert "" + key + " " == key + " ";
    StripPadded("", key, " ");
    assert " " + value + "" == " " + value;
    StripPadded(" ", value, "");
  }

  /** The text between the first and the second `"` of `v` (to the end when there is no second). */
  function Quoted(v: string): (r: string)
    requires '"' in v
    ensures '"' !in r
  {
    UpToFirst(AfterFirst(v, '"'), '"')
  }

  /**
   * `make_properties_dict(properties)`: every value becomes `v.split('"')[1]`,
   * under the same key and in the same order; the first value without `"`
   * raises.
   */
  function MakePropertiesDict(d: Dict): (r: FabResult<Dict>)
    ensures r.Ok? <==> forall i :: 0 <= i < |d| ==> '"' in d[i].value
    ensures r.Ok? ==> Keys(r.value) == Keys(d)
    ensures r.Ok? ==> forall i :: 0 <= i < |d| ==> '"' in d[i].value && r.value[i].value == Quoted(d[i].value)
    ensures r.Err? ==> r.error.MissingQuote? && r.error.key in Keys(d)
  {
    if d == [] then Ok([])
    else if '"' !in d[0].value then Err(MissingQuote(d[0].key))
    else
      var v := SplitOn(d[0].value, '"')[1];
      assert v == Quoted(d[0].value);
      match MakePropertiesDict(d[1..])
      case Err(e) => Err(e)
      case Ok(rest) => Ok([Entry(d[0].key, v)] + rest)
  }

  /** `clean_dict_values(d)`: every `"` is removed from every value; keys and order are kept. */
  function CleanDictValues(d: Dict): (r: Dict)
    ensures Keys(r) == Keys(d)
    ensures forall i :: 0 <= i < |r| ==> '"' !in r[i].value
    ensures forall i :: 0 <= i < |r| ==> multiset(r[i].value) == multiset(d[i].value)[ '"' := 0 ]
    ensures forall i :: 0 <= i < |r| ==> r[i].key == d[i].key && r[i].value == Remove(d[i].value, '"')
  {
    if d == [] then []
    else
      var v := Remove(d[0].value, '"');
      assert multiset(v) == multiset(d[0].value)['"' := 0];
      [Entry(d[0].key, v)] + CleanDictValues(d[1..])
  }

  /** Cleaning twice is the same as cleaning once. */
  lemma {:induction false} CleanDictValuesIdempotent(d: Dict)
    ensures CleanDictValues(CleanDictValues(d)) == CleanDictValues(d)
  {
    if d != [] {
      var c := CleanDictValues(d);
      assert c[1..] == CleanDictValues(d[1..]);
      CleanDictValuesIdempotent(d[1..]);
    }
  }
}

=== FILE: fab_model.dfy ===
/**
 * The values the `.fab` reader produces and the ways it can fail.
 *
 * Numeric tokens are kept as the text that `float()` would convert; a
 * point is the three coordinate tokens of one vertex or node line.
 */
module FabModel {
  import opened Wrappers
  import opened Dicts

  /**
   * Why a parse stops.  Each constructor names the Python exception the
   * original raises and the statement that raises it.
   */
  datatype FabError =
    | MissingEquals(line: string)       // IndexError: `words[1]` of a line without `=`
    | MissingQuote(key: string)         // IndexError: `v.split('"')[1]` of a value without `"`
    | MissingEnd(section: string)       // a reader fell off the end of the file and returned None
    | HeaderArity(line: string)         // ValueError: unpacking a record header
    | NotAnInteger(token: string)       // ValueError: `int(token)`
    | NotAFloat(token: string)          // ValueError: `float(token)`
    | NegativeDimension(size: int)      // ValueError: `np.zeros` with a negative size
    | RowShape(line: string)            // ValueError: a numpy row that cannot hold the line's fields
    | NoFaceRow(line: string)           // IndexError: `face_info[0]` of a record with no faces
    | RaggedNormals                     // ValueError: `np.asarray` of normals of different lengths
    | RockBlock                         // NotImplementedError: a ROCKBLOCK section
    | UnknownSection(line: string)      // ValueError: any other `BEGIN` line
    | MissingOutput(key: string)        // KeyError: `output["fid"]`, `output["prop_dict"]`, ...
    | ColumnCount(columns: nat, width: nat)  // ValueError: DataFrame columns and data disagree
    | IndexLength(rows: nat, ids: nat)  // ValueError: DataFrame index and data disagree
    | FrameNotFloat                     // ValueError: `astype(float)` of a non-numeric value
    | IntCast(column: string)           // ValueError: `astype(int)` of NaN or infinity

  type FabResult<T> = Result<T, FabError>

  /** The three coordinate tokens of a vertex or node. */
  type Point = seq<string>

  /** The lists `read_fractures` returns, in the order it returns them. */
  datatype Planar = Planar(
    ids: seq<int>,
    sets: seq<string>,
    normals: seq<seq<string>>,
    vertices: seq<seq<Point>>,
    properties: seq<seq<string>>)

  /** One record of a FRACTURE section. */
  datatype PlanarRecord = PlanarRecord(
    id: int,
    setNo: string,
    props: seq<string>,
    vertices: seq<Point>,
    normal: seq<string>)

  /** The lists `read_tesselated_fractures` returns, in the order it returns them. */
  datatype Tess = Tess(
    ids: seq<int>,
    sets: seq<string>,
    nodes: seq<seq<Point>>,
    faces: seq<seq<seq<string>>>,
    properties: seq<seq<seq<string>>>)

  /** One record of a TESSFRACTURE section: five geometry fields and the property fields of each face. */
  datatype TessRecord = TessRecord(
    id: int,
    setNo: string,
    nodes: seq<Point>,
    faces: seq<seq<string>>,
    faceProps: seq<seq<string>>)

  /** A value of the property table: a float, a missing value (NaN), or a float cast to an integer by `astype(int)`. */
  datatype Cell = Number(token: string) | Missing | Integer(token: string)

  /** The property DataFrame, stored column by column: `data[j][i]` is row `i` of column `j`. */
  datatype Table = Table(index: seq<int>, columns: seq<string>, data: seq<seq<Cell>>)

  /** What the `"sets"` entry of the output holds: the SETS names, or the FRACTURE set numbers. */
  datatype SetsValue = SetNames(names: Dict) | SetNumbers(numbers: seq<string>)

  /** The `output` dictionary of `parse_fab_file`, one field per key it may hold. */
  datatype FabOutput = FabOutput(
    format: Option<Dict>,
    propDict: Option<Dict>,
    sets: Option<SetsValue>,
    fid: Option<seq<int>>,
    normals: Option<seq<seq<string>>>,
    vertices: Option<seq<seq<Point>>>,
    properties: Option<seq<seq<string>>>,
    tFid: Option<seq<int>>,
    tSets: Option<seq<string>>,
    tNodes: Option<seq<seq<Point>>>,
    tFaces: Option<seq<seq<seq<string>>>>,
    tProperties: Option<seq<seq<seq<string>>>>,
    propertyTable: Option<Table>)

  const EmptyOutput := FabOutput(None, None, None, None, None, None, None, None, None, None, None, None, None)
}

=== FILE: fab_parse.dfy ===
/**
 * `parse_fab_file`: one pass over the lines of a `.fab` file.  A line whose
 * stripped text opens a known section hands the file to that section's
 * reader, which consumes the section up to its `END` line; the pass goes on
 * after it.  A ROCKBLOCK section and any other `BEGIN` line stop the parse;
 * every other line is skipped.  At the end the property table is built from
 * the FRACTURE and PROPERTIES sections.
 */
module FabParse {
  import opened Wrappers
  import opened Text
  import opened Dicts
  import opened FabModel
  import opened FabCursor
  import opened FabKeywords
  import opened FabSection
  import opened FabPlanar
  import opened FabTess
  import opened FabTable

  /** A stripped line that opens a section `parse_fab_file` knows by name. */
  predicate KnownSection(s: string) {
    s == "BEGIN FORMAT" || s == "BEGIN PROPERTIES" || s == "BEGIN SETS" ||
    s == "BEGIN FRACTURE" || s == "BEGIN TESSFRACTURE" || s == "BEGIN ROCKBLOCK"
  }

  /** A line the pass skips: its stripped text does not begin with `BEGIN`. */
  predicate Skipped(line: string) {
    Prefix(Strip(line), 5) != "BEGIN"
  }

  /** The output with the fields `read_fractures` fills in; its set numbers replace any SETS names. */
  function WithPlanar(out: FabOutput, c: Planar): FabOutput {
    out.(fid := Some(c.ids), sets := Some(SetNumbers(c.sets)), normals := Some(c.normals),
         vertices := Some(c.vertices), properties := Some(c.properties))
  }

  /** The output with the fields `read_tesselated_fractures` fills in. */
  function WithTess(out: FabOutput, t: Tess): FabOutput {
    out.(tFid := Some(t.ids), tSets := Some(t.sets), tNodes := Some(t.nodes),
         tFaces := Some(t.faces), tProperties := Some(t.properties))
  }

  /** A FORMAT section read after the line at `pos`: its cleaned dictionary is stored. */
  function FormatAt(lines: seq<string>, pos: nat, out: FabOutput): (r: FabResult<(FabOutput, nat)>)
    requires pos < |lines|
    ensures r.Ok? ==> pos < r.value.1 <= |lines|
    ensures r.Ok? ==> r.value.0 == out.(format := r.value.0.format)
  {
    match Section(lines, pos + 1, EndMarker("FORMAT"))
    case Err(e) => Err(e)
    case Ok((d, stop)) => Ok((out.(format := Some(CleanDictValues(d))), stop))
  }

  /** A PROPERTIES section read after the line at `pos`: its property dictionary is stored. */
  function PropertiesAt(lines: seq<string>, pos: nat, out: FabOutput): (r: FabResult<(FabOutput, nat)>)
    requires pos < |lines|
    ensures r.Ok? ==> pos < r.value.1 <= |lines|
    ensures r.Ok? ==> r.value.0 == out.(propDict := r.value.0.propDict)
  {
    match Section(lines, pos + 1, EndMarker("PROPERTIES"))
    case Err(e) => Err(e)
    case Ok((d, stop)) =>
      match MakePropertiesDict(d)
      case Err(e) => Err(e)
      case Ok(p) => Ok((out.(propDict := Some(p)), stop))
  }

  /** A SETS section read after the line at `pos`: its set names are stored. */
  function SetsAt(lines: seq<string>, pos: nat, out: FabOutput): (r: FabResult<(FabOutput, nat)>)
    requires pos < |lines|
    ensures r.Ok? ==> pos < r.value.1 <= |lines|
    ensures r.Ok? ==> r.value.0 == out.(sets := r.value.0.sets)
  {
    match Section(lines, pos + 1, EndMarker("SETS"))
    case Err(e) => Err(e)
    case Ok((d, stop)) => Ok((out.(sets := Some(SetNames(CleanDictValues(d)))), stop))
  }

  /** A FRACTURE section read after the line at `pos`: its five lists are stored. */
  function FractureAt(lines: seq<string>, pos: nat, out: FabOutput): (r: FabResult<(FabOutput, nat)>)
    requires pos < |lines|
    ensures r.Ok? ==> pos < r.value.1 <= |lines|
  {
    match FractureSection(lines, pos + 1)
    case Err(e) => Err(e)
    case Ok((c, stop)) => Ok((WithPlanar(out, c), stop))
  }

  /** A TESSFRACTURE section read after the line at `pos`: its five lists are stored. */
  function TessAt(lines: seq<string>, pos: nat, out: FabOutput): (r: FabResult<(FabOutput, nat)>)
    requires pos < |lines|
    ensures r.Ok? ==> pos < r.value.1 <= |lines|
  {
    match TessSection(lines, pos + 1)
    case Err(e) => Err(e)
    case Ok((t, stop)) => Ok((WithTess(out, t), stop))
  }

  /**
   * One turn of the loop on the line at `pos`: the new output and the
   * position of the next line the loop reads.
   */
  function Dispatch(lines: seq<string>, pos: nat, out: FabOutput): (r: FabResult<(FabOutput, nat)>)
    requires pos < |lines|
    ensures r.Ok? ==> pos < r.value.1 <= |lines|
  {
    var s := Strip(lines[pos]);
    if s == "BEGIN FORMAT" then FormatAt(lines, pos, out)
    else if s == "BEGIN PROPERTIES" then PropertiesAt(lines, pos, out)
    else if s == "BEGIN SETS" then SetsAt(lines, pos, out)
    else if s == "BEGIN FRACTURE" then FractureAt(lines, pos, out)
    else if s == "BEGIN TESSFRACTURE" then TessAt(lines, pos, out)
    else if s == "BEGIN ROCKBLOCK" then Err(RockBlock)
    else if Prefix(s, 5) == "BEGIN" then Err(UnknownSection(lines[pos]))
    else Ok((out, pos + 1))
  }

  /** The loop of `parse_fab_file` from the line at `pos` to the end of the file. */
  function ParseFrom(lines: seq<string>, pos: nat, out: FabOutput): FabResult<FabOutput>
    requires pos <= |lines|
    decreases |lines| - pos, 1
  {
    if pos == |lines| then Ok(out) else ParseLine(lines, pos, out)
  }

  /** The loop from the line at `pos`, which it reads: one turn, then the rest of the file. */
  function ParseLine(lines: seq<string>, pos: nat, out: FabOutput): FabResult<FabOutput>
    requires pos < |lines|
    decreases |lines| - pos, 0
  {
    match Dispatch(lines, pos, out)
    case Err(e) => Err(e)
    case Ok((o, next)) => ParseFrom(lines, next, o)
  }

  /**
   * `make_properties_df(output["fid"], output["prop_dict"], output["properties"])`:
   * the arguments are looked up left to right.
   */
  function Finish(out: FabOutput): FabResult<FabOutput> {
    if out.fid.None? then Err(MissingOutput("fid"))
    else if out.propDict.None? then Err(MissingOutput("prop_dict"))
    else if out.properties.None? then Err(MissingOutput("properties"))
    else match PropertiesTable(out.fid.value, out.propDict.value, out.properties.value)
      case Err(e) => Err(e)
      case Ok(t) => Ok(out.(propertyTable := Some(t)))
  }

  /** What `parse_fab_file` returns for a file with these lines. */
  function ParseFab(lines: seq<string>): FabResult<FabOutput> {
    match ParseFrom(lines, 0, EmptyOutput)
    case Err(e) => Err(e)
    case Ok(out) => Finish(out)
  }

  /**
   * The body of the loop of `parse_fab_file` once `line` has been read: the
   * reader of the section the line opens, or nothing for a skipped line.
   */
  method ReadAfter(f: LineFile, line: string, out: FabOutput) returns (r: FabResult<FabOutput>)
    requires f.Valid() && 0 < f.pos && f.lines[f.pos - 1] == line
    modifies f
    ensures f.Valid()
    ensures r.Ok? ==> Dispatch(f.lines, old(f.pos) - 1, out) == Ok((r.value, f.pos))
    ensures r.Err? ==> Dispatch(f.lines, old(f.pos) - 1, out) == Err(r.error)
  {
    var s := Strip(line);
    if s == "BEGIN FORMAT" {
      var sec := ReadSection(f, "FORMAT");
      if sec.Err? {
        return Err(sec.error);
      }
      return Ok(out.(format := Some(CleanDictValues(sec.value))));
    } else if s == "BEGIN PROPERTIES" {
      var sec := ReadSection(f, "PROPERTIES");
      if sec.Err? {
        return Err(sec.error);
      }
      var props := MakePropertiesDict(sec.value);
      if props.Err? {
        return Err(props.error);
      }
      return Ok(out.(propDict := Some(props.value)));
    } else if s == "BEGIN SETS" {
      var sec := ReadSection(f, "SETS");
      if sec.Err? {
        return Err(sec.error);
      }
      return Ok(out.(sets := Some(SetNames(CleanDictValues(sec.value)))));
    } else if s == "BEGIN FRACTURE" {
      var c := ReadFractures(f);
      if c.Err? {
        return Err(c.error);
      }
      return Ok(WithPlanar(out, c.value));
    } else if s == "BEGIN TESSFRACTURE" {
      var t := ReadTessFractures(f);
      if t.Err? {
        return Err(t.error);
      }
      return Ok(WithTess(out, t.value));
    } else if s == "BEGIN ROCKBLOCK" {
      return Err(RockBlock);
    } else if Prefix(s, 5) == "BEGIN" {
      return Err(UnknownSection(line));
    }
    return Ok(out);
  }

  /** `parse_fab_file(f_name)`, reading the file's lines through one cursor. */
  method ParseFabFile(lines: seq<string>) returns (r: FabResult<FabOutput>)
    ensures r == ParseFab(lines)
  {
    var f := new LineFile(lines);
    var out := EmptyOutput;
    while true
      invariant f.Valid() && f.lines == lines
      invariant ParseFrom(lines, f.pos, out) == ParseFrom(lines, 0, EmptyOutput)
      decreases |lines| - f.pos
    {
      var line := f.Next();
      if line.None? {
        break;
      }
      var turn := ReadAfter(f, line.value, out);
      if turn.Err? {
        return Err(turn.error);
      }
      out := turn.value;
    }
    if out.fid.None? {
      return Err(MissingOutput("fid"));
    }
    if out.propDict.None? {
      return Err(MissingOutput("prop_dict"));
    }
    if out.properties.None? {
      return Err(MissingOutput("properties"));
    }
    var table := MakePropertiesDf(out.fid.value, out.propDict.value, out.properties.value);
    if table.Err? {
      return Err(table.error);
    }
    return Ok(out.(propertyTable := Some(table.value)));
  }

  /** A skipped line does not open a known section: each of those begins with `BEGIN`. */
  lemma SkippedNotKnown(line: string)
    requires Skipped(line)
    ensures !KnownSection(Strip(line))
  {
    PrefixIsBegin(Strip(line));
  }

  /** A skipped line leaves the output as it is and moves on to the next line. */
  lemma DispatchSkip(lines: seq<string>, pos: nat, out: FabOutput)
    requires pos < |lines| && Skipped(lines[pos])
    ensures Dispatch(lines, pos, out) == Ok((out, pos + 1))
  {
    SkippedNotKnown(lines[pos]);
  }

  /** After a skipped line the pass goes on from the next line with the same output. */
  lemma ParseSkipOne(lines: seq<string>, pos: nat, out: FabOutput)
    requires pos < |lines| && Skipped(lines[pos])
    ensures ParseFrom(lines, pos, out) == ParseFrom(lines, pos + 1, out)
  {
    DispatchSkip(lines, pos, out);
  }

  /** The pass skips a run of lines that do not begin with `BEGIN`, whatever they hold. */
  lemma {:induction false} ParseSkips(lines: seq<string>, pos: nat, q: nat, out: FabOutput)
    requires pos <= q <= |lines|
    requires forall j :: pos <= j < q ==> Skipped(lines[j])
    ensures ParseFrom(lines, pos, out) == ParseFrom(lines, q, out)
    decreases q - pos
  {
    SkippedRunOf(lines, pos, q);
    SkipRun(lines, pos, q, out, ParseFrom(lines, q, out));
  }

  /** The lines from `pos` up to `q` are all skipped. */
  predicate SkippedRun(lines: seq<string>, pos: nat, q: nat)
    requires pos <= q <= |lines|
    decreases q - pos
  {
    pos == q || (Skipped(lines[pos]) && SkippedRun(lines, pos + 1, q))
  }

  lemma {:induction false} SkippedRunOf(lines: seq<string>, pos: nat, q: nat)
    requires pos <= q <= |lines|
    requires forall j :: pos <= j < q ==> Skipped(lines[j])
    ensures SkippedRun(lines, pos, q)
    decreases q - pos
  {
    if pos < q {
      SkippedRunOf(lines, pos + 1, q);
    }
  }

  lemma {:induction false} SkipRun(lines: seq<string>, pos: nat, q: nat, out: FabOutput, r: FabResult<FabOutput>)
    requires pos <= q <= |lines| && SkippedRun(lines, pos, q)
    requires ParseFrom(lines, q, out) == r
    ensures ParseFrom(lines, pos, out) == r
    decreases q - pos
  {
    if pos < q {
      SkipRun(lines, pos + 1, q, out, r);
      ParseSkipOne(lines, pos, out);
    }
  }

  /** A file without any `BEGIN` line has no FRACTURE section, and the parse fails on `output["fid"]`. */
  lemma NoSections(lines: seq<string>)
    requires forall j :: 0 <= j < |lines| ==> Skipped(lines[j])
    ensures ParseFab(lines) == Err(MissingOutput("fid"))
  {
    ParseSkips(lines, 0, |lines|, EmptyOutput);
  }

  /** A ROCKBLOCK section after skipped lines stops the parse with `NotImplementedError`. */
  lemma RockBlockFails(lines: seq<string>, pos: nat, q: nat, out: FabOutput)
    requires pos <= q < |lines|
    requires forall j :: pos <= j < q ==> Skipped(lines[j])
    requires Strip(lines[q]) == "BEGIN ROCKBLOCK"
    ensures ParseFrom(lines, pos, out) == Err(RockBlock)
  {
    ParseSkips(lines, pos, q, out);
  }

  /** A `BEGIN` line of any other section after skipped lines stops the parse, naming the line. */
  lemma UnknownSectionFails(lines: seq<string>, pos: nat, q: nat, out: FabOutput)
    requires pos <= q < |lines|
    requires forall j :: pos <= j < q ==> Skipped(lines[j])
    requires !Skipped(lines[q]) && !KnownSection(Strip(lines[q]))
    ensures ParseFrom(lines, pos, out) == Err(UnknownSection(lines[q]))
  {
    ParseSkips(lines, pos, q, out);
  }

  /**
   * A SETS section followed, after skipped lines, by a FRACTURE section:
   * the FRACTURE set numbers replace the SETS names in `output["sets"]`.
   */
  lemma FractureReplacesSets(lines: seq<string>, pos: nat, q: nat, out: FabOutput,
                             d: Dict, stop: nat, c: Planar, stop2: nat)
    requires pos < q < |lines|
    requires Strip(lines[pos]) == "BEGIN SETS" && Section(lines, pos + 1, EndMarker("SETS")) == Ok((d, stop))
    requires stop <= q && forall j :: stop <= j < q ==> Skipped(lines[j])
    requires Strip(lines[q]) == "BEGIN FRACTURE" && FractureSection(lines, q + 1) == Ok((c, stop2))
    ensures ParseFrom(lines, pos, out) == ParseFrom(lines, stop2, WithPlanar(out, c))
  {
    var o := out.(sets := Some(SetNames(CleanDictValues(d))));
    assert Dispatch(lines, pos, out) == Ok((o, stop));
    ParseSkips(lines, stop, q, o);
    assert WithPlanar(o, c) == WithPlanar(out, c);
  }

  /** Every field the pass has filled in comes from a section of its kind in the file. */
  predicate FromSections(lines: seq<string>, out: FabOutput) {
    (out.fid.Some? ==>
      out.properties.Some? &&
      exists q :: 0 <= q < |lines| && Strip(lines[q]) == "BEGIN FRACTURE" && FromFracture(lines, q, out)) &&
    (out.propDict.Some? ==>
      exists q :: 0 <= q < |lines| && Strip(lines[q]) == "BEGIN PROPERTIES" && FromProperties(lines, q, out.propDict.value))
  }

  /** The FRACTURE section after line `q` gave the output its fracture ids and property rows. */
  predicate FromFracture(lines: seq<string>, q: nat, out: FabOutput)
    requires q < |lines|
  {
    var c := FractureSection(lines, q + 1);
    c.Ok? && out.fid == Some(c.value.0.ids) && out.properties == Some(c.value.0.properties)
  }

  /** The PROPERTIES section after line `q` gave the output its display names. */
  predicate FromProperties(lines: seq<string>, q: nat, p: Dict)
    requires q < |lines|
  {
    var s := Section(lines, q + 1, EndMarker("PROPERTIES"));
    s.Ok? && MakePropertiesDict(s.value.0) == Ok(p)
  }

  /** One turn of the loop sets the fracture ids and property rows only from a FRACTURE section. */
  lemma DispatchFracture(lines: seq<string>, pos: nat, out: FabOutput)
    requires pos < |lines| && Dispatch(lines, pos, out).Ok?
    ensures var o := Dispatch(lines, pos, out).value.0;
      if Strip(lines[pos]) == "BEGIN FRACTURE" then FromFracture(lines, pos, o)
      else o.fid == out.fid && o.properties == out.properties
  {
    DispatchCases(lines, pos, out);
  }

  /** One turn of the loop sets the display names only from a PROPERTIES section. */
  lemma DispatchProperties(lines: seq<string>, pos: nat, out: FabOutput)
    requires pos < |lines| && Dispatch(lines, pos, out).Ok?
    ensures var o := Dispatch(lines, pos, out).value.0;
      if Strip(lines[pos]) == "BEGIN PROPERTIES" then o.propDict.Some? && FromProperties(lines, pos, o.propDict.value)
      else o.propDict == out.propDict
  {
  }

  /** The section reader one turn of the loop hands the line at `pos` to. */
  lemma DispatchCases(lines: seq<string>, pos: nat, out: FabOutput)
    requires pos < |lines|
    ensures var s := Strip(lines[pos]);
      Dispatch(lines, pos, out) ==
        if s == "BEGIN FORMAT" then FormatAt(lines, pos, out)
        else if s == "BEGIN PROPERTIES" then PropertiesAt(lines, pos, out)
        else if s == "BEGIN SETS" then SetsAt(lines, pos, out)
        else if s == "BEGIN FRACTURE" then FractureAt(lines, pos, out)
        else if s == "BEGIN TESSFRACTURE" then TessAt(lines, pos, out)
        else if s == "BEGIN ROCKBLOCK" then Err(RockBlock)
        else if Prefix(s, 5) == "BEGIN" then Err(UnknownSection(lines[pos]))
        else Ok((out, pos + 1))
  {
  }

  /** One turn of the loop keeps every filled-in field tied to its section. */
  lemma DispatchFromSections(lines: seq<string>, pos: nat, out: FabOutput)
    requires pos < |lines| && FromSections(lines, out) && Dispatch(lines, pos, out).Ok?
    ensures FromSections(lines, Dispatch(lines, pos, out).value.0)
  {
    DispatchFracture(lines, pos, out);
    DispatchProperties(lines, pos, out);
  }

  /** The whole pass keeps every filled-in field tied to its section. */
  lemma {:induction false} ParseFromSections(lines: seq<string>, pos: nat, out: FabOutput)
    requires pos <= |lines| && FromSections(lines, out) && ParseFrom(lines, pos, out).Ok?
    ensures FromSections(lines, ParseFrom(lines, pos, out).value)
    decreases |lines| - pos
  {
    if pos < |lines| {
      var o := Dispatch(lines, pos, out).value;
      DispatchFromSections(lines, pos, out);
      ParseFromSections(lines, o.1, o.0);
    }
  }

  /**
   * A parse that succeeds read a FRACTURE and a PROPERTIES section, and its
   * property table is the one `make_properties_df` builds from the ids and
   * property rows of a FRACTURE section and the display names of a
   * PROPERTIES section.
   */
  lemma ParseFabTable(lines: seq<string>)
    requires ParseFab(lines).Ok?
    ensures var out := ParseFab(lines).value;
      out.fid.Some? && out.propDict.Some? && out.properties.Some? &&
      out.propertyTable == Some(PropertiesTable(out.fid.value, out.propDict.value, out.properties.value).value)
    ensures var out := ParseFab(lines).value;
      (exists q :: 0 <= q < |lines| && Strip(lines[q]) == "BEGIN FRACTURE" && FromFracture(lines, q, out)) &&
      (exists q :: 0 <= q < |lines| && Strip(lines[q]) == "BEGIN PROPERTIES" && FromProperties(lines, q, out.propDict.value))
  {
    ParseFromSections(lines, 0, EmptyOutput);
    var out := ParseFrom(lines, 0, EmptyOutput).value;
    assert FromSections(lines, out);
  }

  /** A file with no FRACTURE section, or no PROPERTIES section, fails. */
  lemma ParseFabNeedsSections(lines: seq<string>)
    requires (forall j :: 0 <= j < |lines| ==> Strip(lines[j]) != "BEGIN FRACTURE") ||
             (forall j :: 0 <= j < |lines| ==> Strip(lines[j]) != "BEGIN PROPERTIES")
    ensures ParseFab(lines).Err?
  {
    if ParseFab(lines).Ok? {
      ParseFabTable(lines);
    }
  }
}

=== FILE: fab_planar.dfy ===
/**
 * `read_fractures(f)`: the FRACTURE section.  Each record is a header line
 * `id vertex_count set property...`, then one line per vertex, then one
 * line holding the normal vector.  The reader keeps five parallel lists,
 * one entry per record.
 */
module FabPlanar {
  import opened Wrappers
  import opened Text
  import opened Numerals
  import opened FabModel
  import opened FabCursor
  import opened FabRows
  import opened FabRecords

  const PlanarEnd := "END FRACTURE"

  /** The fields of a record header, once converted. */
  datatype PlanarHeader = PlanarHeader(id: int, setNo: string, count: nat, props: seq<string>)

  /**
   * `fracid, num_vert, set_no, *props = line.split()`, then `float(set_no)`,
   * `int(fracid)`, `int(num_vert)` and `np.zeros((num_vert, 3))`, in that
   * order.
   */
  function ReadPlanarHeader(line: string): (r: FabResult<PlanarHeader>) {
    var ts := Split(line);
    if |ts| < 3 then Err(HeaderArity(line))
    else if !IsFloat(ts[2]) then Err(NotAFloat(ts[2]))
    else match ParseInt(ts[0])
      case None => Err(NotAnInteger(ts[0]))
      case Some(id) =>
        match ParseInt(ts[1])
        case None => Err(NotAnInteger(ts[1]))
        case Some(n) =>
          if n < 0 then Err(NegativeDimension(n))
          else Ok(PlanarHeader(id, ts[2], n, ts[3..]))
  }

  /**
   * A header is read exactly when it has at least three tokens, a float set
   * number and integer id and count with the count not negative; the tokens
   * after the third are kept unconverted as the property row.
   */
  lemma PlanarHeaderSpec(line: string)
    ensures var ts := Split(line);
      ReadPlanarHeader(line).Ok? <==>
        |ts| >= 3 && IsFloat(ts[2]) && ParseInt(ts[0]).Some? && ParseInt(ts[1]).Some? && ParseInt(ts[1]).value >= 0
    ensures var ts := Split(line);
      ReadPlanarHeader(line).Ok? ==>
        ReadPlanarHeader(line).value == PlanarHeader(ParseInt(ts[0]).value, ts[2], ParseInt(ts[1]).value, ts[3..])
    ensures |Split(line)| < 3 ==> ReadPlanarHeader(line) == Err(HeaderArity(line))
  {
  }

  /**
   * The record whose header is line `pos`, and the position after its
   * normal line.
   */
  function PlanarRecordAt(lines: seq<string>, pos: nat): (r: FabResult<(PlanarRecord, nat)>)
    requires pos < |lines|
    ensures r.Ok? ==> pos < r.value.1 <= |lines|
  {
    match ReadPlanarHeader(lines[pos])
    case Err(e) => Err(e)
    case Ok(h) =>
      match Points(PointRows(lines), pos + 1, h.count)
      case Err(e) => Err(e)
      case Ok((vs, p)) => Ok((PlanarRecord(h.id, h.setNo, h.props, vs, Split(LineAt(lines, p))), NextPos(lines, p)))
  }

  /** What line `i` means to the FRACTURE section; past the end of the file nothing is read. */
  function PlanarLineAt(lines: seq<string>, i: nat): RecordLine<PlanarRecord> {
    if i >= |lines| || Strip(lines[i]) == PlanarEnd then EndLine else HeaderLine(PlanarRecordAt(lines, i))
  }

  /** The meaning of every line of the file. */
  function PlanarLines(lines: seq<string>): (ls: seq<RecordLine<PlanarRecord>>)
    ensures |ls| == |lines|
  {
    Tabulate(|lines|, i => PlanarLineAt(lines, i), 0)
  }

  lemma PlanarLinesAt(lines: seq<string>, j: nat)
    requires j < |lines|
    ensures PlanarLines(lines)[j] == PlanarLineAt(lines, j)
  {
    TabulateAt(|lines|, i => PlanarLineAt(lines, i), 0, j);
  }

  /** Every record read from the file ends after its header and within the file. */
  lemma PlanarLinesAdvance(lines: seq<string>)
    ensures RecordsAdvance(PlanarLines(lines))
  {
    forall i | 0 <= i < |lines|
      ensures PlanarLines(lines)[i] == PlanarLineAt(lines, i)
    {
      PlanarLinesAt(lines, i);
    }
  }

  /** The five lists of `read_fractures`, one entry per record. */
  function Columns(recs: seq<PlanarRecord>): Planar {
    if recs == [] then Planar([], [], [], [], [])
    else
      var c := Columns(recs[..|recs| - 1]);
      var rec := recs[|recs| - 1];
      Planar(c.ids + [rec.id], c.sets + [rec.setNo], c.normals + [rec.normal],
        c.vertices + [rec.vertices], c.properties + [rec.props])
  }

  /** `np.asarray(rows)` succeeds on lists of equal length only. */
  predicate Rectangular(rows: seq<seq<string>>) {
    rows == [] || AllWidth(rows, |rows[0]|)
  }

  /** Every row has `w` entries. */
  predicate AllWidth(rows: seq<seq<string>>, w: nat)
    decreases |rows|
  {
    rows == [] || (|rows[0]| == w && AllWidth(rows[1..], w))
  }

  lemma {:induction false} AllWidthAt(rows: seq<seq<string>>, w: nat)
    ensures AllWidth(rows, w) <==> forall i :: 0 <= i < |rows| ==> |rows[i]| == w
    decreases |rows|
  {
    if rows != [] {
      AllWidthAt(rows[1..], w);
      assert forall i :: 1 <= i < |rows| ==> rows[i] == rows[1..][i - 1];
    }
  }

  /** The normals are rectangular exactly when any two of them have the same length. */
  lemma RectangularSpec(rows: seq<seq<string>>)
    ensures Rectangular(rows) <==> forall i, j :: 0 <= i < |rows| && 0 <= j < |rows| ==> |rows[i]| == |rows[j]|
  {
    if rows != [] {
      AllWidthAt(rows, |rows[0]|);
    }
  }

  /** What `read_fractures` returns from line `pos` on, and the position after its END line. */
  function FractureSection(lines: seq<string>, pos: nat): (r: FabResult<(Planar, nat)>)
    requires pos <= |lines|
    ensures r.Ok? ==> pos < r.value.1 <= |lines|
  {
    PlanarLinesAdvance(lines);
    match Records(PlanarLines(lines), pos, [], PlanarEnd)
    case Err(e) => Err(e)
    case Ok((recs, stop)) =>
      var c := Columns(recs);
      if Rectangular(c.normals) then Ok((c, stop)) else Err(RaggedNormals)
  }

  /** Appending a record appends one entry to each list. */
  lemma ColumnsSnoc(recs: seq<PlanarRecord>, rec: PlanarRecord)
    ensures var c := Columns(recs);
      Columns(recs + [rec]) == Planar(c.ids + [rec.id], c.sets + [rec.setNo], c.normals + [rec.normal],
        c.vertices + [rec.vertices], c.properties + [rec.props])
  {
    assert (recs + [rec])[..|recs|] == recs;
  }

  /** The five lists have one entry per record, each taken from that record, in order. */
  lemma {:induction false} ColumnsAligned(recs: seq<PlanarRecord>)
    ensures var c := Columns(recs);
      |c.ids| == |c.sets| == |c.normals| == |c.vertices| == |c.properties| == |recs|
    ensures var c := Columns(recs);
      forall i :: 0 <= i < |recs| ==>
        c.ids[i] == recs[i].id && c.sets[i] == recs[i].setNo && c.normals[i] == recs[i].normal &&
        c.vertices[i] == recs[i].vertices && c.properties[i] == recs[i].props
  {
    if recs != [] {
      ColumnsAligned(recs[..|recs| - 1]);
    }
  }

  /** One more line of the section: its END line, or the header of one more record. */
  lemma FracturesStep(lines: seq<string>, start: nat, pos: nat, recs: seq<PlanarRecord>)
    requires start <= pos < |lines|
    requires RecordsAdvance(PlanarLines(lines))
    requires Records(PlanarLines(lines), start, [], PlanarEnd) == Records(PlanarLines(lines), pos, recs, PlanarEnd)
    ensures Strip(lines[pos]) == PlanarEnd ==> Records(PlanarLines(lines), start, [], PlanarEnd) == Ok((recs, pos + 1))
    ensures Strip(lines[pos]) != PlanarEnd && PlanarRecordAt(lines, pos).Err? ==>
      Records(PlanarLines(lines), start, [], PlanarEnd) == Err(PlanarRecordAt(lines, pos).error)
    ensures Strip(lines[pos]) != PlanarEnd && PlanarRecordAt(lines, pos).Ok? ==>
      Records(PlanarLines(lines), start, [], PlanarEnd) ==
        Records(PlanarLines(lines), PlanarRecordAt(lines, pos).value.1, recs + [PlanarRecordAt(lines, pos).value.0], PlanarEnd)
  {
    PlanarLinesAt(lines, pos);
    RecordsStep(PlanarLines(lines), start, pos, recs, PlanarEnd);
  }

  /** The section read up to its END line gives the five lists of its records, if their normals line up. */
  lemma FracturesDone(lines: seq<string>, start: nat, recs: seq<PlanarRecord>, stop: nat)
    requires start <= |lines|
    requires RecordsAdvance(PlanarLines(lines))
    requires Records(PlanarLines(lines), start, [], PlanarEnd) == Ok((recs, stop))
    ensures FractureSection(lines, start) ==
      if Rectangular(Columns(recs).normals) then Ok((Columns(recs), stop)) else Err(RaggedNormals)
  {
  }

  /** A section that fails, fails `read_fractures` with the same error. */
  lemma FracturesFailed(lines: seq<string>, start: nat, e: FabError)
    requires start <= |lines|
    requires RecordsAdvance(PlanarLines(lines))
    requires Records(PlanarLines(lines), start, [], PlanarEnd) == Err(e)
    ensures FractureSection(lines, start) == Err(e)
  {
  }

  /**
   * One record, whose header `line` was just read from position `f.pos - 1`:
   * the header fields, `num_vert` vertex lines and the normal line.
   */
  method ReadPlanarRecord(f: LineFile, line: string) returns (r: FabResult<PlanarRecord>)
    requires f.Valid() && 0 < f.pos && f.lines[f.pos - 1] == line
    modifies f
    ensures f.Valid()
    ensures r.Ok? ==> PlanarRecordAt(f.lines, old(f.pos) - 1) == Ok((r.value, f.pos))
    ensures r.Err? ==> PlanarRecordAt(f.lines, old(f.pos) - 1) == Err(r.error)
  {
    var header := ReadPlanarHeader(line);
    if header.Err? {
      return Err(header.error);
    }
    var h := header.value;
    var vert := ReadPoints(f, h.count);
    if vert.Err? {
      return Err(vert.error);
    }
    var normalLine := f.ReadLine();
    var normalVector := Split(normalLine);
    return Ok(PlanarRecord(h.id, h.setNo, h.props, vert.value, normalVector));
  }

  /** `read_fractures(f)` */
  method ReadFractures(f: LineFile) returns (r: FabResult<Planar>)
    requires f.Valid()
    modifies f
    ensures f.Valid()
    ensures r.Ok? ==> FractureSection(f.lines, old(f.pos)) == Ok((r.value, f.pos))
    ensures r.Err? ==> FractureSection(f.lines, old(f.pos)) == Err(r.error)
  {
    var vertices: seq<seq<Point>> := [];
    var fracIds: seq<int> := [];
    var sets: seq<string> := [];
    var normals: seq<seq<string>> := [];
    var properties: seq<seq<string>> := [];
    ghost var start := f.pos;
    ghost var recs: seq<PlanarRecord> := [];
    PlanarLinesAdvance(f.lines);
    while true
      invariant f.Valid() && start <= f.pos
      invariant Records(PlanarLines(f.lines), start, [], PlanarEnd) == Records(PlanarLines(f.lines), f.pos, recs, PlanarEnd)
      invariant Columns(recs) == Planar(fracIds, sets, normals, vertices, properties)
      decreases |f.lines| - f.pos
    {
      var line := f.Next();
      if line.None? {
        FracturesFailed(f.lines, start, MissingEnd(PlanarEnd));
        return Err(MissingEnd(PlanarEnd));
      }
      FracturesStep(f.lines, start, f.pos - 1, recs);
      if Strip(line.value) == PlanarEnd {
        FracturesDone(f.lines, start, recs, f.pos);
        if !Rectangular(normals) {
          return Err(RaggedNormals);
        }
        return Ok(Planar(fracIds, sets, normals, vertices, properties));
      }
      var rec := ReadPlanarRecord(f, line.value);
      if rec.Err? {
        FracturesFailed(f.lines, start, rec.error);
        return Err(rec.error);
      }
      sets := sets + [rec.value.setNo];
      fracIds := fracIds + [rec.value.id];
      properties := properties + [rec.value.props];
      vertices := vertices + [rec.value.vertices];
      normals := normals + [rec.value.normal];
      ColumnsSnoc(recs, rec.value);
      recs := recs + [rec.value];
    }
  }

  /**
   * A record read from header line `pos` holds the header's converted id,
   * its set token and its remaining tokens unconverted, and as many
   * vertices as the header declares.
   */
  lemma PlanarRecordHeader(lines: seq<string>, pos: nat, rec: PlanarRecord, stop: nat)
    requires pos < |lines| && PlanarRecordAt(lines, pos) == Ok((rec, stop))
    ensures var ts := Split(lines[pos]);
      |ts| >= 3 && ParseInt(ts[0]) == Some(rec.id) && rec.setNo == ts[2] && IsFloat(ts[2]) &&
      rec.props == ts[3..] && ParseInt(ts[1]) == Some(|rec.vertices|)
  {
    var h, p := PlanarRecordParts(lines, pos, rec, stop);
    PlanarHeaderSpec(lines[pos]);
    PointsRead(lines, pos + 1, h.count, rec.vertices, p);
  }

  /** The parts a record read from header line `pos` is made of: its header, its vertices, its normal line. */
  lemma PlanarRecordParts(lines: seq<string>, pos: nat, rec: PlanarRecord, stop: nat) returns (h: PlanarHeader, p: nat)
    requires pos < |lines| && PlanarRecordAt(lines, pos) == Ok((rec, stop))
    ensures p <= |lines| && ReadPlanarHeader(lines[pos]) == Ok(h)
    ensures Points(PointRows(lines), pos + 1, h.count) == Ok((rec.vertices, p))
    ensures rec == PlanarRecord(h.id, h.setNo, h.props, rec.vertices, Split(LineAt(lines, p)))
    ensures stop == NextPos(lines, p)
  {
    h := ReadPlanarHeader(lines[pos]).value;
    p := Points(PointRows(lines), pos + 1, h.count).value.1;
  }

  /**
   * A record read from header line `pos` consumed exactly the declared
   * number of vertex lines after the header, each giving its fields after
   * the first.
   */
  lemma PlanarRecordVertices(lines: seq<string>, pos: nat, rec: PlanarRecord, stop: nat)
    requires pos < |lines| && PlanarRecordAt(lines, pos) == Ok((rec, stop))
    ensures pos + 1 + |rec.vertices| <= |lines|
    ensures forall i :: 0 <= i < |rec.vertices| ==> PointRow(lines[pos + 1 + i]) == Ok(rec.vertices[i])
  {
    var h, p := PlanarRecordParts(lines, pos, rec, stop);
    var start := pos + 1;
    PointsRead(lines, start, h.count, rec.vertices, p);
    forall i | 0 <= i < |rec.vertices|
      ensures PointRow(lines[pos + 1 + i]) == Ok(rec.vertices[i])
    {
      assert PointRow(lines[start + i]) == Ok(rec.vertices[i]);
    }
  }

  /** After its vertex lines, a record read from header line `pos` consumed exactly one line: its normal. */
  lemma PlanarRecordNormal(lines: seq<string>, pos: nat, rec: PlanarRecord, stop: nat) returns (p: nat)
    requires pos < |lines| && PlanarRecordAt(lines, pos) == Ok((rec, stop))
    ensures p == pos + 1 + |rec.vertices|
    ensures rec.normal == Split(LineAt(lines, p)) && stop == NextPos(lines, p)
  {
    var h;
    h, p := PlanarRecordParts(lines, pos, rec, stop);
    PointsStop(PointRows(lines), pos + 1, h.count, rec.vertices, p);
  }

  /**
   * The five lists `read_fractures` returns have the same length, and every
   * normal has as many components as the others.
   */
  lemma PlanarAligned(lines: seq<string>, pos: nat)
    requires pos <= |lines| && FractureSection(lines, pos).Ok?
    ensures var c := FractureSection(lines, pos).value.0;
      |c.ids| == |c.sets| == |c.normals| == |c.vertices| == |c.properties|
    ensures var c := FractureSection(lines, pos).value.0;
      forall i, j :: 0 <= i < |c.normals| && 0 <= j < |c.normals| ==> |c.normals[i]| == |c.normals[j]|
  {
    PlanarLinesAdvance(lines);
    var recs := Records(PlanarLines(lines), pos, [], PlanarEnd).value.0;
    ColumnsAligned(recs);
    RectangularSpec(Columns(recs).normals);
  }
}

=== FILE: fab_records.dfy ===
/**
 * The loop shared by `read_fractures` and `read_tesselated_fractures`:
 * `for line in f`, stop at the END line, otherwise read one record whose
 * header is that line.  The record readers themselves differ; here a record
 * is whatever reading from its header line gives, with the position after it.
 */
module FabRecords {
  import opened Wrappers
  import opened FabModel

  /** What a line means to a section of records: its END line, or the header of a record. */
  datatype RecordLine<R> = EndLine | HeaderLine(record: FabResult<(R, nat)>)

  /** A record read from a line ends after that line and within the file. */
  predicate RecordsAdvance<R>(ls: seq<RecordLine<R>>) {
    forall i :: 0 <= i < |ls| && ls[i].HeaderLine? && ls[i].record.Ok? ==> i < ls[i].record.value.1 <= |ls|
  }

  /**
   * The records of a section from line `pos` on, after the records `acc`
   * already read, and the position after its END line `end`.
   */
  function Records<R>(ls: seq<RecordLine<R>>, pos: nat, acc: seq<R>, end: string): (r: FabResult<(seq<R>, nat)>)
    requires pos <= |ls| && RecordsAdvance(ls)
    ensures r.Ok? ==> pos < r.value.1 <= |ls|
    decreases |ls| - pos
  {
    if pos == |ls| then Err(MissingEnd(end))
    else match ls[pos]
      case EndLine => Ok((acc, pos + 1))
      case HeaderLine(Err(e)) => Err(e)
      case HeaderLine(Ok((rec, p))) => Records(ls, p, acc + [rec], end)
  }

  /** One more line of the section: its END line, a record that fails, or one more record. */
  lemma RecordsStep<R>(ls: seq<RecordLine<R>>, start: nat, pos: nat, recs: seq<R>, end: string)
    requires start <= pos < |ls| && RecordsAdvance(ls)
    requires Records(ls, start, [], end) == Records(ls, pos, recs, end)
    ensures ls[pos].EndLine? ==> Records(ls, start, [], end) == Ok((recs, pos + 1))
    ensures ls[pos].HeaderLine? && ls[pos].record.Err? ==> Records(ls, start, [], end) == Err(ls[pos].record.error)
    ensures ls[pos].HeaderLine? && ls[pos].record.Ok? ==>
      Records(ls, start, [], end) == Records(ls, ls[pos].record.value.1, recs + [ls[pos].record.value.0], end)
  {
  }

  /** The records already read stay in front of those read after them, and errors do not depend on them. */
  lemma {:induction false} RecordsAcc<R>(ls: seq<RecordLine<R>>, pos: nat, acc: seq<R>, end: string)
    requires pos <= |ls| && RecordsAdvance(ls)
    ensures Records(ls, pos, acc, end).Ok? <==> Records(ls, pos, [], end).Ok?
    ensures Records(ls, pos, acc, end).Err? ==> Records(ls, pos, acc, end) == Records(ls, pos, [], end)
    ensures Records(ls, pos, acc, end).Ok? ==>
      Records(ls, pos, acc, end).value == (acc + Records(ls, pos, [], end).value.0, Records(ls, pos, [], end).value.1)
    decreases |ls| - pos
  {
    if pos < |ls| && ls[pos].HeaderLine? && ls[pos].record.Ok? {
      var (rec, p) := ls[pos].record.value;
      assert Records(ls, pos, acc, end) == Records(ls, p, acc + [rec], end);
      assert [] + [rec] == [rec];
      assert Records(ls, pos, [], end) == Records(ls, p, [rec], end);
      RecordsAcc(ls, p, acc + [rec], end);
      RecordsAcc(ls, p, [rec], end);
      if Records(ls, p, [], end).Ok? {
        var rest := Records(ls, p, [], end).value.0;
        assert acc + [rec] + rest == acc + ([rec] + rest);
      }
    } else {
      assert acc + [] == acc;
    }
  }

  /** Without an END line, a section whose every record reads runs off the end of the file. */
  lemma {:induction false} RecordsMissingEnd<R>(ls: seq<RecordLine<R>>, pos: nat, acc: seq<R>, end: string)
    requires pos <= |ls| && RecordsAdvance(ls)
    requires forall i :: pos <= i < |ls| ==> ls[i].HeaderLine? && ls[i].record.Ok?
    ensures Records(ls, pos, acc, end) == Err(MissingEnd(end))
    decreases |ls| - pos
  {
    if pos < |ls| {
      var (rec, p) := ls[pos].record.value;
      RecordsMissingEnd(ls, p, acc + [rec], end);
    }
  }

  /**
   * A property every record read from the file has, every record of the
   * section has: the section holds nothing but records read from its header
   * lines.
   */
  lemma {:induction false} RecordsAll<R>(ls: seq<RecordLine<R>>, pos: nat, acc: seq<R>, end: string, P: R -> bool)
    requires pos <= |ls| && RecordsAdvance(ls)
    requires forall i :: pos <= i < |ls| && ls[i].HeaderLine? && ls[i].record.Ok? ==> P(ls[i].record.value.0)
    requires forall k :: 0 <= k < |acc| ==> P(acc[k])
    ensures Records(ls, pos, acc, end).Ok? ==>
      forall k :: 0 <= k < |Records(ls, pos, acc, end).value.0| ==> P(Records(ls, pos, acc, end).value.0[k])
    decreases |ls| - pos
  {
    if pos < |ls| && ls[pos].HeaderLine? && ls[pos].record.Ok? {
      var (rec, p) := ls[pos].record.value;
      var acc' := acc + [rec];
      assert forall k :: 0 <= k < |acc'| ==> P(acc'[k]) by {
        assert forall k :: 0 <= k < |acc| ==> acc'[k] == acc[k];
      }
      RecordsAll(ls, p, acc', end, P);
    }
  }
}

=== FILE: fab_rows.dfy ===
/**
 * The rows of the numpy arrays that the fracture readers fill: a line's
 * tokens, sliced the way `data[1:]`, `data[:5]` and `data[5:]` slice them,
 * stored into a row of fixed width by `array[i] = np.asarray(tokens)`.
 */
module FabRows {
  import opened Wrappers
  import opened Text
  import opened Numerals
  import opened FabModel
  import opened FabCursor

  /** `s[n:]`: Python slicing clips at the end of the list. */
  function Drop<T>(s: seq<T>, n: nat): (r: seq<T>)
    ensures |r| == if |s| <= n then 0 else |s| - n
  {
    if |s| <= n then [] else s[n..]
  }

  /** Field `i` of `s[n:]` is field `n + i` of `s`. */
  lemma DropAt<T>(s: seq<T>, n: nat)
    ensures forall i :: 0 <= i < |Drop(s, n)| ==> Drop(s, n)[i] == s[n + i]
  {
  }

  /** `s[:n]` */
  function Take<T>(s: seq<T>, n: nat): (r: seq<T>)
    ensures |r| == if |s| <= n then |s| else n
    ensures r == s[..|r|]
  {
    if |s| <= n then s else s[..n]
  }

  /** A row of `w` copies of `t`: numpy broadcasting a single value across a row. */
  function Repeat(t: string, w: nat): (r: seq<string>)
    ensures |r| == w
  {
    if w == 0 then [] else Repeat(t, w - 1) + [t]
  }

  /** Every place of the row holds `t`. */
  lemma {:induction false} RepeatAt(t: string, w: nat)
    ensures forall i :: 0 <= i < w ==> Repeat(t, w)[i] == t
  {
    if w > 0 {
      RepeatAt(t, w - 1);
    }
  }

  /** The position of the first token `float` rejects, or `|ts|` when it accepts them all. */
  function FirstNonFloat(ts: seq<string>): (i: nat)
    ensures i <= |ts|
  {
    if ts == [] then 0 else if !IsFloat(ts[0]) then 0 else 1 + FirstNonFloat(ts[1..])
  }

  /** Every token before the position converts and the token at it does not. */
  lemma {:induction false} FirstNonFloatSpec(ts: seq<string>)
    ensures forall j :: 0 <= j < FirstNonFloat(ts) ==> IsFloat(ts[j])
    ensures FirstNonFloat(ts) < |ts| ==> !IsFloat(ts[FirstNonFloat(ts)])
  {
    if ts != [] && IsFloat(ts[0]) {
      FirstNonFloatSpec(ts[1..]);
    }
  }

  /** The tokens all convert exactly when no token fails. */
  lemma FirstNonFloatAll(ts: seq<string>)
    ensures FirstNonFloat(ts) == |ts| <==> forall i :: 0 <= i < |ts| ==> IsFloat(ts[i])
  {
    FirstNonFloatSpec(ts);
  }

  /** The tokens of `a + b` all convert exactly when those of `a` and those of `b` do. */
  lemma {:induction false} FirstNonFloatAppend(a: seq<string>, b: seq<string>)
    ensures (FirstNonFloat(a + b) == |a + b|) == (FirstNonFloat(a) == |a| && FirstNonFloat(b) == |b|)
  {
    if a == [] {
      assert a + b == b;
    } else {
      assert (a + b)[0] == a[0] && (a + b)[1..] == a[1..] + b;
      FirstNonFloatAppend(a[1..], b);
    }
  }

  /**
   * `row[:] = np.asarray(ts)` for a row of width `w`: the tokens must fill
   * the row exactly or be a single value that numpy broadcasts across it,
   * and every token stored must convert to a float.  numpy converts element
   * by element over the row, so a value broadcast into a row of width zero
   * is never converted.
   */
  function FitRow(ts: seq<string>, w: nat, line: string): FabResult<seq<string>>
  {
    if |ts| != w && |ts| != 1 then Err(RowShape(line))
    else if w == 0 then Ok([])
    else
      var i := FirstNonFloat(ts);
      if i < |ts| then Err(NotAFloat(ts[i]))
      else if |ts| == w then Ok(ts)
      else Ok(Repeat(ts[0], w))
  }

  /**
   * A row is stored exactly when the tokens fill it or broadcast across it
   * and all convert, except that a row of width zero converts nothing; it
   * then holds the tokens, or the single token in every place.  A wrong
   * number of tokens is reported before a bad token.
   */
  lemma FitRowSpec(ts: seq<string>, w: nat, line: string)
    ensures var r := FitRow(ts, w, line);
      && (r.Ok? <==> (|ts| == w || |ts| == 1) && (w == 0 || forall i :: 0 <= i < |ts| ==> IsFloat(ts[i])))
      && (w == 0 && |ts| <= 1 ==> r == Ok([]))
      && (r.Ok? ==> |r.value| == w && forall i :: 0 <= i < w ==> r.value[i] == if |ts| == w then ts[i] else ts[0])
      && (r.Err? ==> r.error == RowShape(line) || r.error.NotAFloat?)
      && (|ts| != w && |ts| != 1 ==> r == Err(RowShape(line)))
  {
    FirstNonFloatSpec(ts);
    if |ts| == 1 {
      RepeatAt(ts[0], w);
    }
  }

  /** A vertex or node line `index x y z`: `np.asarray(line.split()[1:])` stored in a row of three coordinates. */
  function PointRow(line: string): FabResult<Point> {
    FitRow(Drop(Split(line), 1), 3, line)
  }

  /** The empty line that `readline` returns at the end of the file is not a point. */
  lemma PointRowEmpty()
    ensures PointRow("") == Err(RowShape(""))
  {
    assert Split("") == [];
  }

  /** What every line of the file gives as a point row. */
  function PointRows(lines: seq<string>): (rs: seq<FabResult<Point>>)
    ensures |rs| == |lines|
  {
    Tabulate(|lines|, p => PointRow(LineAt(lines, p)), 0)
  }

  lemma PointRowsAt(lines: seq<string>, i: nat)
    requires i < |lines|
    ensures PointRows(lines)[i] == PointRow(lines[i])
  {
    TabulateAt(|lines|, p => PointRow(LineAt(lines, p)), 0, i);
  }

  /** The row `readline` gives at position `p`; past the end it reads `""`. */
  function RowAt(rs: seq<FabResult<Point>>, p: nat): FabResult<Point> {
    if p < |rs| then rs[p] else Err(RowShape(""))
  }

  /**
   * The points of `n` lines read with `f.readline()` from position `pos`,
   * and the position after them, given the row of every line.
   */
  function Points(rs: seq<FabResult<Point>>, pos: nat, n: nat): (r: FabResult<(seq<Point>, nat)>)
    requires pos <= |rs|
    ensures r.Ok? ==> |r.value.0| == n && pos <= r.value.1 <= |rs|
    decreases n
  {
    if n == 0 then Ok(([], pos))
    else match Points(rs, pos, n - 1)
      case Err(e) => Err(e)
      case Ok((ps, p)) =>
        match RowAt(rs, p)
        case Err(e) => Err(e)
        case Ok(pt) => Ok((ps + [pt], if p < |rs| then p + 1 else p))
  }

  /** Once a line fails, reading more lines fails with the same error. */
  lemma {:induction false} PointsFailed(rs: seq<FabResult<Point>>, pos: nat, i: nat, n: nat)
    requires pos <= |rs| && i <= n && Points(rs, pos, i).Err?
    ensures Points(rs, pos, n) == Points(rs, pos, i)
    decreases n
  {
    if n > i {
      PointsFailed(rs, pos, i, n - 1);
    }
  }

  /** The point row at any position is that of the line `readline` reads there. */
  lemma RowAtLine(lines: seq<string>, p: nat)
    ensures RowAt(PointRows(lines), p) == PointRow(LineAt(lines, p))
  {
    if p < |lines| {
      PointRowsAt(lines, p);
    } else {
      PointRowEmpty();
    }
  }

  /** Reading one more line appends its point. */
  lemma PointsSnoc(rs: seq<FabResult<Point>>, pos: nat, n: nat, ps: seq<Point>, p: nat, pt: Point)
    requires pos <= |rs| && Points(rs, pos, n) == Ok((ps, p)) && RowAt(rs, p) == Ok(pt)
    ensures Points(rs, pos, n + 1) == Ok((ps + [pt], if p < |rs| then p + 1 else p))
  {
  }

  /** Reading one more line fails when that line is no point. */
  lemma PointsErr(rs: seq<FabResult<Point>>, pos: nat, n: nat, p: nat, e: FabError)
    requires pos <= |rs| && Points(rs, pos, n).Ok? && Points(rs, pos, n).value.1 == p && RowAt(rs, p) == Err(e)
    ensures Points(rs, pos, n + 1) == Err(e)
  {
  }

  /** Once the row after `i` points fails, reading all `n` points fails with its error. */
  lemma PointsFailAt(rs: seq<FabResult<Point>>, pos: nat, i: nat, n: nat, p: nat, e: FabError)
    requires pos <= |rs| && i < n && Points(rs, pos, i).Ok? && Points(rs, pos, i).value.1 == p && RowAt(rs, p) == Err(e)
    ensures Points(rs, pos, n) == Err(e)
  {
    PointsErr(rs, pos, i, p, e);
    PointsFailed(rs, pos, i + 1, n);
  }

  /** `f.readline()` stored as a point row. */
  method ReadPointRow(f: LineFile) returns (row: FabResult<Point>)
    requires f.Valid()
    modifies f
    ensures f.Valid()
    ensures row == RowAt(PointRows(f.lines), old(f.pos)) && f.pos == NextPos(f.lines, old(f.pos))
  {
    RowAtLine(f.lines, f.pos);
    var line := f.ReadLine();
    row := PointRow(line);
  }

  /**
   * `np.zeros((n, 3))` filled row by row from the next `n` lines, each
   * dropping its first field.
   */
  method ReadPoints(f: LineFile, n: nat) returns (r: FabResult<seq<Point>>)
    requires f.Valid()
    modifies f
    ensures f.Valid()
    ensures r.Ok? ==> Points(PointRows(f.lines), old(f.pos), n) == Ok((r.value, f.pos))
    ensures r.Err? ==> Points(PointRows(f.lines), old(f.pos), n) == Err(r.error)
  {
    var rows := new Point[n](_ => ["0.0", "0.0", "0.0"]);
    ghost var start := f.pos;
    ghost var rs := PointRows(f.lines);
    ghost var ps: seq<Point> := [];
    for i := 0 to n
      invariant f.Valid()
      invariant rows[..i] == ps
      invariant Points(rs, start, i) == Ok((ps, f.pos))
    {
      ghost var p := f.pos;
      var row := ReadPointRow(f);
      if row.Err? {
        PointsFailAt(rs, start, i, n, p, row.error);
        return Err(row.error);
      }
      PointsSnoc(rs, start, i, ps, p, row.value);
      rows[i] := row.value;
      ps := ps + [row.value];
    }
    assert rows[..] == rows[..n];
    return Ok(rows[..]);
  }

  /** Over the rows of the lines: `n` points are read exactly when the next `n` rows exist and are points. */
  lemma {:induction false} PointsOfRows(rs: seq<FabResult<Point>>, pos: nat, n: nat)
    requires pos <= |rs|
    ensures Points(rs, pos, n).Ok? <==> pos + n <= |rs| && forall i :: pos <= i < pos + n ==> rs[i].Ok?
    ensures Points(rs, pos, n).Ok? ==> (Points(rs, pos, n).value.1 == pos + n &&
      forall i :: 0 <= i < n ==> Points(rs, pos, n).value.0[i] == rs[pos + i].value)
    decreases n
  {
    if n > 0 {
      PointsOfRows(rs, pos, n - 1);
    }
  }

  /** A successful read of `n` points stops exactly `n` rows further on. */
  lemma PointsStop(rs: seq<FabResult<Point>>, pos: nat, n: nat, ps: seq<Point>, stop: nat)
    requires pos <= |rs| && Points(rs, pos, n) == Ok((ps, stop))
    ensures stop == pos + n
  {
    PointsOfRows(rs, pos, n);
  }

  /**
   * Reading `n` points succeeds exactly when the next `n` lines exist and are
   * point lines; it then consumes exactly those lines, and point `i` is the
   * row of line `pos + i`.
   */
  lemma PointsExactly(lines: seq<string>, pos: nat, n: nat)
    requires pos <= |lines|
    ensures Points(PointRows(lines), pos, n).Ok? <==>
      pos + n <= |lines| && forall i :: pos <= i < pos + n ==> PointRow(lines[i]).Ok?
    ensures Points(PointRows(lines), pos, n).Ok? ==> (Points(PointRows(lines), pos, n).value.1 == pos + n &&
      forall i :: 0 <= i < n ==> Points(PointRows(lines), pos, n).value.0[i] == PointRow(lines[pos + i]).value)
  {
    var rs := PointRows(lines);
    PointsOfRows(rs, pos, n);
    forall i | 0 <= i < |lines|
      ensures rs[i] == PointRow(lines[i])
    {
      PointRowsAt(lines, i);
    }
  }

  /** The points read from position `pos` are the rows of the lines from `pos` on, one line each. */
  lemma PointsRead(lines: seq<string>, pos: nat, n: nat, ps: seq<Point>, stop: nat)
    requires pos <= |lines| && Points(PointRows(lines), pos, n) == Ok((ps, stop))
    ensures stop == pos + n <= |lines|
    ensures forall i :: 0 <= i < n ==> PointRow(lines[pos + i]) == Ok(ps[i])
  {
    var rs := PointRows(lines);
    PointsOfRows(rs, pos, n);
    forall i | 0 <= i < n
      ensures PointRow(lines[pos + i]) == Ok(ps[i])
    {
      PointRowsAt(lines, pos + i);
    }
  }
}

=== FILE: fab_section.dfy ===
/**
 * `read_section(f, section_name)`: the FORMAT, PROPERTIES and SETS sections,
 * which are lists of `key = value` lines closed by an `END <NAME>` line.
 *
 * The reading is specified in layers.  `Classify` says what one line means
 * inside a section (its END line, an assignment, or a line that makes
 * `read_keyword` raise); `SectionEnd` says where the section stops;
 * `Assignments` lists the assignments `d[k] = v` made before that, and
 * `Dicts.Build` says which dictionary they leave.
 */
module FabSection {
  import opened Wrappers
  import opened Text
  import opened Dicts
  import opened FabModel
  import opened FabCursor
  import opened FabKeywords

  /** `"END " + section_name.upper().strip()` */
  function EndMarker(name: string): (r: string)
    ensures |r| >= 4 && r[..4] == "END "
  {
    "END " + Strip(Upper(name))
  }

  /** What a line means to a section being read. */
  datatype LineKind = EndLine | Assignment(key: string, value: string) | Rejected(error: FabError)

  /** The END line, or what `read_keyword` makes of any other line. */
  function Classify(line: string, end: string): LineKind {
    if Strip(line) == end then EndLine
    else match ReadKeyword(line)
      case Ok((k, v)) => Assignment(k, v)
      case Err(e) => Rejected(e)
  }

  /** The meaning of every line of the file. */
  function Kinds(lines: seq<string>, end: string): (ks: seq<LineKind>)
    ensures |ks| == |lines|
  {
    if lines == [] then [] else [Classify(lines[0], end)] + Kinds(lines[1..], end)
  }

  lemma {:induction false} KindsAt(lines: seq<string>, end: string, i: nat)
    requires i < |lines|
    ensures Kinds(lines, end)[i] == Classify(lines[i], end)
  {
    if i > 0 {
      KindsAt(lines[1..], end, i - 1);
    }
  }

  /**
   * Where the section that starts at line `pos` stops: just after the first
   * END line, unless a line that is not an assignment or the end of the file
   * comes first.
   */
  function SectionEnd(ks: seq<LineKind>, pos: nat, end: string): (r: FabResult<nat>)
    requires pos <= |ks|
    ensures r.Ok? ==> pos < r.value <= |ks| && ks[r.value - 1].EndLine?
    decreases |ks| - pos
  {
    if pos == |ks| then Err(MissingEnd(end))
    else match ks[pos]
      case EndLine => Ok(pos + 1)
      case Rejected(e) => Err(e)
      case Assignment(_, _) => SectionEnd(ks, pos + 1, end)
  }

  /** The dictionary left by the assignments of the lines from `start` up to `pos`, starting from `{}`. */
  function Assign(ks: seq<LineKind>, start: nat, pos: nat): Dict
    requires start <= pos <= |ks|
    decreases pos
  {
    if pos == start then []
    else match ks[pos - 1]
      case Assignment(k, v) => Put(Assign(ks, start, pos - 1), k, v)
      case _ => Assign(ks, start, pos - 1)
  }

  /** The dictionary `read_section` returns from line `pos` on, and the position after its END line. */
  function Section(lines: seq<string>, pos: nat, end: string): (r: FabResult<(Dict, nat)>)
    requires pos <= |lines|
    ensures r.Ok? ==> pos < r.value.1 <= |lines|
  {
    var ks := Kinds(lines, end);
    match SectionEnd(ks, pos, end)
    case Ok(stop) => Ok((Assign(ks, pos, stop - 1), stop))
    case Err(e) => Err(e)
  }

  /**
   * One line of a section, read after the lines from `start` up to `pos`:
   * its END line finishes the section, a rejected line fails it, and an
   * assignment is added.
   */
  lemma KindStep(ks: seq<LineKind>, start: nat, pos: nat, end: string)
    requires start <= pos < |ks|
    requires SectionEnd(ks, start, end) == SectionEnd(ks, pos, end)
    ensures ks[pos].EndLine? ==> SectionEnd(ks, start, end) == Ok(pos + 1)
    ensures ks[pos].Rejected? ==> SectionEnd(ks, start, end) == Err(ks[pos].error)
    ensures ks[pos].Assignment? ==> SectionEnd(ks, start, end) == SectionEnd(ks, pos + 1, end)
    ensures ks[pos].Assignment? ==> Assign(ks, start, pos + 1) == Put(Assign(ks, start, pos), ks[pos].key, ks[pos].value)
  {
  }

  /** A section still open at the end of the file is missing its END line. */
  lemma SectionEof(lines: seq<string>, start: nat, end: string)
    requires start <= |lines|
    requires SectionEnd(Kinds(lines, end), start, end) == SectionEnd(Kinds(lines, end), |lines|, end)
    ensures Section(lines, start, end) == Err(MissingEnd(end))
  {
  }

  /** `read_section(f, section_name)` */
  method ReadSection(f: LineFile, name: string) returns (r: FabResult<Dict>)
    requires f.Valid()
    modifies f
    ensures f.Valid()
    ensures r.Ok? ==> Section(f.lines, old(f.pos), EndMarker(name)) == Ok((r.value, f.pos))
    ensures r.Err? ==> Section(f.lines, old(f.pos), EndMarker(name)) == Err(r.error)
  {
    var d: Dict := [];
    var end := EndMarker(name);
    ghost var start := f.pos;
    ghost var ks := Kinds(f.lines, end);
    while true
      invariant f.Valid() && start <= f.pos
      invariant SectionEnd(ks, start, end) == SectionEnd(ks, f.pos, end)
      invariant d == Assign(ks, start, f.pos)
      decreases |f.lines| - f.pos
    {
      ghost var pos := f.pos;
      var line := f.Next();
      if line.None? {
        SectionEof(f.lines, start, end);
        return Err(MissingEnd(end));
      }
      if Strip(line.value) == end {
        SectionEndHere(f.lines, start, pos, end, d);
        return Ok(d);
      }
      var kv := ReadKeyword(line.value);
      if kv.Err? {
        SectionBadLine(f.lines, start, pos, end, kv);
        return Err(kv.error);
      }
      ghost var prev := d;
      d := Put(d, kv.value.0, kv.value.1);
      SectionAddLine(f.lines, start, pos, end, prev, kv, d, f.pos);
    }
  }

  /** The END line at `pos` finishes the section with what was assigned before it. */
  lemma SectionEndHere(lines: seq<string>, start: nat, pos: nat, end: string, d: Dict)
    requires start <= pos < |lines|
    requires SectionEnd(Kinds(lines, end), start, end) == SectionEnd(Kinds(lines, end), pos, end)
    requires d == Assign(Kinds(lines, end), start, pos) && Strip(lines[pos]) == end
    ensures Section(lines, start, end) == Ok((d, pos + 1))
  {
    var ks := Kinds(lines, end);
    KindsAt(lines, end, pos);
    assert ks[pos] == EndLine;
    KindStep(ks, start, pos, end);
    SectionFound(lines, start, end, pos);
  }

  /** A section whose END line is line `last` holds what the lines before it assign. */
  lemma SectionFound(lines: seq<string>, start: nat, end: string, last: nat)
    requires start <= |lines| && SectionEnd(Kinds(lines, end), start, end) == Ok(last + 1)
    ensures Section(lines, start, end) == Ok((Assign(Kinds(lines, end), start, last), last + 1))
  {
  }

  /** A line at `pos` that is neither the END line nor a keyword line fails the section. */
  lemma SectionBadLine(lines: seq<string>, start: nat, pos: nat, end: string, kv: FabResult<(string, string)>)
    requires start <= pos < |lines|
    requires SectionEnd(Kinds(lines, end), start, end) == SectionEnd(Kinds(lines, end), pos, end)
    requires Strip(lines[pos]) != end && kv == ReadKeyword(lines[pos]) && kv.Err?
    ensures Section(lines, start, end) == Err(kv.error)
  {
    var ks := Kinds(lines, end);
    KindsAt(lines, end, pos);
    assert ks[pos] == Rejected(kv.error);
    KindStep(ks, start, pos, end);
  }

  /** A keyword line at `pos` adds its assignment, and the section goes on. */
  lemma SectionAddLine(lines: seq<string>, start: nat, pos: nat, end: string, d: Dict, kv: FabResult<(string, string)>,
                        d': Dict, next: nat)
    requires start <= pos < |lines|
    requires SectionEnd(Kinds(lines, end), start, end) == SectionEnd(Kinds(lines, end), pos, end)
    requires d == Assign(Kinds(lines, end), start, pos)
    requires Strip(lines[pos]) != end && kv == ReadKeyword(lines[pos]) && kv.Ok?
    requires d' == Put(d, kv.value.0, kv.value.1) && next == pos + 1
    ensures SectionEnd(Kinds(lines, end), start, end) == SectionEnd(Kinds(lines, end), next, end)
    ensures d' == Assign(Kinds(lines, end), start, next)
  {
    var ks := Kinds(lines, end);
    KindsAt(lines, end, pos);
    assert ks[pos] == Assignment(kv.value.0, kv.value.1);
    KindStep(ks, start, pos, end);
  }

  /** A line inside a section: not its END line, and a `key = value` line. */
  predicate KeywordLine(line: string, end: string) {
    Strip(line) != end && '=' in line
  }

  /** The assignment a keyword line makes. */
  function EntryOf(line: string): Entry
    requires '=' in line
  {
    var kv := ReadKeyword(line).value;
    Entry(kv.0, kv.1)
  }

  /** Inside a section every line is a keyword line, and it means the assignment it makes. */
  lemma KeywordLineKind(lines: seq<string>, end: string, j: nat)
    requires j < |lines|
    ensures KeywordLine(lines[j], end) <==> Kinds(lines, end)[j].Assignment?
    ensures KeywordLine(lines[j], end) ==>
      Kinds(lines, end)[j] == Assignment(EntryOf(lines[j]).key, EntryOf(lines[j]).value)
  {
    KindsAt(lines, end, j);
  }

  /** Every line a finished section read before its END line is an assignment. */
  lemma {:induction false} SectionEndKinds(ks: seq<LineKind>, pos: nat, end: string)
    requires pos <= |ks| && SectionEnd(ks, pos, end).Ok?
    ensures forall j :: pos <= j < SectionEnd(ks, pos, end).value - 1 ==> ks[j].Assignment?
    decreases |ks| - pos
  {
    if !ks[pos].EndLine? {
      SectionEndKinds(ks, pos + 1, end);
    }
  }

  /** The assignments `d[k] = v` made by the lines from `start` up to `pos`, in order. */
  function Assignments(ks: seq<LineKind>, start: nat, pos: nat): (es: seq<Entry>)
    requires start <= pos <= |ks|
    ensures |es| <= pos - start
    decreases pos
  {
    if pos == start then []
    else match ks[pos - 1]
      case Assignment(k, v) => Assignments(ks, start, pos - 1) + [Entry(k, v)]
      case _ => Assignments(ks, start, pos - 1)
  }

  /** Assigning line by line leaves the dictionary built from the list of assignments. */
  lemma {:induction false} AssignBuild(ks: seq<LineKind>, start: nat, pos: nat)
    requires start <= pos <= |ks|
    ensures Assign(ks, start, pos) == Build(Assignments(ks, start, pos))
    decreases pos
  {
    if pos > start {
      AssignBuild(ks, start, pos - 1);
      var prev := Assignments(ks, start, pos - 1);
      match ks[pos - 1]
      case Assignment(k, v) =>
        var es := prev + [Entry(k, v)];
        assert es[..|es| - 1] == prev;
        assert Build(es) == Put(Build(prev), k, v);
      case _ =>
    }
  }

  /** A line that is an assignment has a `=` and makes the assignment `read_keyword` reads from it. */
  lemma AssignmentLine(lines: seq<string>, end: string, j: nat)
    requires j < |lines| && Kinds(lines, end)[j].Assignment?
    ensures '=' in lines[j]
    ensures Entry(Kinds(lines, end)[j].key, Kinds(lines, end)[j].value) == EntryOf(lines[j])
  {
    KindsAt(lines, end, j);
  }

  /** Over assignment lines only, the assignment of line `j` comes `j - start`-th. */
  lemma AssignmentsAt(lines: seq<string>, end: string, start: nat, pos: nat)
    requires start <= pos <= |lines|
    requires forall j :: start <= j < pos ==> Kinds(lines, end)[j].Assignment?
    ensures |Assignments(Kinds(lines, end), start, pos)| == pos - start
    ensures forall j :: start <= j < pos ==>
      '=' in lines[j] && Assignments(Kinds(lines, end), start, pos)[j - start] == EntryOf(lines[j])
  {
    var ks := Kinds(lines, end);
    AssignmentsOfKinds(ks, start, pos);
    forall j | start <= j < pos
      ensures '=' in lines[j] && Assignments(ks, start, pos)[j - start] == EntryOf(lines[j])
    {
      AssignmentLine(lines, end, j);
    }
  }

  /** Over assignments only, the `i`-th assignment listed is the one of line `start + i`. */
  lemma {:induction false} AssignmentsOfKinds(ks: seq<LineKind>, start: nat, pos: nat)
    requires start <= pos <= |ks|
    requires forall j :: start <= j < pos ==> ks[j].Assignment?
    ensures |Assignments(ks, start, pos)| == pos - start
    ensures forall j :: start <= j < pos ==> Assignments(ks, start, pos)[j - start] == Entry(ks[j].key, ks[j].value)
    decreases pos
  {
    if pos > start {
      AssignmentsOfKinds(ks, start, pos - 1);
      var prev := Assignments(ks, start, pos - 1);
      var es := Assignments(ks, start, pos);
      assert es == prev + [Entry(ks[pos - 1].key, ks[pos - 1].value)];
      forall j | start <= j < pos
        ensures es[j - start] == Entry(ks[j].key, ks[j].value)
      {
        if j < pos - 1 {
          assert es[j - start] == prev[j - start];
        }
      }
    }
  }

  /**
   * A section read successfully consists of keyword lines followed by its
   * END line.
   */
  lemma SectionLines(lines: seq<string>, pos: nat, end: string, d: Dict, stop: nat)
    requires pos <= |lines| && Section(lines, pos, end) == Ok((d, stop))
    ensures pos < stop <= |lines| && Strip(lines[stop - 1]) == end
    ensures forall j :: pos <= j < stop - 1 ==> KeywordLine(lines[j], end)
  {
    var ks := Kinds(lines, end);
    assert SectionEnd(ks, pos, end) == Ok(stop);
    SectionLinesOf(lines, pos, end, stop);
  }

  /** The lines before where the section's END line was found are keyword lines. */
  lemma SectionLinesOf(lines: seq<string>, pos: nat, end: string, stop: nat)
    requires pos <= |lines| && SectionEnd(Kinds(lines, end), pos, end) == Ok(stop)
    ensures pos < stop <= |lines| && Strip(lines[stop - 1]) == end
    ensures forall j :: pos <= j < stop - 1 ==> KeywordLine(lines[j], end)
  {
    var ks := Kinds(lines, end);
    KindsAt(lines, end, stop - 1);
    SectionEndKinds(ks, pos, end);
    forall j | pos <= j < stop - 1
      ensures KeywordLine(lines[j], end)
    {
      KeywordLineKind(lines, end, j);
    }
  }

  /** Conversely, keyword lines followed by an END line are read up to and including that END line. */
  lemma {:induction false} SectionCompletes(lines: seq<string>, pos: nat, end: string, stop: nat)
    requires pos <= stop < |lines| && Strip(lines[stop]) == end
    requires forall j :: pos <= j < stop ==> KeywordLine(lines[j], end)
    ensures Section(lines, pos, end).Ok? && Section(lines, pos, end).value.1 == stop + 1
    decreases stop - pos
  {
    KindsAt(lines, end, pos);
    if pos < stop {
      assert KeywordLine(lines[pos], end);
      SectionCompletes(lines, pos + 1, end, stop);
    }
  }

  /** The first line before the END line that has no `=` fails the section, naming that line. */
  lemma {:induction false} SectionRejectsLine(lines: seq<string>, pos: nat, end: string, bad: nat)
    requires pos <= bad < |lines|
    requires Strip(lines[bad]) != end && '=' !in lines[bad]
    requires forall j :: pos <= j < bad ==> KeywordLine(lines[j], end)
    ensures Section(lines, pos, end) == Err(MissingEquals(lines[bad]))
    decreases bad - pos
  {
    KindsAt(lines, end, pos);
    if pos < bad {
      assert KeywordLine(lines[pos], end);
      SectionRejectsLine(lines, pos + 1, end, bad);
    }
  }

  /** Without an END line, a section of keyword lines runs off the end of the file. */
  lemma {:induction false} SectionMissingEnd(lines: seq<string>, pos: nat, end: string)
    requires pos <= |lines|
    requires forall j :: pos <= j < |lines| ==> KeywordLine(lines[j], end)
    ensures Section(lines, pos, end) == Err(MissingEnd(end))
    decreases |lines| - pos
  {
    if pos < |lines| {
      KindsAt(lines, end, pos);
      assert KeywordLine(lines[pos], end);
      SectionMissingEnd(lines, pos + 1, end);
    }
  }

  /** The assignments of a finished section are those of its keyword lines, one per line. */
  lemma SectionAssignments(lines: seq<string>, pos: nat, end: string, d: Dict, stop: nat) returns (es: seq<Entry>)
    requires pos <= |lines| && Section(lines, pos, end) == Ok((d, stop))
    ensures d == Build(es)
    ensures pos < stop && |es| == stop - 1 - pos
    ensures forall j :: pos <= j < stop - 1 ==> '=' in lines[j] && es[j - pos] == EntryOf(lines[j])
  {
    SectionOf(lines, pos, end, d, stop);
    es := Assignments(Kinds(lines, end), pos, stop - 1);
    AssignBuild(Kinds(lines, end), pos, stop - 1);
    SectionEntries(lines, pos, end, stop);
  }

  /** A finished section ends where its END line is found and holds what the lines before it assign. */
  lemma SectionOf(lines: seq<string>, pos: nat, end: string, d: Dict, stop: nat)
    requires pos <= |lines| && Section(lines, pos, end) == Ok((d, stop))
    ensures SectionEnd(Kinds(lines, end), pos, end) == Ok(stop) && pos < stop
    ensures d == Assign(Kinds(lines, end), pos, stop - 1)
  {
  }

  /** The keyword lines of a finished section make, in order, the assignments it builds from. */
  lemma SectionEntries(lines: seq<string>, pos: nat, end: string, stop: nat)
    requires pos <= |lines| && SectionEnd(Kinds(lines, end), pos, end) == Ok(stop)
    ensures |Assignments(Kinds(lines, end), pos, stop - 1)| == stop - 1 - pos
    ensures forall j :: pos <= j < stop - 1 ==>
      '=' in lines[j] && Assignments(Kinds(lines, end), pos, stop - 1)[j - pos] == EntryOf(lines[j])
  {
    SectionEndKinds(Kinds(lines, end), pos, end);
    AssignmentsAt(lines, end, pos, stop - 1);
  }

  /**
   * In the dictionary of a section, a key set on several lines has the value
   * of the last of them.
   */
  lemma SectionLastWins(lines: seq<string>, pos: nat, end: string, j: nat, k: string, v: string)
    requires pos <= |lines|
    requires Section(lines, pos, end).Ok?
    requires pos <= j < Section(lines, pos, end).value.1 - 1
    requires ReadKeyword(lines[j]) == Ok((k, v))
    requires forall j' :: j < j' < Section(lines, pos, end).value.1 - 1 ==>
      ReadKeyword(lines[j']).Err? || ReadKeyword(lines[j']).value.0 != k
    ensures Find(Section(lines, pos, end).value.0, k) == Some(v)
  {
    var d, stop := Section(lines, pos, end).value.0, Section(lines, pos, end).value.1;
    var es := SectionAssignments(lines, pos, end, d, stop);
    forall i | j - pos < i < |es|
      ensures es[i].key != es[j - pos].key
    {
      assert es[(pos + i) - pos] == EntryOf(lines[pos + i]);
    }
    LastValueAt(es, j - pos);
    BuildFind(es, k);
  }

  /** A key is in the dictionary of a section exactly when one of its lines sets it. */
  lemma SectionKeys(lines: seq<string>, pos: nat, end: string, k: string)
    requires pos <= |lines|
    requires Section(lines, pos, end).Ok?
    ensures k in Keys(Section(lines, pos, end).value.0) <==>
      exists j :: pos <= j < Section(lines, pos, end).value.1 - 1 && ReadKeyword(lines[j]).Ok? && ReadKeyword(lines[j]).value.0 == k
  {
    var d, stop := Section(lines, pos, end).value.0, Section(lines, pos, end).value.1;
    var es := SectionAssignments(lines, pos, end, d, stop);
    BuildKeys(es, k);
    if exists i :: 0 <= i < |es| && es[i].key == k {
      var i :| 0 <= i < |es| && es[i].key == k;
      assert es[(pos + i) - pos] == EntryOf(lines[pos + i]);
    }
    if exists j :: pos <= j < stop - 1 && ReadKeyword(lines[j]).Ok? && ReadKeyword(lines[j]).value.0 == k {
      var j :| pos <= j < stop - 1 && ReadKeyword(lines[j]).Ok? && ReadKeyword(lines[j]).value.0 == k;
      assert es[j - pos].key == k;
    }
  }
}

=== FILE: fab_table.dfy ===
/**
 * `make_properties_df(fid, prop_dict, prop_list)`: the property table of the
 * planar fractures.  pandas builds the frame from the raw property rows with
 * the PROPERTIES display names as columns and the fracture ids as index,
 * converts every value to float, and then converts the columns named in a
 * fixed list to integer, one column name at a time.
 *
 * pandas pads a row shorter than the widest one with missing values; only
 * the width of the widest row has to agree with the number of columns.
 */
module FabTable {
  import opened Wrappers
  import opened Numerals
  import opened Dicts
  import opened FabModel

  /** The column names converted to integer, in the order they are tried. */
  const IntColumns: seq<string> := ["Fracture Geometry", "Set Name"]

  /** The length of the longest row, to which `pd.DataFrame` pads every row. */
  function MaxWidth(rows: seq<seq<string>>): (w: nat)
    ensures forall i :: 0 <= i < |rows| ==> |rows[i]| <= w
  {
    if rows == [] then 0
    else
      var rest := MaxWidth(rows[1..]);
      assert forall i :: 1 <= i < |rows| ==> rows[i] == rows[1..][i - 1];
      if |rows[0]| >= rest then |rows[0]| else rest
  }

  /** Some row is as long as the longest. */
  lemma {:induction false} MaxWidthAttained(rows: seq<seq<string>>)
    requires rows != []
    ensures exists i :: 0 <= i < |rows| && |rows[i]| == MaxWidth(rows)
  {
    if |rows[0]| < MaxWidth(rows[1..]) {
      MaxWidthAttained(rows[1..]);
      var i :| 0 <= i < |rows[1..]| && |rows[1..][i]| == MaxWidth(rows[1..]);
      assert rows[i + 1] == rows[1..][i];
    }
  }

  /** Cell `(i, j)` of the padded data: the token, or a missing value past the end of a short row. */
  function RawCell(rows: seq<seq<string>>, i: nat, j: nat): Cell {
    if i < |rows| && j < |rows[i]| then Number(rows[i][j]) else Missing
  }

  /**
   * `pd.DataFrame(prop_list, columns=prop_dict.values(), index=fid)`.  With
   * no rows at all, pandas makes one row of missing values per index entry.
   */
  function NewFrame(fid: seq<int>, columns: seq<string>, rows: seq<seq<string>>): (r: FabResult<Table>)
  {
    if |rows| > 0 && MaxWidth(rows) != |columns| then Err(ColumnCount(|columns|, MaxWidth(rows)))
    else if |rows| > 0 && |rows| != |fid| then Err(IndexLength(|rows|, |fid|))
    else Ok(Table(fid, columns, seq(|columns|, j requires 0 <= j < |columns| => seq(|fid|, i requires 0 <= i < |fid| => RawCell(rows, i, j)))))
  }

  /** A cell `astype(float)` accepts: a float token or a missing value. */
  predicate FloatCell(c: Cell) {
    c.Number? ==> IsFloat(c.token)
  }

  /** A cell `astype(int)` accepts once the frame is float: a finite number. */
  predicate FiniteCell(c: Cell) {
    c.Number? && IsFinite(c.token)
  }

  /** `prop_df.astype(float)`: every present value must convert. */
  function AsFloat(t: Table): FabResult<Table> {
    if forall j, i :: 0 <= j < |t.data| && 0 <= i < |t.data[j]| ==> FloatCell(t.data[j][i]) then Ok(t)
    else Err(FrameNotFloat)
  }

  /** `column.astype(int)`: every number becomes an integer. */
  function ToInts(col: seq<Cell>): (r: seq<Cell>)
    ensures |r| == |col|
  {
    seq(|col|, i requires 0 <= i < |col| => if col[i].Number? then Integer(col[i].token) else col[i])
  }

  /** Column `j` carries the name `name`. */
  predicate Named(t: Table, j: nat, name: string) {
    j < |t.columns| && t.columns[j] == name
  }

  /**
   * `prop_df[col] = prop_df[col].astype(int)` when `col in prop_df.columns`:
   * every column of that name becomes integer, and fails on a missing or
   * non-finite value.
   */
  function CoerceColumn(t: Table, name: string): (r: FabResult<Table>)
  {
    if name !in t.columns then Ok(t)
    else if exists j, i :: 0 <= j < |t.data| && Named(t, j, name) && 0 <= i < |t.data[j]| && !FiniteCell(t.data[j][i]) then
      Err(IntCast(name))
    else
      Ok(t.(data := seq(|t.data|, j requires 0 <= j < |t.data| => if Named(t, j, name) then ToInts(t.data[j]) else t.data[j])))
  }

  /** The columns named in `names` converted one name after the other. */
  function CoerceAll(t: Table, names: seq<string>): FabResult<Table>
    decreases |names|
  {
    if names == [] then Ok(t)
    else match CoerceColumn(t, names[0])
      case Err(e) => Err(e)
      case Ok(t') => CoerceAll(t', names[1..])
  }

  /** What `make_properties_df` returns. */
  function PropertiesTable(fid: seq<int>, propDict: Dict, propList: seq<seq<string>>): FabResult<Table> {
    match NewFrame(fid, Values(propDict), propList)
    case Err(e) => Err(e)
    case Ok(t) =>
      match AsFloat(t)
      case Err(e) => Err(e)
      case Ok(t') => CoerceAll(t', IntColumns)
  }

  /** `make_properties_df(fid, prop_dict, prop_list)` */
  method MakePropertiesDf(fid: seq<int>, propDict: Dict, propList: seq<seq<string>>) returns (r: FabResult<Table>)
    ensures r == PropertiesTable(fid, propDict, propList)
  {
    var frame := NewFrame(fid, Values(propDict), propList);
    if frame.Err? {
      return Err(frame.error);
    }
    var floats := AsFloat(frame.value);
    if floats.Err? {
      return Err(floats.error);
    }
    var propDf := floats.value;
    var intCols := IntColumns;
    for k := 0 to |intCols|
      invariant PropertiesTable(fid, propDict, propList) == CoerceAll(propDf, intCols[k..])
    {
      assert intCols[k..][1..] == intCols[k + 1..];
      var col := CoerceColumn(propDf, intCols[k]);
      if col.Err? {
        return Err(col.error);
      }
      propDf := col.value;
    }
    return Ok(propDf);
  }

  /** Every column has one cell per index entry. */
  predicate Shaped(t: Table) {
    |t.data| == |t.columns| && forall j :: 0 <= j < |t.data| ==> |t.data[j]| == |t.index|
  }

  /** Converting a column keeps the index, the column names and the shape. */
  lemma CoerceColumnShape(t: Table, name: string)
    requires Shaped(t) && CoerceColumn(t, name).Ok?
    ensures var t' := CoerceColumn(t, name).value;
      Shaped(t') && t'.index == t.index && t'.columns == t.columns
  {
  }

  /**
   * Converting a column turns every number of the columns with that name
   * into an integer and changes no other column; all those numbers were
   * finite.
   */
  lemma CoerceColumnCells(t: Table, name: string)
    requires Shaped(t) && CoerceColumn(t, name).Ok?
    ensures var t' := CoerceColumn(t, name).value;
      forall j, i :: 0 <= j < |t.data| && 0 <= i < |t.data[j]| ==>
        if Named(t, j, name) then FiniteCell(t.data[j][i]) && t'.data[j][i] == Integer(t.data[j][i].token)
        else t'.data[j][i] == t.data[j][i]
  {
  }

  /** What the cells of the finished table are, given what the float frame held. */
  predicate CoercedFrom(t: Table, t': Table, names: seq<string>) {
    Shaped(t) && Shaped(t') && t'.index == t.index && t'.columns == t.columns &&
    forall j, i :: 0 <= j < |t.data| && 0 <= i < |t.data[j]| ==>
      if t.columns[j] in names then FiniteCell(t.data[j][i]) && t'.data[j][i] == Integer(t.data[j][i].token)
      else t'.data[j][i] == t.data[j][i]
  }

  /**
   * Converting the columns of several names, one name after the other,
   * turns exactly the numbers of those columns into integers, and fails
   * when one of them holds a missing or non-finite value.
   */
  lemma {:induction false} CoerceAllCells(t: Table, names: seq<string>)
    requires Shaped(t)
    requires forall a, b :: 0 <= a < b < |names| ==> names[a] != names[b]
    ensures CoerceAll(t, names).Ok? ==> CoercedFrom(t, CoerceAll(t, names).value, names)
    ensures CoerceAll(t, names).Ok? <==>
      forall j, i :: 0 <= j < |t.data| && t.columns[j] in names && 0 <= i < |t.data[j]| ==> FiniteCell(t.data[j][i])
    decreases |names|
  {
    if names != [] {
      var name := names[0];
      if CoerceColumn(t, name).Ok? {
        var t1 := CoerceColumn(t, name).value;
        CoerceColumnShape(t, name);
        CoerceColumnCells(t, name);
        assert name !in names[1..];
        CoerceAllCells(t1, names[1..]);
        forall j, i | 0 <= j < |t.data| && 0 <= i < |t.data[j]|
          ensures FiniteCell(t1.data[j][i]) == (FiniteCell(t.data[j][i]) && t.columns[j] != name)
        {
        }
      } else {
        var j, i :| 0 <= j < |t.data| && Named(t, j, name) && 0 <= i < |t.data[j]| && !FiniteCell(t.data[j][i]);
        assert t.columns[j] in names;
      }
    }
  }

  /** The frame pandas builds is shaped by the index and the columns, and holds no integers yet. */
  lemma NewFrameShape(fid: seq<int>, columns: seq<string>, rows: seq<seq<string>>)
    requires NewFrame(fid, columns, rows).Ok?
    ensures var t := NewFrame(fid, columns, rows).value;
      Shaped(t) && t.index == fid && t.columns == columns &&
      forall j, i :: 0 <= j < |t.data| && 0 <= i < |t.data[j]| ==> t.data[j][i] == RawCell(rows, i, j)
  {
  }

  /**
   * What each cell of the table holds: a column named "Fracture Geometry"
   * or "Set Name" holds `astype(int)` of each value, all of which were
   * present and finite: its integer part when it fits the platform integer
   * range, and otherwise whatever the silent cast gives; every other column
   * holds the float value of each token, or a missing value where a row is
   * shorter than the widest.
   */
  predicate TableCellsOf(fid: seq<int>, propList: seq<seq<string>>, t: Table)
    requires Shaped(t) && t.index == fid
  {
    forall j, i :: 0 <= j < |t.columns| && 0 <= i < |fid| ==>
      if t.columns[j] in IntColumns then
        i < |propList| && j < |propList[i]| && IsFinite(propList[i][j]) && t.data[j][i] == Integer(propList[i][j])
      else t.data[j][i] == RawCell(propList, i, j) && FloatCell(t.data[j][i])
  }

  /**
   * The property table has one row per fracture id, in order, and the
   * PROPERTIES display names as columns, in order; with any rows at all,
   * one row per id and the widest exactly as wide as the columns.  Its
   * cells are as `TableCellsOf` describes.
   */
  lemma PropertiesTableSpec(fid: seq<int>, propDict: Dict, propList: seq<seq<string>>)
    requires PropertiesTable(fid, propDict, propList).Ok?
    ensures var t := PropertiesTable(fid, propDict, propList).value;
      t.index == fid && t.columns == Values(propDict) && Shaped(t)
    ensures propList != [] ==> |propList| == |fid| && MaxWidth(propList) == |Values(propDict)|
    ensures TableCellsOf(fid, propList, PropertiesTable(fid, propDict, propList).value)
  {
    var t0 := TableFrame(fid, propDict, propList);
    var t := PropertiesTable(fid, propDict, propList).value;
    assert CoerceAll(t0, IntColumns) == Ok(t);
    CoerceAllCells(t0, IntColumns);
    assert CoercedFrom(t0, t, IntColumns);
    assert t.index == fid && t.columns == Values(propDict) && Shaped(t);
    TableCells(fid, propList, t0, t);
  }

  /** The float frame a successful table was converted from. */
  lemma TableFrame(fid: seq<int>, propDict: Dict, propList: seq<seq<string>>) returns (t0: Table)
    requires PropertiesTable(fid, propDict, propList).Ok?
    ensures NewFrame(fid, Values(propDict), propList) == Ok(t0) && Shaped(t0)
    ensures t0.index == fid && t0.columns == Values(propDict)
    ensures propList != [] ==> |propList| == |fid| && MaxWidth(propList) == |Values(propDict)|
    ensures forall j, i :: 0 <= j < |t0.data| && 0 <= i < |t0.data[j]| ==>
      t0.data[j][i] == RawCell(propList, i, j) && FloatCell(t0.data[j][i])
    ensures PropertiesTable(fid, propDict, propList) == CoerceAll(t0, IntColumns)
  {
    t0 := NewFrame(fid, Values(propDict), propList).value;
    NewFrameShape(fid, Values(propDict), propList);
  }

  /** The cells of the table converted from the frame of the raw rows. */
  lemma TableCells(fid: seq<int>, propList: seq<seq<string>>, t0: Table, t: Table)
    requires CoercedFrom(t0, t, IntColumns) && t.index == fid
    requires forall j, i :: 0 <= j < |t0.data| && 0 <= i < |t0.data[j]| ==>
      t0.data[j][i] == RawCell(propList, i, j) && FloatCell(t0.data[j][i])
    ensures TableCellsOf(fid, propList, t)
  {
    forall j, i | 0 <= j < |t.columns| && 0 <= i < |fid|
      ensures if t.columns[j] in IntColumns then
          i < |propList| && j < |propList[i]| && IsFinite(propList[i][j]) && t.data[j][i] == Integer(propList[i][j])
        else t.data[j][i] == RawCell(propList, i, j) && FloatCell(t.data[j][i])
    {
      assert t0.data[j][i] == RawCell(propList, i, j);
    }
  }

  /** A row wider than the schema fails the table. */
  lemma RowWiderThanSchema(fid: seq<int>, propDict: Dict, propList: seq<seq<string>>, i: nat)
    requires i < |propList| && |propList[i]| > |Values(propDict)|
    ensures PropertiesTable(fid, propDict, propList) == Err(ColumnCount(|Values(propDict)|, MaxWidth(propList)))
  {
  }

  /** When no row is as wide as the schema, the table fails too. */
  lemma RowsNarrowerThanSchema(fid: seq<int>, propDict: Dict, propList: seq<seq<string>>)
    requires propList != [] && forall i :: 0 <= i < |propList| ==> |propList[i]| < |Values(propDict)|
    ensures PropertiesTable(fid, propDict, propList) == Err(ColumnCount(|Values(propDict)|, MaxWidth(propList)))
  {
    MaxWidthAttained(propList);
  }

  /**
   * Conversely, one complete row per id whose tokens all convert to float,
   * and to finite values in the integer columns, always gives a table.
   */
  lemma PropertiesTableBuilt(fid: seq<int>, propDict: Dict, propList: seq<seq<string>>)
    requires |propList| == |fid|
    requires forall i :: 0 <= i < |propList| ==> |propList[i]| == |Values(propDict)|
    requires forall i, j :: 0 <= i < |propList| && 0 <= j < |propList[i]| ==> IsFloat(propList[i][j])
    requires forall i, j :: 0 <= i < |propList| && 0 <= j < |propList[i]| && Values(propDict)[j] in IntColumns ==>
      IsFinite(propList[i][j])
    ensures PropertiesTable(fid, propDict, propList).Ok?
  {
    var cols := Values(propDict);
    if propList != [] {
      MaxWidthAttained(propList);
    }
    var t0 := NewFrame(fid, cols, propList).value;
    NewFrameShape(fid, cols, propList);
    CoerceAllCells(t0, IntColumns);
  }
}

=== FILE: fab_tess.dfy ===
/**
 * `read_tesselated_fractures(f)`: the TESSFRACTURE section.  Each record is
 * a header line `id node_count face_count set`, then one line per node,
 * then one line per face: five geometry fields followed by the face's
 * property fields.  The first face line fixes how many property fields
 * every face of the record has.
 */
module FabTess {
  import opened Wrappers
  import opened Text
  import opened Numerals
  import opened FabModel
  import opened FabCursor
  import opened FabRows
  import opened FabRecords

  const TessEnd := "END TESSFRACTURE"

  /** The fields of a record header, once converted; the face count is converted only after the nodes are read. */
  datatype TessHeader = TessHeader(id: int, setNo: string, nodeCount: nat, faceToken: string)

  /**
   * `fracid, num_nodes, num_faces, set_no = line.split()`, then `int(fracid)`,
   * `float(set_no)`, `int(num_nodes)` and `np.zeros((num_nodes, 3))`, in
   * that order.
   */
  function ReadTessHeader(line: string): FabResult<TessHeader> {
    var ts := Split(line);
    if |ts| != 4 then Err(HeaderArity(line))
    else match ParseInt(ts[0])
      case None => Err(NotAnInteger(ts[0]))
      case Some(id) =>
        if !IsFloat(ts[3]) then Err(NotAFloat(ts[3]))
        else match ParseInt(ts[1])
          case None => Err(NotAnInteger(ts[1]))
          case Some(n) =>
            if n < 0 then Err(NegativeDimension(n))
            else Ok(TessHeader(id, ts[3], n, ts[2]))
  }

  /**
   * A header is read exactly when it has four tokens, an integer id, a float
   * set number and a node count that is a non-negative integer.
   */
  lemma TessHeaderSpec(line: string)
    ensures var ts := Split(line);
      ReadTessHeader(line).Ok? <==>
        |ts| == 4 && ParseInt(ts[0]).Some? && IsFloat(ts[3]) && ParseInt(ts[1]).Some? && ParseInt(ts[1]).value >= 0
    ensures var ts := Split(line);
      ReadTessHeader(line).Ok? ==>
        ReadTessHeader(line).value == TessHeader(ParseInt(ts[0]).value, ts[3], ParseInt(ts[1]).value, ts[2])
    ensures |Split(line)| != 4 ==> ReadTessHeader(line) == Err(HeaderArity(line))
  {
  }

  /** The geometry fields and the property fields of one face. */
  type Face = (seq<string>, seq<string>)

  /**
   * The tokens `ts` of a face line stored as `face_info[i] = np.asarray(data[:5])`
   * and then `properties[i] = np.asarray(data[5:])`, with `w` property fields.
   */
  function FaceFields(ts: seq<string>, w: nat, line: string): FabResult<Face> {
    match FitRow(Take(ts, 5), 5, line)
    case Err(e) => Err(e)
    case Ok(info) =>
      match FitRow(Drop(ts, 5), w, line)
      case Err(e) => Err(e)
      case Ok(props) => Ok((info, props))
  }

  /** A face line with `w` property fields. */
  function FaceRow(line: string, w: nat): FabResult<Face> {
    FaceFields(Split(line), w, line)
  }

  /** A face line with exactly `w` property fields is stored when all its fields convert, split after the fifth. */
  lemma FaceFieldsExact(ts: seq<string>, w: nat, line: string)
    requires |ts| == 5 + w
    ensures FaceFields(ts, w, line).Ok? <==> FirstNonFloat(ts) == |ts|
    ensures FaceFields(ts, w, line).Ok? ==> FaceFields(ts, w, line).value == (ts[..5], ts[5..])
  {
    assert Take(ts, 5) == ts[..5] && Drop(ts, 5) == ts[5..];
    assert ts == ts[..5] + ts[5..];
    FirstNonFloatAppend(ts[..5], ts[5..]);
  }

  /**
   * A face line with exactly five geometry fields and `w` property fields is
   * stored exactly when all of them are floats, and is then split after its
   * fifth field; a line with fewer than five fields, other than a single
   * value that broadcasts, does not fit; a stored face always has five
   * geometry fields and `w` property fields.
   */
  lemma FaceFieldsSpec(ts: seq<string>, w: nat, line: string)
    ensures |ts| == 5 + w ==>
      (FaceFields(ts, w, line).Ok? <==> forall i :: 0 <= i < |ts| ==> IsFloat(ts[i])) &&
      (FaceFields(ts, w, line).Ok? ==> FaceFields(ts, w, line).value == (ts[..5], ts[5..]))
    ensures |ts| < 5 && |ts| != 1 ==> FaceFields(ts, w, line) == Err(RowShape(line))
    ensures FaceFields(ts, w, line).Ok? ==> |FaceFields(ts, w, line).value.0| == 5 && |FaceFields(ts, w, line).value.1| == w
  {
    if |ts| == 5 + w {
      FaceFieldsExact(ts, w, line);
      FirstNonFloatAll(ts);
    }
  }

  /** The end of the file reads as `""`, which is no face. */
  lemma FaceRowEmpty(w: nat)
    ensures FaceRow("", w) == Err(RowShape(""))
  {
    assert Split("") == [];
  }

  /** What every line of the file gives as a face row with `w` property fields. */
  function FaceRows(lines: seq<string>, w: nat): (rs: seq<FabResult<Face>>)
    ensures |rs| == |lines|
  {
    Tabulate(|lines|, p => FaceRow(LineAt(lines, p), w), 0)
  }

  lemma FaceRowsAt(lines: seq<string>, w: nat, j: nat)
    requires j < |lines|
    ensures FaceRows(lines, w)[j] == FaceRow(lines[j], w)
  {
    var g := p => FaceRow(LineAt(lines, p), w);
    TabulateAt(|lines|, g, 0, j);
    assert LineAt(lines, j) == lines[j];
  }

  /** The face row `readline` gives at position `p`; past the end it reads `""`. */
  function FaceAt(rs: seq<FabResult<Face>>, p: nat): FabResult<Face> {
    if p < |rs| then rs[p] else Err(RowShape(""))
  }

  /**
   * The geometry rows and property rows of `n` face lines read with
   * `f.readline()` from position `pos`, and the position after them.
   */
  function Faces(rs: seq<FabResult<Face>>, pos: nat, n: nat): (r: FabResult<(seq<seq<string>>, seq<seq<string>>, nat)>)
    requires pos <= |rs|
    ensures r.Ok? ==> |r.value.0| == n && |r.value.1| == n && pos <= r.value.2 <= |rs|
    decreases n
  {
    if n == 0 then Ok(([], [], pos))
    else match Faces(rs, pos, n - 1)
      case Err(e) => Err(e)
      case Ok((infos, props, p)) =>
        match FaceAt(rs, p)
        case Err(e) => Err(e)
        case Ok((info, prop)) => Ok((infos + [info], props + [prop], if p < |rs| then p + 1 else p))
  }

  /** The face row at any position is that of the line `readline` reads there. */
  lemma FaceAtLine(lines: seq<string>, w: nat, p: nat)
    ensures FaceAt(FaceRows(lines, w), p) == FaceRow(LineAt(lines, p), w)
  {
    if p < |lines| {
      FaceRowsAt(lines, w, p);
    } else {
      FaceRowEmpty(w);
    }
  }

  /** Reading one more face line appends its rows. */
  lemma FacesSnoc(rs: seq<FabResult<Face>>, pos: nat, n: nat, infos: seq<seq<string>>, props: seq<seq<string>>, p: nat, row: Face, next: nat)
    requires pos <= |rs| && Faces(rs, pos, n) == Ok((infos, props, p)) && FaceAt(rs, p) == Ok(row)
    requires next == if p < |rs| then p + 1 else p
    ensures Faces(rs, pos, n + 1) == Ok((infos + [row.0], props + [row.1], next))
  {
  }

  /** Reading one more face line fails when that line is no face. */
  lemma FacesErr(rs: seq<FabResult<Face>>, pos: nat, n: nat, p: nat, e: FabError)
    requires pos <= |rs| && Faces(rs, pos, n).Ok? && Faces(rs, pos, n).value.2 == p && FaceAt(rs, p) == Err(e)
    ensures Faces(rs, pos, n + 1) == Err(e)
  {
  }

  /** Once a face line fails, reading more face lines fails with the same error. */
  lemma {:induction false} FacesFailed(rs: seq<FabResult<Face>>, pos: nat, i: nat, n: nat)
    requires pos <= |rs| && i <= n && Faces(rs, pos, i).Err?
    ensures Faces(rs, pos, n) == Faces(rs, pos, i)
    decreases n
  {
    if n > i {
      FacesFailed(rs, pos, i, n - 1);
    }
  }

  /** `n` faces are read exactly when the next `n` rows exist and are faces; face `i` is then row `pos + i`. */
  lemma {:induction false} FacesOfRows(rs: seq<FabResult<Face>>, pos: nat, n: nat)
    requires pos <= |rs|
    ensures Faces(rs, pos, n).Ok? <==> pos + n <= |rs| && forall i :: pos <= i < pos + n ==> rs[i].Ok?
    ensures Faces(rs, pos, n).Ok? ==> (Faces(rs, pos, n).value.2 == pos + n &&
      forall i :: 0 <= i < n ==> (Faces(rs, pos, n).value.0[i], Faces(rs, pos, n).value.1[i]) == rs[pos + i].value)
    decreases n
  {
    if n > 0 {
      FacesOfRows(rs, pos, n - 1);
    }
  }

  /**
   * The faces of a record whose node lines end at position `p`, with face
   * count `m` and header line `header`, and the position after its last
   * face line.  The first face line is read before the face count is
   * checked, and the property rows are sized from it.
   */
  function RecordFaces(lines: seq<string>, p: nat, m: int, header: string): (r: FabResult<(seq<seq<string>>, seq<seq<string>>, nat)>)
    requires p <= |lines|
    ensures r.Ok? ==> p < r.value.2 <= |lines|
  {
    var first := LineAt(lines, p);
    var width := |Split(first)| - 5;
    assert Split("") == [];
    if m < 0 then Err(NegativeDimension(m))
    else if width < 0 then Err(NegativeDimension(width))
    else if m == 0 then Err(NoFaceRow(header))
    else match FaceRow(first, width)
      case Err(e) => Err(e)
      case Ok((info, prop)) =>
        match Faces(FaceRows(lines, width), p + 1, m - 1)
        case Err(e) => Err(e)
        case Ok((infos, props, q)) => Ok(([info] + infos, [prop] + props, q))
  }

  /** The record whose header is line `pos`, and the position after its last face line. */
  function TessRecordAt(lines: seq<string>, pos: nat): (r: FabResult<(TessRecord, nat)>)
    requires pos < |lines|
    ensures r.Ok? ==> pos < r.value.1 <= |lines|
  {
    match ReadTessHeader(lines[pos])
    case Err(e) => Err(e)
    case Ok(h) =>
      match Points(PointRows(lines), pos + 1, h.nodeCount)
      case Err(e) => Err(e)
      case Ok((nodes, p)) =>
        match ParseInt(h.faceToken)
        case None => Err(NotAnInteger(h.faceToken))
        case Some(m) =>
          match RecordFaces(lines, p, m, lines[pos])
          case Err(e) => Err(e)
          case Ok((faces, props, q)) => Ok((TessRecord(h.id, h.setNo, nodes, faces, props), q))
  }

  /** What line `i` means to the TESSFRACTURE section; past the end of the file nothing is read. */
  function TessLineAt(lines: seq<string>, i: nat): RecordLine<TessRecord> {
    if i >= |lines| || Strip(lines[i]) == TessEnd then EndLine else HeaderLine(TessRecordAt(lines, i))
  }

  /** The meaning of every line of the file. */
  function TessLines(lines: seq<string>): (ls: seq<RecordLine<TessRecord>>)
    ensures |ls| == |lines|
  {
    Tabulate(|lines|, i => TessLineAt(lines, i), 0)
  }

  lemma TessLinesAt(lines: seq<string>, j: nat)
    requires j < |lines|
    ensures TessLines(lines)[j] == TessLineAt(lines, j)
  {
    TabulateAt(|lines|, i => TessLineAt(lines, i), 0, j);
  }

  /** Every record read from the file ends after its header and within the file. */
  lemma TessLinesAdvance(lines: seq<string>)
    ensures RecordsAdvance(TessLines(lines))
  {
    forall i | 0 <= i < |lines|
      ensures TessLines(lines)[i] == TessLineAt(lines, i)
    {
      TessLinesAt(lines, i);
    }
  }

  /** The five lists of `read_tesselated_fractures`, one entry per record. */
  function TessColumns(recs: seq<TessRecord>): Tess {
    if recs == [] then Tess([], [], [], [], [])
    else
      var c := TessColumns(recs[..|recs| - 1]);
      var rec := recs[|recs| - 1];
      Tess(c.ids + [rec.id], c.sets + [rec.setNo], c.nodes + [rec.nodes], c.faces + [rec.faces], c.properties + [rec.faceProps])
  }

  /** What `read_tesselated_fractures` returns from line `pos` on, and the position after its END line. */
  function TessSection(lines: seq<string>, pos: nat): (r: FabResult<(Tess, nat)>)
    requires pos <= |lines|
    ensures r.Ok? ==> pos < r.value.1 <= |lines|
  {
    TessLinesAdvance(lines);
    match Records(TessLines(lines), pos, [], TessEnd)
    case Err(e) => Err(e)
    case Ok((recs, stop)) => Ok((TessColumns(recs), stop))
  }

  /** A section that reaches its END line gives the five lists of its records. */
  lemma TessDone(lines: seq<string>, start: nat, recs: seq<TessRecord>, stop: nat)
    requires start <= |lines|
    requires RecordsAdvance(TessLines(lines))
    requires Records(TessLines(lines), start, [], TessEnd) == Ok((recs, stop))
    ensures TessSection(lines, start) == Ok((TessColumns(recs), stop))
  {
  }

  /** A section that fails, fails `read_tesselated_fractures` with the same error. */
  lemma TessFailed(lines: seq<string>, start: nat, e: FabError)
    requires start <= |lines|
    requires RecordsAdvance(TessLines(lines))
    requires Records(TessLines(lines), start, [], TessEnd) == Err(e)
    ensures TessSection(lines, start) == Err(e)
  {
  }

  /** Appending a record appends one entry to each list. */
  lemma TessColumnsSnoc(recs: seq<TessRecord>, rec: TessRecord)
    ensures var c := TessColumns(recs);
      TessColumns(recs + [rec]) ==
        Tess(c.ids + [rec.id], c.sets + [rec.setNo], c.nodes + [rec.nodes], c.faces + [rec.faces], c.properties + [rec.faceProps])
  {
    assert (recs + [rec])[..|recs|] == recs;
  }

  /** The five lists have one entry per record, each taken from that record, in order. */
  lemma {:induction false} TessColumnsAligned(recs: seq<TessRecord>)
    ensures var c := TessColumns(recs);
      |c.ids| == |c.sets| == |c.nodes| == |c.faces| == |c.properties| == |recs|
    ensures var c := TessColumns(recs);
      forall i :: 0 <= i < |recs| ==>
        c.ids[i] == recs[i].id && c.sets[i] == recs[i].setNo && c.nodes[i] == recs[i].nodes &&
        c.faces[i] == recs[i].faces && c.properties[i] == recs[i].faceProps
  {
    if recs != [] {
      TessColumnsAligned(recs[..|recs| - 1]);
    }
  }

  /** One more line of the section: its END line, or the header of one more record. */
  lemma TessStep(lines: seq<string>, start: nat, pos: nat, recs: seq<TessRecord>)
    requires start <= pos < |lines|
    requires RecordsAdvance(TessLines(lines))
    requires Records(TessLines(lines), start, [], TessEnd) == Records(TessLines(lines), pos, recs, TessEnd)
    ensures Strip(lines[pos]) == TessEnd ==> Records(TessLines(lines), start, [], TessEnd) == Ok((recs, pos + 1))
    ensures Strip(lines[pos]) != TessEnd && TessRecordAt(lines, pos).Err? ==>
      Records(TessLines(lines), start, [], TessEnd) == Err(TessRecordAt(lines, pos).error)
    ensures Strip(lines[pos]) != TessEnd && TessRecordAt(lines, pos).Ok? ==>
      Records(TessLines(lines), start, [], TessEnd) ==
        Records(TessLines(lines), TessRecordAt(lines, pos).value.1, recs + [TessRecordAt(lines, pos).value.0], TessEnd)
  {
    TessLinesAt(lines, pos);
    RecordsStep(TessLines(lines), start, pos, recs, TessEnd);
  }

  /** `f.readline()` stored as a face row with `w` property fields. */
  method ReadFace(f: LineFile, w: nat) returns (row: FabResult<Face>)
    requires f.Valid()
    modifies f
    ensures f.Valid()
    ensures row == FaceAt(FaceRows(f.lines, w), old(f.pos)) && f.pos == NextPos(f.lines, old(f.pos))
  {
    FaceAtLine(f.lines, w, f.pos);
    var line := f.ReadLine();
    row := FaceRow(line, w);
  }

  /**
   * The face rows after the first: `for i in range(1, num_faces)`, storing
   * each line into the next row of the geometry array and of the property
   * array.
   */
  method ReadFaces(f: LineFile, n: nat, w: nat) returns (r: FabResult<(seq<seq<string>>, seq<seq<string>>)>)
    requires f.Valid()
    modifies f
    ensures f.Valid()
    ensures r.Ok? ==> Faces(FaceRows(f.lines, w), old(f.pos), n) == Ok((r.value.0, r.value.1, f.pos))
    ensures r.Err? ==> Faces(FaceRows(f.lines, w), old(f.pos), n) == Err(r.error)
  {
    var faceInfo := new seq<string>[n](_ => []);
    var properties := new seq<string>[n](_ => []);
    ghost var start := f.pos;
    ghost var rs := FaceRows(f.lines, w);
    ghost var infos: seq<seq<string>>, props: seq<seq<string>> := [], [];
    for i := 0 to n
      invariant f.Valid() && start <= f.pos
      invariant faceInfo[..i] == infos && properties[..i] == props
      invariant Faces(rs, start, i) == Ok((infos, props, f.pos))
    {
      ghost var p := f.pos;
      var row := ReadFace(f, w);
      if row.Err? {
        FacesErr(rs, start, i, p, row.error);
        FacesFailed(rs, start, i + 1, n);
        return Err(row.error);
      }
      FacesSnoc(rs, start, i, infos, props, p, row.value, f.pos);
      faceInfo[i] := row.value.0;
      properties[i] := row.value.1;
      infos, props := infos + [row.value.0], props + [row.value.1];
    }
    assert faceInfo[..] == faceInfo[..n] && properties[..] == properties[..n];
    return Ok((faceInfo[..], properties[..]));
  }

  /**
   * The faces of one record once its nodes are read: the first face line,
   * `np.zeros` for both arrays, row 0 from the first face line and the rows
   * after it from the next `num_faces - 1` lines.
   */
  method ReadRecordFaces(f: LineFile, m: int, header: string) returns (r: FabResult<(seq<seq<string>>, seq<seq<string>>)>)
    requires f.Valid()
    modifies f
    ensures f.Valid()
    ensures r.Ok? ==> RecordFaces(f.lines, old(f.pos), m, header) == Ok((r.value.0, r.value.1, f.pos))
    ensures r.Err? ==> RecordFaces(f.lines, old(f.pos), m, header) == Err(r.error)
  {
    ghost var p := f.pos;
    var firstLine := f.ReadLine();
    var firstFace := Split(firstLine);
    if m < 0 {
      return Err(NegativeDimension(m));
    }
    if |firstFace| - 5 < 0 {
      return Err(NegativeDimension(|firstFace| - 5));
    }
    var w := |firstFace| - 5;
    if m == 0 {
      return Err(NoFaceRow(header));
    }
    var first := FaceRow(firstLine, w);
    if first.Err? {
      return Err(first.error);
    }
    var rest := ReadFaces(f, m - 1, w);
    if rest.Err? {
      assert RecordFaces(f.lines, p, m, header) == Err(rest.error);
      return Err(rest.error);
    }
    assert RecordFaces(f.lines, p, m, header) ==
      Ok(([first.value.0] + rest.value.0, [first.value.1] + rest.value.1, f.pos));
    return Ok(([first.value.0] + rest.value.0, [first.value.1] + rest.value.1));
  }

  /**
   * One record, whose header `line` was just read from position `f.pos - 1`:
   * the header fields, `num_nodes` node lines and the face lines.
   */
  method ReadTessRecord(f: LineFile, line: string) returns (r: FabResult<TessRecord>)
    requires f.Valid() && 0 < f.pos && f.lines[f.pos - 1] == line
    modifies f
    ensures f.Valid()
    ensures r.Ok? ==> TessRecordAt(f.lines, old(f.pos) - 1) == Ok((r.value, f.pos))
    ensures r.Err? ==> TessRecordAt(f.lines, old(f.pos) - 1) == Err(r.error)
  {
    var header := ReadTessHeader(line);
    if header.Err? {
      return Err(header.error);
    }
    var h := header.value;
    var nodes := ReadPoints(f, h.nodeCount);
    if nodes.Err? {
      return Err(nodes.error);
    }
    var numFaces := ParseInt(h.faceToken);
    if numFaces.None? {
      return Err(NotAnInteger(h.faceToken));
    }
    var faces := ReadRecordFaces(f, numFaces.value, line);
    if faces.Err? {
      return Err(faces.error);
    }
    return Ok(TessRecord(h.id, h.setNo, nodes.value, faces.value.0, faces.value.1));
  }

  /** The END line at `pos`, after the records `recs`, finishes the section with their five lists. */
  lemma TessEndLine(lines: seq<string>, start: nat, pos: nat, recs: seq<TessRecord>)
    requires start <= pos < |lines| && RecordsAdvance(TessLines(lines))
    requires Records(TessLines(lines), start, [], TessEnd) == Records(TessLines(lines), pos, recs, TessEnd)
    requires Strip(lines[pos]) == TessEnd
    ensures TessSection(lines, start) == Ok((TessColumns(recs), pos + 1))
  {
    TessStep(lines, start, pos, recs);
    TessDone(lines, start, recs, pos + 1);
  }

  /** A record at `pos` that fails fails the section with its error. */
  lemma TessRecordFails(lines: seq<string>, start: nat, pos: nat, recs: seq<TessRecord>, e: FabError)
    requires start <= pos < |lines| && RecordsAdvance(TessLines(lines))
    requires Records(TessLines(lines), start, [], TessEnd) == Records(TessLines(lines), pos, recs, TessEnd)
    requires Strip(lines[pos]) != TessEnd && TessRecordAt(lines, pos) == Err(e)
    ensures TessSection(lines, start) == Err(e)
  {
    TessStep(lines, start, pos, recs);
    TessFailed(lines, start, e);
  }

  /** A record read at `pos` is added after the records `recs`, and the section goes on after it. */
  lemma TessRecordAdds(lines: seq<string>, start: nat, pos: nat, recs: seq<TessRecord>, rec: TessRecord, next: nat)
    requires start <= pos < |lines| && RecordsAdvance(TessLines(lines))
    requires Records(TessLines(lines), start, [], TessEnd) == Records(TessLines(lines), pos, recs, TessEnd)
    requires Strip(lines[pos]) != TessEnd && TessRecordAt(lines, pos) == Ok((rec, next))
    ensures Records(TessLines(lines), start, [], TessEnd) == Records(TessLines(lines), next, recs + [rec], TessEnd)
  {
    TessStep(lines, start, pos, recs);
  }

  /** `read_tesselated_fractures(f)` */
  method ReadTessFractures(f: LineFile) returns (r: FabResult<Tess>)
    requires f.Valid()
    modifies f
    ensures f.Valid()
    ensures r.Ok? ==> TessSection(f.lines, old(f.pos)) == Ok((r.value, f.pos))
    ensures r.Err? ==> TessSection(f.lines, old(f.pos)) == Err(r.error)
  {
    var fracNodes: seq<seq<Point>> := [];
    var fracFaces: seq<seq<seq<string>>> := [];
    var fracProperties: seq<seq<seq<string>>> := [];
    var fracIds: seq<int> := [];
    var sets: seq<string> := [];
    ghost var start := f.pos;
    ghost var recs: seq<TessRecord> := [];
    TessLinesAdvance(f.lines);
    while true
      invariant f.Valid() && start <= f.pos
      invariant Records(TessLines(f.lines), start, [], TessEnd) == Records(TessLines(f.lines), f.pos, recs, TessEnd)
      invariant TessColumns(recs) == Tess(fracIds, sets, fracNodes, fracFaces, fracProperties)
      decreases |f.lines| - f.pos
    {
      var line := f.Next();
      if line.None? {
        TessFailed(f.lines, start, MissingEnd(TessEnd));
        return Err(MissingEnd(TessEnd));
      }
      ghost var pos := f.pos - 1;
      if Strip(line.value) == TessEnd {
        TessEndLine(f.lines, start, pos, recs);
        return Ok(Tess(fracIds, sets, fracNodes, fracFaces, fracProperties));
      }
      var rec := ReadTessRecord(f, line.value);
      if rec.Err? {
        TessRecordFails(f.lines, start, pos, recs, rec.error);
        return Err(rec.error);
      }
      TessRecordAdds(f.lines, start, pos, recs, rec.value, f.pos);
      fracIds := fracIds + [rec.value.id];
      sets := sets + [rec.value.setNo];
      fracNodes := fracNodes + [rec.value.nodes];
      fracFaces := fracFaces + [rec.value.faces];
      fracProperties := fracProperties + [rec.value.faceProps];
      TessColumnsSnoc(recs, rec.value);
      recs := recs + [rec.value];
    }
  }

  /**
   * When the first face line had exactly five fields, a later line with a
   * sixth field broadcasts it into no places: the line is stored exactly
   * when its five geometry fields are floats, whatever the sixth holds.
   */
  lemma FaceWidthZero(ts: seq<string>, line: string)
    requires |ts| == 6
    ensures FaceFields(ts, 0, line).Ok? <==> forall i :: 0 <= i < 5 ==> IsFloat(ts[i])
    ensures FaceFields(ts, 0, line).Ok? ==> FaceFields(ts, 0, line).value == (ts[..5], [])
  {
    assert Take(ts, 5) == ts[..5];
    FitRowSpec(ts[..5], 5, line);
  }

  /**
   * A face line whose property-field count is neither the record's width
   * `w` nor a single broadcast value does not fit the property array.
   */
  lemma FaceWidthMismatch(ts: seq<string>, w: nat, line: string)
    requires |ts| >= 5 && |ts| - 5 != w && |ts| - 5 != 1
    ensures FaceFields(ts, w, line).Err?
    ensures FaceFields(ts, w, line).error == RowShape(line) || FaceFields(ts, w, line).error.NotAFloat?
  {
    FitRowSpec(Take(ts, 5), 5, line);
    FitRowSpec(Drop(ts, 5), w, line);
  }

  /**
   * The faces of a record are read from exactly `m` lines starting at the
   * first face line `p`, `m` is at least one, and face `i` is line `p + i`
   * stored with the property width of the first face line.
   */
  lemma RecordFacesLines(lines: seq<string>, p: nat, m: int, header: string,
                         infos: seq<seq<string>>, props: seq<seq<string>>, q: nat)
    requires p <= |lines| && RecordFaces(lines, p, m, header) == Ok((infos, props, q))
    ensures p < |lines| && m >= 1 && |Split(lines[p])| >= 5 && q == p + m && |infos| == m && |props| == m
    ensures forall i :: 0 <= i < m ==> FaceRow(lines[p + i], |Split(lines[p])| - 5) == Ok((infos[i], props[i]))
  {
    var w, first, infos', props' := RecordFacesParts(lines, p, m, header, infos, props, q);
    FacesAfterFirst(lines, w, p, m - 1, first, infos', props', q, infos, props);
  }

  /** The first face line followed by `n` more face lines. */
  lemma FacesAfterFirst(lines: seq<string>, w: nat, p: nat, n: nat, first: Face,
                        infos: seq<seq<string>>, props: seq<seq<string>>, q: nat,
                        allInfos: seq<seq<string>>, allProps: seq<seq<string>>)
    requires p < |lines| && FaceRow(lines[p], w) == Ok(first)
    requires Faces(FaceRows(lines, w), p + 1, n) == Ok((infos, props, q))
    requires allInfos == [first.0] + infos && allProps == [first.1] + props
    ensures q == p + 1 + n <= |lines| && |allInfos| == n + 1 && |allProps| == n + 1
    ensures forall i :: 0 <= i < n + 1 ==> FaceRow(lines[p + i], w) == Ok((allInfos[i], allProps[i]))
  {
    var rs := FaceRows(lines, w);
    FaceRowsAt(lines, w, p);
    RowsAfterFirst(rs, p, n, first, infos, props, q, allInfos, allProps);
    forall i | 0 <= i < n + 1
      ensures FaceRow(lines[p + i], w) == Ok((allInfos[i], allProps[i]))
    {
      FaceRowsAt(lines, w, p + i);
    }
  }

  /** A face row followed by `n` faces read after it: face `i` of the whole is row `p + i`. */
  lemma RowsAfterFirst(rs: seq<FabResult<Face>>, p: nat, n: nat, first: Face,
                       infos: seq<seq<string>>, props: seq<seq<string>>, q: nat,
                       allInfos: seq<seq<string>>, allProps: seq<seq<string>>)
    requires p < |rs| && rs[p] == Ok(first)
    requires Faces(rs, p + 1, n) == Ok((infos, props, q))
    requires allInfos == [first.0] + infos && allProps == [first.1] + props
    ensures q == p + 1 + n <= |rs| && |allInfos| == n + 1 && |allProps| == n + 1
    ensures forall i :: 0 <= i < n + 1 ==> rs[p + i] == Ok((allInfos[i], allProps[i]))
  {
    FacesOfRows(rs, p + 1, n);
    forall i | 0 <= i < n + 1
      ensures rs[p + i] == Ok((allInfos[i], allProps[i]))
    {
      if i > 0 {
        assert (infos[i - 1], props[i - 1]) == rs[p + 1 + (i - 1)].value;
        assert allInfos[i] == infos[i - 1] && allProps[i] == props[i - 1];
      }
    }
  }

  /** The first face of a record and the faces read after it. */
  lemma RecordFacesParts(lines: seq<string>, p: nat, m: int, header: string,
                         allInfos: seq<seq<string>>, allProps: seq<seq<string>>, q: nat)
    returns (w: nat, first: Face, infos: seq<seq<string>>, props: seq<seq<string>>)
    requires p <= |lines| && RecordFaces(lines, p, m, header) == Ok((allInfos, allProps, q))
    ensures p < |lines| && m >= 1 && w == |Split(lines[p])| - 5
    ensures FaceRow(lines[p], w) == Ok(first)
    ensures Faces(FaceRows(lines, w), p + 1, m - 1) == Ok((infos, props, q))
    ensures allInfos == [first.0] + infos && allProps == [first.1] + props
  {
    assert Split("") == [];
    w := |Split(lines[p])| - 5;
    first := FaceRow(lines[p], w).value;
    var r := Faces(FaceRows(lines, w), p + 1, m - 1).value;
    infos, props := r.0, r.1;
  }

  /** Every face of a record has five geometry fields and as many property fields as its first face. */
  lemma RecordFacesWidth(lines: seq<string>, p: nat, m: int, header: string,
                         infos: seq<seq<string>>, props: seq<seq<string>>, q: nat)
    requires p <= |lines| && RecordFaces(lines, p, m, header) == Ok((infos, props, q))
    ensures |infos| == |props| >= 1 && p < |lines| && |props[0]| == |Split(lines[p])| - 5
    ensures forall i :: 0 <= i < |props| ==> |infos[i]| == 5 && |props[i]| == |props[0]|
  {
    RecordFacesLines(lines, p, m, header, infos, props, q);
    var w := |Split(lines[p])| - 5;
    forall i | 0 <= i < m
      ensures |infos[i]| == 5 && |props[i]| == w
    {
      FaceFieldsSpec(Split(lines[p + i]), w, lines[p + i]);
    }
  }

  /** The parts a record read from header line `pos` is made of: its header, its nodes, its faces. */
  lemma TessRecordParts(lines: seq<string>, pos: nat, rec: TessRecord, stop: nat) returns (h: TessHeader, p: nat, m: int)
    requires pos < |lines| && TessRecordAt(lines, pos) == Ok((rec, stop))
    ensures p <= |lines| && ReadTessHeader(lines[pos]) == Ok(h) && ParseInt(h.faceToken) == Some(m)
    ensures rec.id == h.id && rec.setNo == h.setNo
    ensures Points(PointRows(lines), pos + 1, h.nodeCount) == Ok((rec.nodes, p))
    ensures RecordFaces(lines, p, m, lines[pos]) == Ok((rec.faces, rec.faceProps, stop))
  {
    h := ReadTessHeader(lines[pos]).value;
    p := Points(PointRows(lines), pos + 1, h.nodeCount).value.1;
    m := ParseInt(h.faceToken).value;
  }

  /**
   * A record read from header line `pos` holds the header's converted id
   * and its set token, as many nodes as the header declares and as many
   * faces as it declares, and ends right after its last face line.
   */
  lemma TessRecordCounts(lines: seq<string>, pos: nat, rec: TessRecord, stop: nat)
    requires pos < |lines| && TessRecordAt(lines, pos) == Ok((rec, stop))
    ensures var ts := Split(lines[pos]);
      |ts| == 4 && ParseInt(ts[0]) == Some(rec.id) && rec.setNo == ts[3] && IsFloat(ts[3]) &&
      ParseInt(ts[1]) == Some(|rec.nodes|) && ParseInt(ts[2]) == Some(|rec.faces|)
    ensures |rec.faceProps| == |rec.faces| >= 1 && stop == pos + 1 + |rec.nodes| + |rec.faces|
  {
    var h, p, m := TessRecordParts(lines, pos, rec, stop);
    TessHeaderSpec(lines[pos]);
    PointsOfRows(PointRows(lines), pos + 1, h.nodeCount);
    RecordFacesLines(lines, p, m, lines[pos], rec.faces, rec.faceProps, stop);
  }

  /**
   * The nodes of a record read from header line `pos` are the rows of the
   * lines right after the header, and its faces those of the lines right
   * after the nodes, with the property width of the first face line.
   */
  lemma TessRecordLines(lines: seq<string>, pos: nat, rec: TessRecord, stop: nat) returns (p: nat)
    requires pos < |lines| && TessRecordAt(lines, pos) == Ok((rec, stop))
    ensures p == pos + 1 + |rec.nodes| && p + |rec.faces| <= |lines| && |rec.faceProps| == |rec.faces| >= 1
    ensures forall i :: 0 <= i < |rec.nodes| ==> PointRow(lines[pos + 1 + i]) == Ok(rec.nodes[i])
    ensures |rec.faceProps[0]| == |Split(lines[p])| - 5
    ensures forall i :: 0 <= i < |rec.faces| ==> FaceRow(lines[p + i], |rec.faceProps[0]|) == Ok((rec.faces[i], rec.faceProps[i]))
  {
    var h, m;
    h, p, m := TessRecordParts(lines, pos, rec, stop);
    NodeLines(lines, pos, h.nodeCount, p, rec.nodes);
    FaceLines(lines, p, m, lines[pos], rec.faces, rec.faceProps, stop);
  }

  /** The nodes of a record are the rows of the lines right after its header. */
  lemma NodeLines(lines: seq<string>, pos: nat, n: nat, p: nat, nodes: seq<Point>)
    requires pos < |lines| && Points(PointRows(lines), pos + 1, n) == Ok((nodes, p))
    ensures p == pos + 1 + |nodes| <= |lines|
    ensures forall i :: 0 <= i < |nodes| ==> PointRow(lines[pos + 1 + i]) == Ok(nodes[i])
  {
    var start := pos + 1;
    PointsRead(lines, start, n, nodes, p);
    forall i | 0 <= i < |nodes|
      ensures PointRow(lines[pos + 1 + i]) == Ok(nodes[i])
    {
      assert lines[pos + 1 + i] == lines[start + i];
    }
  }

  /** The faces of a record are the face rows of the lines from its first face line `p` on. */
  lemma FaceLines(lines: seq<string>, p: nat, m: int, header: string,
                  infos: seq<seq<string>>, props: seq<seq<string>>, q: nat)
    requires p <= |lines| && RecordFaces(lines, p, m, header) == Ok((infos, props, q))
    ensures p + |infos| <= |lines| && |props| == |infos| >= 1
    ensures |props[0]| == |Split(lines[p])| - 5
    ensures forall i :: 0 <= i < |infos| ==> FaceRow(lines[p + i], |props[0]|) == Ok((infos[i], props[i]))
  {
    RecordFacesWidth(lines, p, m, header, infos, props, q);
    RecordFacesLines(lines, p, m, header, infos, props, q);
  }

  /** A record that declares no faces fails: its first face row is stored unconditionally. */
  lemma TessRecordZeroFaces(lines: seq<string>, pos: nat)
    requires pos < |lines| && |Split(lines[pos])| == 4 && ParseInt(Split(lines[pos])[2]) == Some(0)
    ensures TessRecordAt(lines, pos).Err?
  {
    if TessRecordAt(lines, pos).Ok? {
      var (rec, stop) := TessRecordAt(lines, pos).value;
      TessRecordCounts(lines, pos, rec, stop);
    }
  }

  /** A record whose faces all have five geometry fields and the property width of its first face. */
  predicate UniformFaces(rec: TessRecord) {
    |rec.faces| == |rec.faceProps| >= 1 &&
    forall j :: 0 <= j < |rec.faces| ==> |rec.faces[j]| == 5 && |rec.faceProps[j]| == |rec.faceProps[0]|
  }

  /** Every record read from the file has uniform faces. */
  lemma TessRecordUniform(lines: seq<string>, pos: nat, rec: TessRecord, stop: nat)
    requires pos < |lines| && TessRecordAt(lines, pos) == Ok((rec, stop))
    ensures UniformFaces(rec)
  {
    var h, p, m := TessRecordParts(lines, pos, rec, stop);
    RecordFacesWidth(lines, p, m, lines[pos], rec.faces, rec.faceProps, stop);
  }

  /**
   * The five lists `read_tesselated_fractures` returns have the same length,
   * and every fracture has at least one face, as many property rows as
   * faces, five geometry fields per face and one property width throughout.
   */
  lemma TessAligned(lines: seq<string>, pos: nat)
    requires pos <= |lines| && TessSection(lines, pos).Ok?
    ensures var c := TessSection(lines, pos).value.0;
      |c.ids| == |c.sets| == |c.nodes| == |c.faces| == |c.properties|
    ensures var c := TessSection(lines, pos).value.0;
      forall i :: 0 <= i < |c.faces| ==>
        |c.faces[i]| == |c.properties[i]| >= 1 &&
        forall j :: 0 <= j < |c.faces[i]| ==> |c.faces[i][j]| == 5 && |c.properties[i][j]| == |c.properties[i][0]|
  {
    TessLinesAdvance(lines);
    var ls := TessLines(lines);
    forall i | pos <= i < |ls| && ls[i].HeaderLine? && ls[i].record.Ok?
      ensures UniformFaces(ls[i].record.value.0)
    {
      TessLinesAt(lines, i);
      TessRecordUniform(lines, i, ls[i].record.value.0, ls[i].record.value.1);
    }
    RecordsAll(ls, pos, [], TessEnd, UniformFaces);
    var recs := Records(ls, pos, [], TessEnd).value.0;
    TessColumnsAligned(recs);
    var c := TessSection(lines, pos).value.0;
    forall i | 0 <= i < |c.faces|
      ensures |c.faces[i]| == |c.properties[i]| >= 1 &&
        forall j :: 0 <= j < |c.faces[i]| ==> |c.faces[i][j]| == 5 && |c.properties[i][j]| == |c.properties[i][0]|
    {
      assert UniformFaces(recs[i]);
    }
  }
}

=== FILE: numerals.dfy ===
/**
 * Numeric tokens.  Counts and fracture ids go through Python's `int(token)`,
 * which is modelled exactly for ASCII digits.  Coordinates, set numbers and
 * property values go through `float(token)`; the model recognises which
 * tokens `float` accepts and which of them round to infinity, and keeps the
 * token itself as the value.
 */
module Numerals {
  import opened Wrappers
  import opened Text

  predicate IsDigit(c: char) {
    '0' <= c <= '9'
  }

  predicate AllDigits(s: string) {
    forall i :: 0 <= i < |s| ==> IsDigit(s[i])
  }

  /** At least one digit and nothing else. */
  predicate IsDigits(s: string) {
    s != [] && AllDigits(s)
  }

  function DigitValue(c: char): nat
    requires IsDigit(c)
  {
    c as int - '0' as int
  }

  /** The value of a decimal digit string, most significant digit first. */
  function DigitsValue(s: string): nat
    requires AllDigits(s)
  {
    if s == [] then 0 else 10 * DigitsValue(s[..|s| - 1]) + DigitValue(s[|s| - 1])
  }

  /** The token without its leading sign, if it has one. */
  function Unsigned(t: string): (u: string)
    ensures |u| <= |t|
  {
    if t != [] && (t[0] == '+' || t[0] == '-') then t[1..] else t
  }

  /** `int(token)` for a token of `str.split()`: an optional sign, then decimal digits. */
  function ParseInt(t: string): (r: Option<int>)
    ensures r.Some? <==> IsDigits(Unsigned(t))
    ensures r.Some? && t[0] == '-' ==> r.value <= 0
    ensures r.Some? && t[0] != '-' ==> r.value >= 0
  {
    var u := Unsigned(t);
    if !IsDigits(u) then None
    else
      var v: int := DigitsValue(u);
      Some(if t[0] == '-' then -v else v)
  }

  /** `str(n)` for a natural number. */
  function NatDigits(n: nat): (s: string)
    ensures IsDigits(s)
  {
    if n < 10 then [('0' as int + n) as char]
    else NatDigits(n / 10) + [('0' as int + n % 10) as char]
  }

  /** `str(n)` */
  function IntToken(n: int): string {
    if n < 0 then "-" + NatDigits(-n) else NatDigits(n)
  }

  lemma {:induction false} DigitsValueOfNatDigits(n: nat)
    ensures DigitsValue(NatDigits(n)) == n
  {
    var s := NatDigits(n);
    if n >= 10 {
      assert s[..|s| - 1] == NatDigits(n / 10);
      DigitsValueOfNatDigits(n / 10);
    }
  }

  /** `int(str(n)) == n`: every integer the writer prints reads back as itself. */
  lemma ParseIntToken(n: int)
    ensures ParseInt(IntToken(n)) == Some(n)
  {
    var t := IntToken(n);
    if n < 0 {
      assert Unsigned(t) == NatDigits(-n);
      DigitsValueOfNatDigits(-n);
    } else {
      assert Unsigned(t) == NatDigits(n);
      DigitsValueOfNatDigits(n);
    }
  }

  /**
   * The unsigned decimal `float` accepts, scanned from the left: digits with
   * at most one `.` and at least one digit, then optionally `e` or `E`
   * followed by an exponent.  `digit` and `dot` say whether a digit and a
   * `.` were already seen.
   */
  predicate Mantissa(s: string, digit: bool, dot: bool)
    decreases |s|
  {
    if s == [] then digit
    else if IsDigit(s[0]) then Mantissa(s[1..], true, dot)
    else if s[0] == '.' && !dot then Mantissa(s[1..], digit, true)
    else if s[0] == 'e' || s[0] == 'E' then digit && IsDigits(Unsigned(s[1..]))
    else false
  }

  /** `inf`, `infinity` and `nan`, in any letter case. */
  predicate IsSpecial(u: string) {
    var l := Lower(u);
    l == "inf" || l == "infinity" || l == "nan"
  }

  /** The tokens `float(token)` accepts: a signed decimal with an optional exponent, or a special value. */
  predicate IsFloat(t: string) {
    var u := Unsigned(t);
    IsSpecial(u) || Mantissa(u, false, false)
  }

  /** `b` to the power `n` */
  function Pow(b: nat, n: nat): nat {
    if n == 0 then 1 else b * Pow(b, n - 1)
  }

  lemma {:induction false} PowAdd(b: nat, m: nat, n: nat)
    ensures Pow(b, m + n) == Pow(b, m) * Pow(b, n)
    decreases n
  {
    if n > 0 {
      PowAdd(b, m, n - 1);
      assert Pow(b, m + n) == b * Pow(b, m + (n - 1));
      MulAssoc(b, Pow(b, m), Pow(b, n - 1));
    }
  }

  lemma {:induction false} PowMul(b: nat, m: nat, n: nat)
    ensures Pow(b, m * n) == Pow(Pow(b, m), n)
    decreases n
  {
    if n > 0 {
      var k := m * (n - 1);
      assert m * n == k + m;
      PowAdd(b, k, m);
      PowMul(b, m, n - 1);
      calc {
        Pow(b, m * n);
        Pow(b, k + m);
        Pow(b, k) * Pow(b, m);
        Pow(Pow(b, m), n - 1) * Pow(b, m);
        Pow(Pow(b, m), n);
      }
    }
  }

  lemma {:induction false} PowBase(a: nat, b: nat, n: nat)
    requires a <= b
    ensures Pow(a, n) <= Pow(b, n)
    decreases n
  {
    if n > 0 {
      PowBase(a, b, n - 1);
      MulMono(a, b, Pow(a, n - 1), Pow(b, n - 1));
    }
  }

  lemma {:induction false} PowExp(b: nat, m: nat, n: nat)
    requires 1 <= b && m <= n
    ensures Pow(b, m) <= Pow(b, n)
    decreases n
  {
    if m < n {
      PowExp(b, m, n - 1);
      MulMono(1, b, Pow(b, m), Pow(b, n - 1));
    }
  }

  lemma MulAssoc(a: int, x: int, y: int)
    ensures a * (x * y) == x * (a * y)
  {
  }

  lemma MulMono(a: nat, b: nat, x: nat, y: nat)
    requires a <= b && x <= y
    ensures a * x <= b * y
  {
    assert a * x <= b * x;
  }

  /** Where the exponent of a decimal starts: its first `e` or `E`, or its end. */
  function ExponentAt(s: string): (k: nat)
    ensures k <= |s|
  {
    if s == [] || s[0] == 'e' || s[0] == 'E' then 0 else 1 + ExponentAt(s[1..])
  }

  /** The digits of a mantissa read as one integer, skipping its `.`. */
  function Significand(s: string): nat {
    if s == [] then 0
    else if IsDigit(s[|s| - 1]) then 10 * Significand(s[..|s| - 1]) + DigitValue(s[|s| - 1])
    else Significand(s[..|s| - 1])
  }

  /** How many digits of a mantissa follow its `.`. */
  function Decimals(s: string): nat {
    if s == [] then 0 else if s[0] == '.' then |s| - 1 else Decimals(s[1..])
  }

  /** The exponent written after `e`, or zero when there is none. */
  function ExponentValue(u: string): int {
    var k := ExponentAt(u);
    if k == |u| then 0
    else match ParseInt(u[k + 1..])
      case Some(v) => v
      case None => 0
  }

  /**
   * The least magnitude `float` rounds to infinity: halfway between the
   * largest double, (2^53 - 1) * 2^971, and 2^1024, where the tie goes to
   * the even neighbour 2^1024.
   */
  const OverflowBound: int := Pow(2, 1024) - Pow(2, 970)

  /** An unsigned decimal whose value, significand times ten to the exponent, rounds to infinity. */
  predicate Overflows(u: string) {
    var m := u[..ExponentAt(u)];
    var e := ExponentValue(u) - Decimals(m);
    if e >= 0 then Significand(m) * Pow(10, e) >= OverflowBound
    else Significand(m) >= OverflowBound * Pow(10, -e)
  }

  /**
   * A float token whose value is neither NaN nor infinite, written as such
   * or too large for a double, so that `int()` of it succeeds.
   */
  predicate IsFinite(t: string) {
    IsFloat(t) && !IsSpecial(Unsigned(t)) && !Overflows(Unsigned(t))
  }

  lemma SmallPowers()
    ensures Pow(2, 10) == 1024 && Pow(1024, 3) == 1073741824
    ensures Pow(10, 3) == 1000 && Pow(10, 10) == 10000000000
  {
    assert Pow(2, 5) == 32;
    assert Pow(10, 5) == 100000;
  }

  /** 2^1024 lies below 10^350. */
  lemma TwoPow1024Below()
    ensures Pow(2, 1024) <= Pow(10, 350)
  {
    SmallPowers();
    calc {
      Pow(2, 1024);
    <= { PowExp(2, 1024, 1050); }
      Pow(2, 10 * 105);
    == { PowMul(2, 10, 105); }
      Pow(1024, 3 * 35);
    == { PowMul(1024, 3, 35); }
      Pow(1073741824, 35);
    <= { PowBase(1073741824, 10000000000, 35); }
      Pow(10000000000, 35);
    == { PowMul(10, 10, 35); }
      Pow(10, 350);
    }
  }

  /** 10^291 lies below 2^970. */
  lemma TenPow291Below()
    ensures Pow(10, 291) <= Pow(2, 970)
  {
    SmallPowers();
    calc {
      Pow(10, 3 * 97);
    == { PowMul(10, 3, 97); }
      Pow(1000, 97);
    <= { PowBase(1000, 1024, 97); }
      Pow(1024, 97);
    == { PowMul(2, 10, 97); }
      Pow(2, 10 * 97);
    }
  }

  /** The overflow bound is 2^970 * (2^54 - 1), at least 2^970. */
  lemma BoundAboveTwoPow970()
    ensures Pow(2, 970) <= OverflowBound
  {
    var x, y := Pow(2, 970), Pow(2, 54);
    PowAdd(2, 970, 54);
    PowExp(2, 1, 54);
    MulMono(2, y, x, x);
    assert OverflowBound == x * y - x;
  }

  /** Every power of ten from 10^350 on reaches the overflow bound. */
  lemma BoundBelowTenPow(n: nat)
    requires n >= 350
    ensures OverflowBound <= Pow(10, n)
  {
    TwoPow1024Below();
    PowExp(10, 350, n);
  }

  /** `"1e400"` is the significand 1 with no decimals, and the exponent 400. */
  lemma OneE400Parts()
    ensures ExponentAt("1e400") == 1 && "1e400"[..1] == "1"
    ensures Significand("1") == 1 && Decimals("1") == 0
    ensures ExponentValue("1e400") == 400
  {
    var u := "1e400";
    assert ExponentAt(u[1..]) == 0;
    assert u[2..] == "400" && Unsigned("400") == "400";
    assert DigitsValue("40") == 40 by {
      assert "40"[..1] == "4";
    }
    assert "400"[..2] == "40";
  }

  /** `float("1e400")` is infinity: the token is a float, but not a finite one. */
  lemma OverflowExample()
    ensures IsFloat("1e400") && !IsFinite("1e400")
  {
    var u := "1e400";
    assert Unsigned(u) == u;
    OneE400Parts();
    BoundBelowTenPow(400);
    assert Overflows(u);
    assert Mantissa(u, false, false);
  }

  lemma {:induction false} LowerOfDigits(s: string)
    requires AllDigits(s)
    ensures Lower(s) == s
  {
    if s != [] {
      LowerOfDigits(s[1..]);
    }
  }

  /** A run of digits is a mantissa exactly when a digit was seen or the run is not empty. */
  lemma {:induction false} MantissaOfDigits(s: string, digit: bool, dot: bool)
    requires AllDigits(s)
    ensures Mantissa(s, digit, dot) == (digit || s != [])
  {
    if s != [] {
      MantissaOfDigits(s[1..], true, dot);
    }
  }

  /** A run of digits has no exponent and no decimals, and its significand is its value, below ten to its length. */
  lemma {:induction false} DigitsAsMantissa(s: string)
    requires AllDigits(s)
    ensures ExponentAt(s) == |s| && Decimals(s) == 0
    ensures Significand(s) == DigitsValue(s) < Pow(10, |s|)
  {
    if s != [] {
      DigitsAsMantissa(s[1..]);
      DigitsAsMantissa(s[..|s| - 1]);
      MulMono(10, 10, DigitsValue(s[..|s| - 1]) + 1, Pow(10, |s| - 1));
    }
  }

  /** An integer token of at most 291 digits is a finite float token. */
  lemma ShortIntIsFinite(t: string)
    requires ParseInt(t).Some? && |Unsigned(t)| <= 291
    ensures IsFinite(t)
  {
    var u := Unsigned(t);
    LowerOfDigits(u);
    MantissaOfDigits(u, false, false);
    assert IsDigit(u[0]);
    assert !IsSpecial(u);
    DigitsAsMantissa(u);
    assert u[..ExponentAt(u)] == u;
    PowExp(10, |u|, 291);
    TenPow291Below();
    BoundAboveTwoPow970();
    assert Significand(u) < OverflowBound;
    assert Pow(10, 0) == 1;
    assert Overflows(u) <==> Significand(u) * Pow(10, 0) >= OverflowBound;
    assert !Overflows(u);
    assert IsFloat(t);
  }
}

=== FILE: pest.dfy ===
/**
 * `PestGenerator`: turns a JSON configuration into the header of a PEST
 * control file.  Creating one checks the path; `parse_config` checks that
 * the configuration holds the six mandatory sections and then checks its
 * control data, recording each field as it goes; `check_pest_viability`
 * compares two of the recorded counts; `write_pst_file` writes the first
 * lines of the control file.
 *
 * The JSON document is a value (what `json.load` returns), and whether the
 * path exists and is a regular file are parameters.  Every `assert` of the
 * original that fails becomes an error result.
 */
module Pest {
  import opened Wrappers
  import opened Text

  /** A decoded JSON value, as `json.load` returns it; numbers with a fraction or exponent keep their text. */
  datatype Json =
    | JNull
    | JBool(b: bool)
    | JInt(i: int)
    | JFloat(text: string)
    | JString(s: string)
    | JArray(items: seq<Json>)
    | JObject(members: map<string, Json>)

  /** Why a step stops: the failing `assert`, a missing attribute or a value of the wrong kind. */
  datatype PestError =
    | NotFound                        // `config_path.exists()` is false
    | NotAFile                        // `config_path.is_file()` is false
    | BadSuffix(suffix: string)       // the suffix is not `.json` in any case
    | MissingAttribute(name: string)  // AttributeError: a field read before it was set
    | NotAnObject(name: string)       // `keys()`, `[...]` or `get` on a JSON value that is no object
    | MissingSection(name: string)    // a mandatory section is not a key of the configuration
    | MissingValue(key: string)       // `cdata.get(key)` is None
    | WrongType(key: string)          // `isinstance` fails
    | BadMode(mode: string)           // the mode is none of the four PEST modes
    | NotPositive(key: string)        // a count is not greater than zero
    | NotComparable                   // TypeError: `npar > nobs` of values that do not compare
    | NotText                         // TypeError: `RSTFLE + "  " + PESTMODE` of a mode that is no string

  /** The sections `parse_config` requires, in the order it checks them. */
  const Sections: seq<string> := ["control data", "parameter groups", "parameter data",
                                  "observation groups", "model command line", "model input/output"]

  /** The values PEST accepts for PESTMODE. */
  const Modes: seq<string> := ["estimation", "prediction", "regularization", "pareto"]

  /* ---------- the configuration path ---------- */

  /** The index of the last `c` in `s`, or -1: `s.rfind(c)`. */
  function RFind(s: string, c: char): (r: int)
    ensures -1 <= r < |s|
    ensures r == -1 ==> c !in s
    ensures r >= 0 ==> s[r] == c && forall j :: r < j < |s| ==> s[j] != c
  {
    if s == [] then -1
    else if s[|s| - 1] == c then |s| - 1
    else RFind(s[..|s| - 1], c)
  }

  /** The components of a path that `Path` keeps: no empty ones and no `.`. */
  function Components(parts: seq<string>): (r: seq<string>)
    ensures forall i :: 0 <= i < |r| ==> r[i] in parts && r[i] != "" && r[i] != "."
  {
    if parts == [] then []
    else if parts[0] == "" || parts[0] == "." then Components(parts[1..])
    else [parts[0]] + Components(parts[1..])
  }

  /** `Path(path).name`: the last component, or "" for a path without one. */
  function Name(path: string): (r: string)
    ensures '/' !in r
  {
    var cs := Components(SplitOn(path, '/'));
    if cs == [] then "" else cs[|cs| - 1]
  }

  /** `Path.suffix` of a name: from its last `.` on, unless that dot is the first or the last character. */
  function Suffix(name: string): (r: string)
    ensures r == [] || (r[0] == '.' && '.' !in r[1..])
  {
    var i := RFind(name, '.');
    if 0 < i < |name| - 1 then name[i..] else ""
  }

  /**
   * The checks of `PestGenerator(config_path)`, in order: the path exists,
   * it is a file, and its suffix lower-cased is `.json`.
   */
  function Admission(path: string, found: bool, isFile: bool): Result<(), PestError> {
    if !found then Err(NotFound)
    else if !isFile then Err(NotAFile)
    else if Lower(Suffix(Name(path))) != ".json" then Err(BadSuffix(Suffix(Name(path))))
    else Ok(())
  }

  lemma LowerCharDot(c: char)
    ensures LowerChar(c) == '.' <==> c == '.'
  {
  }

  /**
   * A file name passes the suffix check exactly when it is longer than five
   * characters and ends with `.json` in any mix of upper and lower case.
   */
  lemma JsonSuffix(name: string)
    ensures Lower(Suffix(name)) == ".json" <==> |name| >= 6 && Lower(name[|name| - 5..]) == ".json"
  {
    var n := |name|;
    var i := RFind(name, '.');
    if Lower(Suffix(name)) == ".json" {
      assert 0 < i < n - 1 && Suffix(name) == name[i..];
      assert n - i == 5;
    }
    if n >= 6 && Lower(name[n - 5..]) == ".json" {
      var t := name[n - 5..];
      forall k | 0 <= k < 5
        ensures LowerChar(t[k]) == ".json"[k]
      {
        LowerAt(t, k);
      }
      LowerCharDot(t[0]);
      assert name[n - 5] == '.';
      forall j | n - 5 < j < n
        ensures name[j] != '.'
      {
        assert name[j] == t[j - (n - 5)];
        LowerCharDot(t[j - (n - 5)]);
      }
      assert i == n - 5;
    }
  }

  /** The name of a path is its last component; a trailing `/` does not change it. */
  lemma NameTrailingSlash(path: string)
    ensures Name(path + "/") == Name(path)
  {
    var ps := SplitOn(path, '/');
    SplitOnAppend(path);
    ComponentsAppendEmpty(ps);
    assert Components(SplitOn(path + "/", '/')) == Components(ps);
  }

  lemma {:induction false} ComponentsAppendEmpty(parts: seq<string>)
    ensures Components(parts + [""]) == Components(parts)
  {
    if parts != [] {
      assert (parts + [""])[1..] == parts[1..] + [""];
      ComponentsAppendEmpty(parts[1..]);
    } else {
      assert [""][1..] == [];
    }
  }

  lemma {:induction false} SplitOnAppend(s: string)
    ensures SplitOn(s + "/", '/') == SplitOn(s, '/') + [""]
    decreases |s|
  {
    var t := s + "/";
    if '/' !in s {
      assert t[..|s|] == s;
      SplitOnAt(t, '/', |s|);
      assert t[|s| + 1..] == "";
      assert SplitOn("", '/') == [""];
    } else {
      var k := IndexOf(s, '/');
      var r := s[k + 1..];
      assert t[..k] == s[..k];
      assert t[k + 1..] == r + "/";
      SplitOnAt(s, '/', k);
      SplitOnAt(t, '/', k);
      SplitOnAppend(r);
      ConsSnoc(s[..k], SplitOn(r, '/'), "");
    }
  }

  lemma ConsSnoc<T>(x: T, xs: seq<T>, y: T)
    ensures [x] + (xs + [y]) == [x] + xs + [y]
  {
  }

  /** A configuration path `PestGenerator` accepts, once it exists and is a file. */
  lemma AdmissionSpec(path: string, found: bool, isFile: bool)
    ensures Admission(path, found, isFile).Ok? <==>
      found && isFile && |Name(path)| >= 6 && Lower(Name(path)[|Name(path)| - 5..]) == ".json"
  {
    JsonSuffix(Name(path));
  }

  /* ---------- the control data ---------- */

  /** `cdata.get(key)`: a missing key and a JSON null both read as None. */
  function Get(d: map<string, Json>, key: string): Json {
    if key in d then d[key] else JNull
  }

  /** `isinstance(v, int)`: a JSON boolean is a Python `bool`, which is an `int`. */
  predicate IsInt(v: Json) {
    v.JInt? || v.JBool?
  }

  /** The integer value of an `int` or a `bool`. */
  function IntOf(v: Json): int
    requires IsInt(v)
  {
    if v.JInt? then v.i else if v.b then 1 else 0
  }

  /** The attributes `check_control_data` sets; None until it sets one. */
  datatype Control = Control(
    rstfle: Option<string>,
    pestMode: Option<Json>,
    npar: Option<Json>,
    nobs: Option<Json>,
    npargp: Option<Json>)

  const Unset := Control(None, None, None, None, None)

  /** The attributes after a step, and whether the step completed. */
  datatype Checked = Checked(fields: Control, result: Result<(), PestError>)

  /** The checks of a count: present, an integer, and greater than zero. */
  function CountError(v: Json, key: string): Option<PestError> {
    if v == JNull then Some(MissingValue(key))
    else if !IsInt(v) then Some(WrongType(key))
    else if IntOf(v) <= 0 then Some(NotPositive(key))
    else None
  }

  /**
   * `check_control_data` up to and including `isinstance(self.npargp, int)`:
   * RSTFLE is set once `restart` has passed its checks; every other field
   * is set before its value is checked.
   */
  function ReadCounts(cd: map<string, Json>, c: Control): (r: Checked)
    ensures r.result.Ok? ==>
      r.fields.npar.Some? && IsInt(r.fields.npar.value) &&
      r.fields.nobs.Some? && IsInt(r.fields.nobs.value) && IntOf(r.fields.nobs.value) > 0 &&
      r.fields.npargp.Some? && IsInt(r.fields.npargp.value)
  {
    var restart := Get(cd, "restart");
    if restart == JNull then Checked(c, Err(MissingValue("restart")))
    else if !restart.JBool? then Checked(c, Err(WrongType("restart")))
    else
      var c1 := c.(rstfle := Some(if restart.b then "restart" else "norestart"));
      var mode := Get(cd, "mode");
      var c2 := c1.(pestMode := Some(mode));
      if mode == JNull then Checked(c2, Err(MissingValue("mode")))
      else if !mode.JString? then Checked(c2, Err(WrongType("mode")))
      else if mode.s !in Modes then Checked(c2, Err(BadMode(mode.s)))
      else
        var par := Get(cd, "parameters");
        var c3 := c2.(npar := Some(par));
        if CountError(par, "parameters").Some? then Checked(c3, Err(CountError(par, "parameters").value))
        else
          var obs := Get(cd, "observations");
          var c4 := c3.(nobs := Some(obs));
          if CountError(obs, "observations").Some? then Checked(c4, Err(CountError(obs, "observations").value))
          else
            var groups := Get(cd, "parameter groups");
            var c5 := c4.(npargp := Some(groups));
            if groups == JNull then Checked(c5, Err(MissingValue("parameter groups")))
            else if !IsInt(groups) then Checked(c5, Err(WrongType("parameter groups")))
            else Checked(c5, Ok(()))
  }

  /** `check_control_data` as written: its last assertion tests `nobs > 0` a second time. */
  function ReadControlAsWritten(cd: map<string, Json>, c: Control): Checked {
    var r := ReadCounts(cd, c);
    if r.result.Err? then r
    else if IntOf(r.fields.nobs.value) <= 0 then Checked(r.fields, Err(NotPositive("observations")))
    else r
  }

  /** `check_control_data` with its last assertion testing the number of parameter groups. */
  function ReadControl(cd: map<string, Json>, c: Control): Checked {
    var r := ReadCounts(cd, c);
    if r.result.Err? then r
    else if IntOf(r.fields.npargp.value) <= 0 then Checked(r.fields, Err(NotPositive("parameter groups")))
    else r
  }

  /** Control data that passes every check: the five keys and what each must hold. */
  predicate ValidControl(cd: map<string, Json>) {
    Get(cd, "restart").JBool? &&
    Get(cd, "mode").JString? && Get(cd, "mode").s in Modes &&
    CountError(Get(cd, "parameters"), "parameters").None? &&
    CountError(Get(cd, "observations"), "observations").None? &&
    CountError(Get(cd, "parameter groups"), "parameter groups").None?
  }

  /**
   * The control data passes exactly when it is valid, and then the five
   * fields hold: RSTFLE `"restart"` or `"norestart"` as `restart` is true or
   * false, and the mode and the three counts as given.
   */
  lemma ReadControlSpec(cd: map<string, Json>, c: Control)
    ensures ReadControl(cd, c).result.Ok? <==> ValidControl(cd)
    ensures ValidControl(cd) ==> ReadControl(cd, c).fields == Control(
      Some(if Get(cd, "restart").b then "restart" else "norestart"),
      Some(Get(cd, "mode")), Some(Get(cd, "parameters")),
      Some(Get(cd, "observations")), Some(Get(cd, "parameter groups")))
  {
  }

  /**
   * Control data that passes `check_control_data` as written: the same
   * checks, except that the number of parameter groups need only be an
   * integer.
   */
  predicate ValidControlAsWritten(cd: map<string, Json>) {
    Get(cd, "restart").JBool? &&
    Get(cd, "mode").JString? && Get(cd, "mode").s in Modes &&
    CountError(Get(cd, "parameters"), "parameters").None? &&
    CountError(Get(cd, "observations"), "observations").None? &&
    IsInt(Get(cd, "parameter groups"))
  }

  /**
   * As written, the control data passes exactly when `restart` is a boolean,
   * `mode` one of the four modes, the parameter and observation counts
   * integers above zero and the number of parameter groups an integer; then
   * RSTFLE is `restart` or `norestart` and the other fields hold the given
   * values.
   */
  lemma ReadControlAsWrittenSpec(cd: map<string, Json>, c: Control)
    ensures ReadControlAsWritten(cd, c).result.Ok? <==> ValidControlAsWritten(cd)
    ensures ValidControlAsWritten(cd) ==> ReadControlAsWritten(cd, c).fields == Control(
      Some(if Get(cd, "restart").b then "restart" else "norestart"),
      Some(Get(cd, "mode")), Some(Get(cd, "parameters")),
      Some(Get(cd, "observations")), Some(Get(cd, "parameter groups")))
  {
  }

  /** The corrected check passes exactly when the check as written does and there is at least one parameter group. */
  lemma ValidControlCorrected(cd: map<string, Json>)
    ensures ValidControl(cd) <==> ValidControlAsWritten(cd) && IntOf(Get(cd, "parameter groups")) > 0
  {
  }

  /**
   * A failed check, as written, leaves behind what it had set before the
   * failing key, and the failing key holds its offending value: nothing when
   * `restart` fails; RSTFLE and the mode when the mode fails; and then each
   * count as given, up to the count that fails.
   */
  lemma ReadControlPartial(cd: map<string, Json>, c: Control)
    ensures var r := ReadControlAsWritten(cd, c);
      !Get(cd, "restart").JBool? ==>
        r.fields == c && r.result == Err(if Get(cd, "restart") == JNull then MissingValue("restart") else WrongType("restart"))
    ensures var r, m := ReadControlAsWritten(cd, c), Get(cd, "mode");
      Get(cd, "restart").JBool? && !(m.JString? && m.s in Modes) ==>
        var rst := Some(if Get(cd, "restart").b then "restart" else "norestart");
        r.fields == c.(rstfle := rst, pestMode := Some(m)) &&
        r.result == Err(if m == JNull then MissingValue("mode") else if !m.JString? then WrongType("mode") else BadMode(m.s))
    ensures var r, m, p := ReadControlAsWritten(cd, c), Get(cd, "mode"), Get(cd, "parameters");
      Get(cd, "restart").JBool? && m.JString? && m.s in Modes && CountError(p, "parameters").Some? ==>
        var rst := Some(if Get(cd, "restart").b then "restart" else "norestart");
        r.fields == c.(rstfle := rst, pestMode := Some(m), npar := Some(p)) &&
        r.result == Err(CountError(p, "parameters").value)
    ensures var r, m, p, o := ReadControlAsWritten(cd, c), Get(cd, "mode"), Get(cd, "parameters"), Get(cd, "observations");
      Get(cd, "restart").JBool? && m.JString? && m.s in Modes && CountError(p, "parameters").None? &&
      CountError(o, "observations").Some? ==>
        var rst := Some(if Get(cd, "restart").b then "restart" else "norestart");
        r.fields == c.(rstfle := rst, pestMode := Some(m), npar := Some(p), nobs := Some(o)) &&
        r.result == Err(CountError(o, "observations").value)
    ensures var r, m, p, o := ReadControlAsWritten(cd, c), Get(cd, "mode"), Get(cd, "parameters"), Get(cd, "observations");
      var g := Get(cd, "parameter groups");
      Get(cd, "restart").JBool? && m.JString? && m.s in Modes && CountError(p, "parameters").None? &&
      CountError(o, "observations").None? && !IsInt(g) ==>
        var rst := Some(if Get(cd, "restart").b then "restart" else "norestart");
        r.fields == Control(rst, Some(m), Some(p), Some(o), Some(g)) &&
        r.result == Err(if g == JNull then MissingValue("parameter groups") else WrongType("parameter groups"))
  {
  }

  /** As written, the last assertion never fails: it repeats a test that has already passed. */
  lemma AsWrittenSkipsGroups(cd: map<string, Json>, c: Control)
    ensures ReadControlAsWritten(cd, c) == ReadCounts(cd, c)
  {
  }

  /** Control data that shows the difference: minus one parameter group passes as written. */
  lemma AsWrittenAcceptsNegativeGroups()
    ensures var cd := map["restart" := JBool(false), "mode" := JString("estimation"),
                          "parameters" := JInt(2), "observations" := JInt(5), "parameter groups" := JInt(-1)];
      ReadControlAsWritten(cd, Unset).result == Ok(()) &&
      ReadControl(cd, Unset).result == Err(NotPositive("parameter groups"))
  {
    var cd := map["restart" := JBool(false), "mode" := JString("estimation"),
                  "parameters" := JInt(2), "observations" := JInt(5), "parameter groups" := JInt(-1)];
    assert Get(cd, "mode").s == Modes[0];
  }

  /** `check_control_data`: `self.config['control data']`, then its checks. */
  function ControlCheck(config: Option<Json>, c: Control): Checked {
    if config.None? then Checked(c, Err(MissingAttribute("config")))
    else if !config.value.JObject? then Checked(c, Err(NotAnObject("config")))
    else if "control data" !in config.value.members then Checked(c, Err(MissingSection("control data")))
    else
      var cdata := config.value.members["control data"];
      if !cdata.JObject? then Checked(c, Err(NotAnObject("control data")))
      else ReadControlAsWritten(cdata.members, c)
  }

  /** The first mandatory section the configuration lacks, checked in order. */
  function MissingSections(j: Json): Option<PestError> {
    if !j.JObject? then Some(NotAnObject("config"))
    else if exists k :: 0 <= k < |Sections| && Sections[k] !in j.members then
      Some(MissingSection(Sections[FirstMissing(j.members, 0)]))
    else None
  }

  /** The index of the first section from `k` on that `m` lacks. */
  function FirstMissing(m: map<string, Json>, k: nat): (r: nat)
    requires k <= |Sections|
    requires exists i :: k <= i < |Sections| && Sections[i] !in m
    ensures k <= r < |Sections| && Sections[r] !in m
    ensures forall i :: k <= i < r ==> Sections[i] in m
    decreases |Sections| - k
  {
    if Sections[k] !in m then k else FirstMissing(m, k + 1)
  }

  /** `parse_config` after `json.load`: the section checks, then `check_control_data`. */
  function ParseChecked(j: Json, c: Control): Checked {
    if MissingSections(j).Some? then Checked(c, Err(MissingSections(j).value))
    else ControlCheck(Some(j), c)
  }

  /**
   * A configuration passes `parse_config` exactly when it is an object with
   * the six sections whose control data is an object that passes the checks.
   */
  lemma ParseConfigSpec(j: Json, c: Control)
    ensures ParseChecked(j, c).result.Ok? <==>
      j.JObject? && (forall k :: 0 <= k < |Sections| ==> Sections[k] in j.members) &&
      "control data" in j.members && j.members["control data"].JObject? && ValidControlAsWritten(j.members["control data"].members)
  {
    if j.JObject? && (forall k :: 0 <= k < |Sections| ==> Sections[k] in j.members) {
      assert Sections[0] in j.members;
    }
    if j.JObject? && "control data" in j.members && j.members["control data"].JObject? {
      ReadControlAsWrittenSpec(j.members["control data"].members, c);
    }
  }

  /** A missing section is reported by name, the first missing one in the order of the checks. */
  lemma MissingSectionFirst(j: Json, c: Control, k: nat)
    requires j.JObject? && k < |Sections| && Sections[k] !in j.members
    requires forall i :: 0 <= i < k ==> Sections[i] in j.members
    ensures ParseChecked(j, c) == Checked(c, Err(MissingSection(Sections[k])))
  {
    var f := FirstMissing(j.members, 0);
    assert f == k;
  }

  /* ---------- viability and the control file ---------- */

  /**
   * `check_pest_viability`: whether it warns, which is when there are more
   * parameters than observations.
   */
  function Viability(c: Control): Result<bool, PestError> {
    if c.npar.None? then Err(MissingAttribute("npar"))
    else if c.nobs.None? then Err(MissingAttribute("nobs"))
    else if IsInt(c.npar.value) && IsInt(c.nobs.value) then Ok(IntOf(c.npar.value) > IntOf(c.nobs.value))
    else Err(NotComparable)
  }

  /** After control data that passes, the check runs and warns exactly when `parameters > observations`. */
  lemma ViabilityAfterCheck(cd: map<string, Json>, c: Control)
    ensures ReadControlAsWritten(cd, c).result.Ok? ==>
      ValidControlAsWritten(cd) &&
      Viability(ReadControlAsWritten(cd, c).fields) == Ok(IntOf(Get(cd, "parameters")) > IntOf(Get(cd, "observations")))
  {
    ReadControlAsWrittenSpec(cd, c);
  }

  /** The text `write_pst_file` writes: two header lines and the first control-data line, no final newline. */
  function PstText(rstfle: string, mode: string): string {
    "pcf \n" + "* control data \n" + rstfle + "  " + mode
  }

  /** The text of `write_pst_file` for the recorded fields, or why it cannot be built. */
  function PstFile(c: Control): Result<string, PestError> {
    if c.rstfle.None? then Err(MissingAttribute("RSTFLE"))
    else if c.pestMode.None? then Err(MissingAttribute("PESTMODE"))
    else if !c.pestMode.value.JString? then Err(NotText)
    else Ok(PstText(c.rstfle.value, c.pestMode.value.s))
  }

  /** The text has three lines: the two header lines, then RSTFLE and PESTMODE two spaces apart. */
  lemma PstTextLines(rstfle: string, mode: string)
    requires '\n' !in rstfle && '\n' !in mode
    ensures SplitOn(PstText(rstfle, mode), '\n') == ["pcf ", "* control data ", rstfle + "  " + mode]
  {
    var parts := ["pcf ", "* control data ", rstfle + "  " + mode];
    assert parts[1..][1..] == [rstfle + "  " + mode];
    assert JoinOn(parts[1..], '\n') == "* control data " + ['\n'] + (rstfle + "  " + mode);
    assert JoinOn(parts, '\n') == PstText(rstfle, mode);
    SplitOnJoin(parts, '\n');
  }

  /** Two tokens two spaces apart split back into the two tokens. */
  lemma SplitTwo(a: string, b: string)
    requires IsToken(a) && IsToken(b)
    ensures Split(a + "  " + b) == [a, b]
  {
    var t := " " + b;
    var u := " " + t;
    assert a + "  " + b == a + u;
    SplitCons(a, u);
    SplitSkipsSpace(t);
    SplitSkipsSpace(b);
    SplitSingle(b);
  }

  /** Each PEST mode is one token without a line break. */
  lemma ModeToken(mode: string)
    requires mode in Modes
    ensures IsToken(mode) && '\n' !in mode
  {
  }

  /**
   * After control data that passes, the control file's third line reads
   * back as RSTFLE and the mode: `restart` or `norestart` as the
   * configuration says, then the mode it names.
   */
  lemma PstAfterCheck(cd: map<string, Json>, c: Control)
    requires ValidControlAsWritten(cd)
    ensures var t := PstFile(ReadControlAsWritten(cd, c).fields);
      t.Ok? && |SplitOn(t.value, '\n')| == 3 &&
      SplitOn(t.value, '\n')[..2] == ["pcf ", "* control data "] &&
      Split(SplitOn(t.value, '\n')[2]) ==
        [if Get(cd, "restart").b then "restart" else "norestart", Get(cd, "mode").s]
  {
    var r := if Get(cd, "restart").b then "restart" else "norestart";
    var m := Get(cd, "mode").s;
    PstFileChecked(cd, c);
    RestartToken(r);
    PstTextReadBack(r, m);
  }

  /** The third line of the text of RSTFLE and a mode splits back into the two. */
  lemma PstTextReadBack(r: string, m: string)
    requires IsToken(r) && '\n' !in r && m in Modes
    ensures |SplitOn(PstText(r, m), '\n')| == 3
    ensures SplitOn(PstText(r, m), '\n')[..2] == ["pcf ", "* control data "]
    ensures Split(SplitOn(PstText(r, m), '\n')[2]) == [r, m]
  {
    ModeToken(m);
    PstTextLines(r, m);
    SplitTwo(r, m);
  }

  /** After control data that passes, the control file is the text of RSTFLE and the mode. */
  lemma PstFileChecked(cd: map<string, Json>, c: Control)
    requires ValidControlAsWritten(cd)
    ensures PstFile(ReadControlAsWritten(cd, c).fields) ==
      Ok(PstText(if Get(cd, "restart").b then "restart" else "norestart", Get(cd, "mode").s))
  {
    ReadControlAsWrittenSpec(cd, c);
  }

  /** Both RSTFLE values are single tokens without a line break. */
  lemma RestartToken(r: string)
    requires r == "restart" || r == "norestart"
    ensures IsToken(r) && '\n' !in r
  {
  }

  /* ---------- the generator ---------- */

  /** A PEST generator for one configuration file, with the attributes its checks set. */
  class PestGenerator {
    const configPath: string
    var config: Option<Json>
    var rstfle: Option<string>
    var pestMode: Option<Json>
    var npar: Option<Json>
    var nobs: Option<Json>
    var npargp: Option<Json>

    /** The attributes `check_control_data` sets. */
    function Fields(): Control
      reads this
    {
      Control(rstfle, pestMode, npar, nobs, npargp)
    }

    /** A generator whose path has passed the checks; no attribute is set yet. */
    constructor (path: string)
      ensures configPath == path && config == None && Fields() == Unset
    {
      configPath := path;
      config := None;
      rstfle, pestMode, npar, nobs, npargp := None, None, None, None, None;
    }

    /** `PestGenerator(config_path)`, given whether the path exists and is a file. */
    static method Create(path: string, found: bool, isFile: bool) returns (r: Result<PestGenerator, PestError>)
      ensures r.Err? ==> Admission(path, found, isFile) == Err(r.error)
      ensures r.Ok? ==> (Admission(path, found, isFile).Ok? && fresh(r.value) &&
        r.value.configPath == path && r.value.config == None && r.value.Fields() == Unset)
    {
      if !found {
        return Err(NotFound);
      }
      if !isFile {
        return Err(NotAFile);
      }
      var suffix := Suffix(Name(path));
      if Lower(suffix) != ".json" {
        return Err(BadSuffix(suffix));
      }
      var g := new PestGenerator(path);
      return Ok(g);
    }

    /**
     * `check_control_data`: assigns the attributes one by one between its
     * checks, so a failing check leaves the earlier assignments in place.
     */
    method CheckControlData() returns (r: Result<(), PestError>)
      modifies this
      ensures config == old(config)
      ensures Checked(Fields(), r) == ControlCheck(config, old(Fields()))
    {
      if config.None? {
        return Err(MissingAttribute("config"));
      }
      if !config.value.JObject? {
        return Err(NotAnObject("config"));
      }
      if "control data" !in config.value.members {
        return Err(MissingSection("control data"));
      }
      var cdata := config.value.members["control data"];
      if !cdata.JObject? {
        return Err(NotAnObject("control data"));
      }
      var cd := cdata.members;
      var restart := Get(cd, "restart");
      if restart == JNull {
        return Err(MissingValue("restart"));
      }
      if !restart.JBool? {
        return Err(WrongType("restart"));
      }
      rstfle := Some(if restart.b then "restart" else "norestart");
      var mode := Get(cd, "mode");
      pestMode := Some(mode);
      if mode == JNull {
        return Err(MissingValue("mode"));
      }
      if !mode.JString? {
        return Err(WrongType("mode"));
      }
      if mode.s !in Modes {
        return Err(BadMode(mode.s));
      }
      var par := Get(cd, "parameters");
      npar := Some(par);
      var e := CountError(par, "parameters");
      if e.Some? {
        return Err(e.value);
      }
      var obs := Get(cd, "observations");
      nobs := Some(obs);
      e := CountError(obs, "observations");
      if e.Some? {
        return Err(e.value);
      }
      var groups := Get(cd, "parameter groups");
      npargp := Some(groups);
      if groups == JNull {
        return Err(MissingValue("parameter groups"));
      }
      if !IsInt(groups) {
        return Err(WrongType("parameter groups"));
      }
      // The closing assertion repeats the test on the number of observations,
      // which has already passed (`AsWrittenSkipsGroups`).
      return Ok(());
    }

    /** `parse_config`, given the document `json.load` decodes from the file. */
    method ParseConfig(j: Json) returns (r: Result<(), PestError>)
      modifies this
      ensures config == Some(j)
      ensures Checked(Fields(), r) == ParseChecked(j, old(Fields()))
    {
      config := Some(j);
      if !j.JObject? {
        return Err(NotAnObject("config"));
      }
      for k := 0 to |Sections|
        invariant forall i :: 0 <= i < k ==> Sections[i] in j.members
      {
        if Sections[k] !in j.members {
          assert FirstMissing(j.members, 0) == k;
          return Err(MissingSection(Sections[k]));
        }
      }
      r := CheckControlData();
    }

    /** `check_pest_viability`: whether it warns; it changes nothing. */
    method CheckPestViability() returns (r: Result<bool, PestError>)
      ensures r == Viability(Fields())
    {
      r := Viability(Fields());
    }

    /** `write_pst_file`: the text it writes; it changes nothing. */
    method WritePstFile() returns (r: Result<string, PestError>)
      ensures r == PstFile(Fields())
    {
      r := PstFile(Fields());
    }
  }
}

=== FILE: text.dfy ===
/**
 * The handful of Python `str` operations the `.fab` reader relies on:
 * `strip()`, `split()`, `split(sep)`, `replace(c, "")`, `upper()`, `lower()`
 * and prefix slicing.  Strings are sequences of characters.
 */
module Text {

  /** `c.isspace()`: the characters `strip()` and `split()` treat as whitespace. */
  predicate IsSpace(c: char) {
    ('\t' <= c <= '\r') || ('\U{1C}' <= c <= '\U{1F}') || c == ' '
    || c == '\U{85}' || c == '\U{A0}' || c == '\U{1680}'
    || ('\U{2000}' <= c <= '\U{200A}') || c == '\U{2028}' || c == '\U{2029}'
    || c == '\U{202F}' || c == '\U{205F}' || c == '\U{3000}'
  }

  /** All characters of `s` are whitespace. */
  predicate AllSpace(s: string) {
    forall i :: 0 <= i < |s| ==> IsSpace(s[i])
  }

  /** `s.lstrip()` */
  function TrimLeft(s: string): (r: string)
    ensures |r| <= |s| && (r == [] || !IsSpace(r[0]))
  {
    if s != [] && IsSpace(s[0]) then TrimLeft(s[1..]) else s
  }

  /** `s.strip()` with no argument: whitespace is dropped from both ends. */
  function Strip(s: string): string
    decreases |s|
  {
    if s != [] && IsSpace(s[0]) then Strip(s[1..])
    else if s != [] && IsSpace(s[|s| - 1]) then Strip(s[..|s| - 1])
    else s
  }

  /** `lstrip()` drops a run of leading whitespace and stops at the first other character. */
  lemma {:induction false} TrimLeftSpec(s: string)
    ensures var r := TrimLeft(s);
      |r| <= |s| && r == s[|s| - |r|..] && AllSpace(s[..|s| - |r|]) && (r == [] || !IsSpace(r[0]))
  {
    if s != [] && IsSpace(s[0]) {
      TrimLeftSpec(s[1..]);
      var r := TrimLeft(s);
      assert s[..|s| - |r|] == [s[0]] + s[1..][..|s| - 1 - |r|];
    }
  }

  /**
   * `s.strip()` is a slice of `s` that neither starts nor ends with
   * whitespace, and only whitespace surrounds it.
   */
  lemma StripSpec(s: string)
    ensures var r := Strip(s);
      exists a :: 0 <= a && a + |r| <= |s| && r == s[a..a + |r|]
        && AllSpace(s[..a]) && AllSpace(s[a + |r|..])
        && (r == [] || (!IsSpace(r[0]) && !IsSpace(r[|r| - 1])))
  {
    var a := StripOffset(s);
  }

  /** `r` is the slice of `s` at offset `a`, surrounded by whitespace only and not itself padded. */
  predicate StrippedAt(s: string, a: nat, r: string) {
    a + |r| <= |s| && r == s[a..a + |r|]
    && AllSpace(s[..a]) && AllSpace(s[a + |r|..])
    && (r == [] || (!IsSpace(r[0]) && !IsSpace(r[|r| - 1])))
  }

  /** Where the slice that `strip()` keeps starts. */
  lemma {:induction false} StripOffset(s: string) returns (a: nat)
    ensures StrippedAt(s, a, Strip(s))
    decreases |s|
  {
    if s != [] && IsSpace(s[0]) {
      var b := StripOffset(s[1..]);
      a := b + 1;
      StrippedAfterSpace(s, b, Strip(s));
    } else if s != [] && IsSpace(s[|s| - 1]) {
      a := StripOffset(s[..|s| - 1]);
      StrippedBeforeSpace(s, a, Strip(s));
    } else {
      a := 0;
      assert Strip(s) == s[0..|s|];
    }
  }

  lemma StrippedAfterSpace(s: string, b: nat, r: string)
    requires s != [] && IsSpace(s[0]) && StrippedAt(s[1..], b, r)
    ensures StrippedAt(s, b + 1, r)
  {
    assert s[..b + 1] == [s[0]] + s[1..][..b];
    assert s[b + 1 + |r|..] == s[1..][b + |r|..];
  }

  lemma StrippedBeforeSpace(s: string, a: nat, r: string)
    requires s != [] && IsSpace(s[|s| - 1]) && StrippedAt(s[..|s| - 1], a, r)
    ensures StrippedAt(s, a, r)
  {
    var t := s[..|s| - 1];
    assert s[..a] == t[..a];
    assert s[a + |r|..] == t[a + |r|..] + [s[|s| - 1]];
  }

  /** `strip()` removes exactly the surrounding whitespace and nothing of the text inside. */
  lemma {:induction false} StripPadded(left: string, core: string, right: string)
    requires AllSpace(left) && AllSpace(right)
    requires core == [] || (!IsSpace(core[0]) && !IsSpace(core[|core| - 1]))
    ensures Strip(left + core + right) == core
    decreases |left| + |right|
  {
    var s := left + core + right;
    if left != [] {
      assert s[0] == left[0];
      assert s[1..] == left[1..] + core + right;
      StripPadded(left[1..], core, right);
    } else if right != [] {
      assert s[|s| - 1] == right[|right| - 1];
      if core == [] {
        assert s[0] == right[0];
        assert s[1..] == [] + [] + right[1..];
        StripPadded([], [], right[1..]);
      } else {
        assert s[0] == core[0];
        assert s[..|s| - 1] == [] + core + right[..|right| - 1];
        StripPadded([], core, right[..|right| - 1]);
      }
    } else {
      assert s == core;
    }
  }

  /** `strip()` is idempotent. */
  lemma StripIdempotent(s: string)
    ensures Strip(Strip(s)) == Strip(s)
  {
    StripSpec(s);
  }

  /** A token of `split()`: non-empty and free of whitespace. */
  predicate IsToken(t: string) {
    t != [] && forall i :: 0 <= i < |t| ==> !IsSpace(t[i])
  }

  /** The length of the leading run of non-whitespace characters. */
  function TokenEnd(s: string): (n: nat)
    ensures n <= |s|
    ensures n < |s| ==> IsSpace(s[n])
    ensures s != [] && !IsSpace(s[0]) ==> n > 0
  {
    if s == [] || IsSpace(s[0]) then 0 else 1 + TokenEnd(s[1..])
  }

  /** No character of the leading run is whitespace. */
  lemma {:induction false} TokenEndSpec(s: string)
    ensures forall i :: 0 <= i < TokenEnd(s) ==> !IsSpace(s[i])
  {
    if s != [] && !IsSpace(s[0]) {
      TokenEndSpec(s[1..]);
    }
  }

  /** `s.split()` with no argument: the maximal runs of non-whitespace, in order. */
  function Split(s: string): seq<string>
    decreases |s|
  {
    var t := TrimLeft(s);
    if t == [] then []
    else
      var n := TokenEnd(t);
      [t[..n]] + Split(t[n..])
  }

  /** Every word of a split is a token. */
  lemma {:induction false} SplitTokens(s: string)
    ensures forall i :: 0 <= i < |Split(s)| ==> IsToken(Split(s)[i])
    decreases |s|
  {
    var t := TrimLeft(s);
    if t != [] {
      var n := TokenEnd(t);
      TokenEndSpec(t);
      var word := t[..n];
      assert IsToken(word);
      var rest := Split(t[n..]);
      SplitTokens(t[n..]);
      assert Split(s) == [word] + rest;
      assert forall i :: 0 < i < |rest| + 1 ==> ([word] + rest)[i] == rest[i - 1];
    }
  }

  /** `" ".join(ts)` */
  function JoinWords(ts: seq<string>): string {
    if ts == [] then "" else if |ts| == 1 then ts[0] else ts[0] + " " + JoinWords(ts[1..])
  }

  /** `split()` takes apart again what `" ".join` put together from tokens. */
  lemma {:induction false} SplitJoinWords(ts: seq<string>)
    requires forall i :: 0 <= i < |ts| ==> IsToken(ts[i])
    ensures Split(JoinWords(ts)) == ts
  {
    if |ts| == 1 {
      SplitSingle(ts[0]);
    } else if |ts| > 1 {
      var t, tail := ts[0], ts[1..];
      var j := JoinWords(tail);
      assert forall i :: 0 <= i < |tail| ==> tail[i] == ts[i + 1];
      calc {
        Split(JoinWords(ts));
        { assert JoinWords(ts) == t + (" " + j); }
        Split(t + (" " + j));
        { SplitCons(t, " " + j); }
        [t] + Split(" " + j);
        { SplitSkipsSpace(j); }
        [t] + Split(j);
        { SplitJoinWords(tail); }
        [t] + tail;
        ts;
      }
    }
  }

  lemma SplitSingle(t: string)
    requires IsToken(t)
    ensures Split(t) == [t]
  {
    assert t + "" == t;
    SplitCons(t, "");
  }

  /** A token followed by whitespace (or nothing) is the first word of the split. */
  lemma SplitCons(t: string, rest: string)
    requires IsToken(t)
    requires rest == [] || IsSpace(rest[0])
    ensures Split(t + rest) == [t] + Split(rest)
  {
    var s := t + rest;
    assert s[0] == t[0];
    assert TrimLeft(s) == s;
    TokenEndAt(t, rest);
    assert s[..|t|] == t;
    assert s[|t|..] == rest;
  }

  lemma {:induction false} TokenEndAt(t: string, rest: string)
    requires IsToken(t)
    requires rest == [] || IsSpace(rest[0])
    ensures TokenEnd(t + rest) == |t|
    decreases |t|
  {
    var s := t + rest;
    assert s[0] == t[0];
    if |t| == 1 {
      assert s[1..] == rest;
    } else {
      assert s[1..] == t[1..] + rest;
      TokenEndAt(t[1..], rest);
    }
  }

  lemma SplitSkipsSpace(s: string)
    ensures Split(" " + s) == Split(s)
  {
    assert (" " + s)[1..] == s;
  }

  /** The index of the first occurrence of `c` in `s`. */
  function IndexOf(s: string, c: char): (i: nat)
    requires c in s
    ensures i < |s| && s[i] == c && c !in s[..i]
  {
    if s[0] == c then 0 else 1 + IndexOf(s[1..], c)
  }

  /** The text before the first `c`, or all of `s` when there is none. */
  function UpToFirst(s: string, c: char): (r: string)
    ensures c !in r
  {
    if c in s then s[..IndexOf(s, c)] else s
  }

  /** The text after the first `c`. */
  function AfterFirst(s: string, c: char): (r: string)
    requires c in s
    ensures |r| < |s|
  {
    s[IndexOf(s, c) + 1..]
  }

  /** `s.split(c)` for a one-character separator. */
  function SplitOn(s: string, c: char): (r: seq<string>)
    ensures |r| >= 1 && r[0] == UpToFirst(s, c)
    ensures |r| >= 2 <==> c in s
    ensures forall i :: 0 <= i < |r| ==> c !in r[i]
    decreases |s|
  {
    if c !in s then [s]
    else
      [UpToFirst(s, c)] + SplitOn(AfterFirst(s, c), c)
  }

  /** `c.join(parts)` */
  function JoinOn(parts: seq<string>, c: char): string
    requires |parts| >= 1
  {
    if |parts| == 1 then parts[0] else parts[0] + [c] + JoinOn(parts[1..], c)
  }

  /** Joining the pieces of a `split(c)` with `c` gives back the original text. */
  lemma {:induction false} JoinSplitOn(s: string, c: char)
    ensures JoinOn(SplitOn(s, c), c) == s
    decreases |s|
  {
    if c in s {
      var i := IndexOf(s, c);
      JoinSplitOn(AfterFirst(s, c), c);
      assert s == s[..i] + [c] + s[i + 1..];
    }
  }

  /** A piece without `c`, then `c`: the piece is the first part of the split and the rest is split on. */
  lemma SplitOnPiece(p: string, c: char, rest: string)
    requires c !in p
    ensures SplitOn(p + [c] + rest, c) == [p] + SplitOn(rest, c)
  {
    var s := p + [c] + rest;
    assert s[..|p|] == p;
    assert s[|p| + 1..] == rest;
    SplitOnAt(s, c, |p|);
  }

  /** When the first `c` of `s` is at `k`, the split is the text before it, then the split of the text after it. */
  lemma SplitOnAt(s: string, c: char, k: nat)
    requires k < |s| && s[k] == c && c !in s[..k]
    ensures SplitOn(s, c) == [s[..k]] + SplitOn(s[k + 1..], c)
  {
    IndexOfFirst(s, c, k);
  }

  /** The first `c` of `s` is the one at `k` when `c` does not occur before it. */
  lemma IndexOfFirst(s: string, c: char, k: nat)
    requires k < |s| && s[k] == c && c !in s[..k]
    ensures IndexOf(s, c) == k
  {
  }

  /** Splitting on `c` takes apart pieces that were joined with `c` and contain no `c`. */
  lemma {:induction false} SplitOnJoin(parts: seq<string>, c: char)
    requires |parts| >= 1
    requires forall i :: 0 <= i < |parts| ==> c !in parts[i]
    ensures SplitOn(JoinOn(parts, c), c) == parts
  {
    if |parts| > 1 {
      var tail := parts[1..];
      assert JoinOn(parts, c) == parts[0] + [c] + JoinOn(tail, c);
      SplitOnPiece(parts[0], c, JoinOn(tail, c));
      assert forall i :: 0 <= i < |tail| ==> tail[i] == parts[i + 1];
      SplitOnJoin(tail, c);
      assert parts == [parts[0]] + tail;
    }
  }

  /** `s.replace(c, "")` */
  function Remove(s: string, c: char): (r: string)
    ensures c !in r
    ensures c !in s ==> r == s
    ensures forall x :: x != c ==> multiset(r)[x] == multiset(s)[x]
  {
    if s == [] then []
    else
      assert s == [s[0]] + s[1..];
      (if s[0] == c then [] else [s[0]]) + Remove(s[1..], c)
  }

  /** Removing `c` from two texts put together removes it from each, in order. */
  lemma {:induction false} RemoveAppend(a: string, b: string, c: char)
    ensures Remove(a + b, c) == Remove(a, c) + Remove(b, c)
    decreases |a|
  {
    if a != [] {
      assert (a + b)[1..] == a[1..] + b;
      RemoveAppend(a[1..], b, c);
    } else {
      assert a + b == b;
    }
  }

  /** The pieces put together with nothing between them. */
  function Concat(parts: seq<string>): string {
    if parts == [] then [] else parts[0] + Concat(parts[1..])
  }

  /**
   * Removing `c` is splitting on `c` and putting the pieces back together
   * without it: the other characters keep their order.
   */
  lemma {:induction false} RemoveSplitOn(s: string, c: char)
    ensures Remove(s, c) == Concat(SplitOn(s, c))
    decreases |s|
  {
    if c in s {
      var p, rest := UpToFirst(s, c), AfterFirst(s, c);
      assert s == p + ([c] + rest);
      RemoveAppend(p, [c] + rest, c);
      RemoveAppend([c], rest, c);
      RemoveSplitOn(rest, c);
    }
  }

  /** `c.upper()` restricted to the ASCII letters. */
  function UpperChar(c: char): char {
    if 'a' <= c <= 'z' then (c as int - 32) as char else c
  }

  /** `c.lower()` restricted to the ASCII letters. */
  function LowerChar(c: char): char {
    if 'A' <= c <= 'Z' then (c as int + 32) as char else c
  }

  function Upper(s: string): (r: string)
    ensures |r| == |s|
  {
    if s == [] then [] else [UpperChar(s[0])] + Upper(s[1..])
  }

  function Lower(s: string): (r: string)
    ensures |r| == |s|
  {
    if s == [] then [] else [LowerChar(s[0])] + Lower(s[1..])
  }

  /** `lower()` works character by character. */
  lemma {:induction false} LowerAt(s: string, i: nat)
    requires i < |s|
    ensures Lower(s)[i] == LowerChar(s[i])
  {
    if i > 0 {
      LowerAt(s[1..], i - 1);
    }
  }

  /** `s[:n]`: Python slicing clips at the end of the string. */
  function Prefix(s: string, n: nat): (r: string)
    ensures |r| <= n
  {
    if |s| <= n then s else s[..n]
  }

  /** `s[:5] == "BEGIN"` holds exactly when `s` starts with `BEGIN`. */
  lemma PrefixIsBegin(s: string)
    ensures (Prefix(s, 5) == "BEGIN") <==> (|s| >= 5 && s[..5] == "BEGIN")
  {
  }
}

=== FILE: wrappers.dfy ===
/** Failure-carrying values shared by every module of the model. */
module Wrappers {

  datatype Option<T> = None | Some(value: T)

  /** The outcome of an operation that the Python code either completes or aborts by raising. */
  datatype Result<T, E> = Ok(value: T) | Err(error: E)
}
